=== FILE: README.md ===
# smart_scope core, modelled in Dafny

A model of the smart scope's data path and aiming logic, in three parts:

- **Sensor board firmware** (`scope-zephyr`). It frames each reading as a
  TLV message: a 40-byte header with a magic word, the total length, a
  frame number and a cycle count; then a type/length record header; then
  the payload. Its rotary encoder front end debounces the GPIO callbacks.
  It also decodes the two encoder phases into left and right detents.
- **Host TLV processors** (`tlv-processor`). These find the magic word in
  a stream of serial reads and read the header and body into a frame
  buffer. They give up on a length that does not fit, and ask for a port
  reset after too many empty reads. They then turn a radar frame into a
  point cloud message, or a sensor board frame into an IMU or UI message.
- **Aiming application** (`scope-deepstream`). It holds:
  - the calibration table and its CRC-32 sealed file;
  - linear and bilinear interpolation over that table;
  - the radar health ring and the IMU rolling average and variance;
  - the radar centroid estimate;
  - the Lock/Track/Fire/Fail aiming state machine and its status overlay;
  - the screen-coordinate validators used by the drawing helpers;
  - the calibration menu, and the one-slot UI mailbox that feeds it.

Each module follows one source file, or a small group of them:

| module | source |
|---|---|
| `Bytes` | little-endian codecs |
| `Wire` | shared wire constants |
| `TlvEncode` | `tlv.c` |
| `Framer` | `tty.h`/`tty.cpp` |
| `RadarTlv` | `radar.cpp` |
| `SensorTlv` | `sensor.cpp` |
| `RoundTrip` | encoder to framer to dispatcher |
| `Crc32` | `crc.c` |
| `Calibration` | `calibration.c` |
| `Interpolate` | `interpolate.c` |
| `Rings` | the circular time buffers several files share |
| `RadarHealth` | `radar.c` |
| `Imu` | `imu.c` |
| `Centroid` | `algo.c`, the radar half |
| `Aim` | `algo.c`, the state machine |
| `Overlay` | the state overlay in `algo.c` |
| `Screen` | `deepstream.c` |
| `Menu` | `menu.c` |
| `UiMailbox` | `scope-deepstream/ui.c` |
| `Rotary` | `scope-zephyr/src/ui.c` |

Conventions of the model:

- Integers are unbounded. The C widths that matter are written out:
  - the `uint32_t` frame counter wraps;
  - `size_t` subtraction wraps in the length check;
  - `int16_t` cells are truncated;
  - the 64-bit uptime difference in the debounce wraps;
  - C's truncating division and float-to-int cast are spelled out.
- Floating point is modelled as `real`.
- Clocks, reads from a port, and message-queue receives are parameters
  (`now`, `seq<ReadResult>`, `Option<seq<byte>>`).

A few behaviours of the code are modelled as they are, even though they
look accidental. Each is stated by a lemma:

- The magic-word scan restarts at zero on a mismatch without re-testing
  the byte. A repeated first byte therefore hides the magic word that
  follows it (`Framer.RepeatedStartByteMissesMagic`).
- A sensor board read that asks for a reset is not acted on
  (`SensorTlv.ResetNotActedOn`).
- With an empty history, the radar health check passes at exactly
  3500 ms (`RadarHealth.EmptyRingPassesAtGraceEnd`).
- The IMU rejects only large positive accelerations
  (`Imu.NegativeAccelerationAccepted`).
- The aim point's y is the top of the bounding box.
- The lock state machine locks on its first tick after boot.
- A menu event at second 0 is ignored, because a last-event time of 0
  reads as "no event yet".
- The wheel "acceleration" step of 15 is unreachable with a 15-slot
  history.
- A short sensor record is forwarded padded with whatever the frame
  buffer held before (`SensorTlv.ShortRecordPaddedWithStaleBytes`).

## Model

| member | source | states |
|---|---|---|
| Bytes.ToU32 | scope-zephyr/src/tlv.c:43 | a C assignment into a `uint32_t` keeps the value modulo 2^32 |
| Bytes.ToI16 | scope-deepstream/menu.c:371-374 | stepping the `int16_t` calibration value keeps it modulo 2^16, and in-range values unchanged |
| Bytes.DecodeEncodeU32 | scope-zephyr/include/tlv.h:29-39 | a 32-bit header field written little-endian reads back as itself |
| Bytes.EncodeDecodeU32 | tlv-processor/tty.cpp:263 | every four bytes are the encoding of the value they are read as |
| Bytes.DecodeEncodeU16 | scope-zephyr/include/tlv.h:3-6 | a 16-bit magic word written little-endian reads back as itself |
| Bytes.EncodeDecodeU16 | scope-zephyr/include/tlv.h:3-6 | every two bytes are the encoding of the 16-bit value they are read as |
| Bytes.DecodeEncodeI16 | scope-deepstream/calibration.h:24-28 | a signed calibration cell written in two's complement reads back as itself |
| Bytes.EncodeDecodeI16 | scope-deepstream/calibration.h:24-28 | every two bytes are the encoding of the signed cell they are read as |
| Bytes.DecodeU32Window | tlv-processor/tty.cpp:262-264 | a field's value depends only on its own four bytes, not on where the buffer sits |
| Bytes.Splice | tlv-processor/tty.cpp:197 | a memcpy into a buffer writes exactly the copied bytes there and keeps every other byte |
| Wire.MagicWordsSerialise | scope-zephyr/include/tlv.h:3-6 | the four magic words, laid out little-endian, are the eight magic bytes the host scans for |
| TlvEncode.MagicBytes | scope-zephyr/src/tlv.c:31-45 | the header opens with the magic bytes the host expects |
| TlvEncode.Header | scope-zephyr/src/tlv.c:31-45 | the header written is always 40 bytes long |
| TlvEncode.EncodeTlv | scope-zephyr/src/tlv.c:17-29 | the encoded length is header plus record header plus payload, and the frame counter steps by one modulo 2^32 |
| TlvEncode.HeaderSlices | scope-zephyr/src/tlv.c:31-45 | the magic, total length, frame number and cycle count land at their offsets, and the version, platform and remaining fields keep the bytes the buffer held |
| TlvEncode.EncodeTlvHeader | scope-zephyr/src/tlv.c:31-45 | the encoded frame's header reads back as the magic, the total length and the frame number before the increment |
| TlvEncode.EncodeTlvRecord | scope-zephyr/src/tlv.c:47-63 | the record header reads back as the type and payload length, and the payload follows it unchanged |
| TlvEncode.FrameNumbersConsecutive | scope-zephyr/src/tlv.c:43 | two successive frames carry frame numbers n and n + 1 modulo 2^32 |
| Framer.Refill | tlv-processor/tty.h:86-100 | a read restarts the chunk at index 0, counts consecutive empty reads, and asks for a reset once more than the allowed number of empty reads have occurred |
| Framer.ZeroRunCounts | tlv-processor/tty.h:86-100 | n empty reads in a row add n to the empty-read count; the last one asks for a reset exactly when the count passes the limit, and reads as zero otherwise |
| Framer.ResetOnZeroRead256 | tlv-processor/tty.h:30 | the 255th empty read is still a zero, and the 256th is a reset request |
| Framer.MatchStep | tlv-processor/tty.cpp:238-250 | the matched count grows exactly when the byte is the next magic byte, and otherwise falls back to zero |
| Framer.Scan | tlv-processor/tty.cpp:238-250 | the scan either finds the magic ending within the data, or reports a partial match shorter than the magic |
| Framer.ScanAppend | tlv-processor/tty.cpp:228-257 | scanning two chunks one after the other is the same as scanning them joined, so read boundaries are invisible to the search |
| Framer.ScanSound | tlv-processor/tty.cpp:238-250 | where the scan reports the magic found, the eight bytes before that point are the magic |
| Framer.ScanMagicFirst | tlv-processor/tty.cpp:238-250 | a stream that starts with the magic is found straight after it |
| Framer.RepeatedStartByteMissesMagic | tlv-processor/tty.cpp:245-247 | a repeated first magic byte makes the scan miss the magic word that follows, since a mismatching byte is not compared again from the start |
| Framer.FindMagic | tlv-processor/tty.cpp:228-257 | the search never reports a reset (a reset request from the port goes unchecked there), and when it finds the magic it has consumed input |
| Framer.ReadChunk | tlv-processor/tty.cpp:195-208 | the copy takes at most the requested bytes, all of them when it completes, and stops on a reset request from the port |
| Framer.LengthCheck | tlv-processor/tty.cpp:260-269 | the unsigned subtraction wraps for totals below the header size, so exactly totals from 40 to the maximum frame size are accepted |
| Framer.ReadHeader | tlv-processor/tty.cpp:258-260 | the header read keeps the buffer size, consumes input when it completes, and passes on a reset request |
| Framer.FrameFrom | tlv-processor/tty.cpp:216-276 | an accepted frame has a total length between the header size and the maximum frame size, and a reset comes only from the port asking for one |
| Framer.NewHandler | tlv-processor/tty.h:80-84 | a new handler starts with an empty chunk and no empty reads |
| Framer.ReadFrame | tlv-processor/tty.cpp:216-276 | the handler stays well formed; an accepted frame records its total length, between the header size and the maximum, and consumes input |
| Framer.LastProcessed | tlv-processor/tty.h:80-84 | the processed view is the handler's buffer and last frame size |
| Framer.CallAfterResetUnhandled | tlv-processor/tty.cpp:228-236 | a handler whose last read asked for a reset is left with a negative read result, so its next call stops unhandled in the magic-word scan instead of reading a frame |
| Framer.FindMagicFlat | tlv-processor/tty.cpp:228-257 | the magic search over a run of reads agrees with the same search over the bytes of those reads joined |
| Framer.ReadChunkFlat | tlv-processor/tty.cpp:195-208 | the chunked copy agrees with taking the next bytes of the joined stream |
| Framer.ChunkingInvisible | tlv-processor/tty.cpp:216-276 | reading a frame from a run of non-empty reads gives the frame that a one-piece read of the joined bytes gives, whatever the read sizes |
| Framer.FlatFrameFirst | tlv-processor/tty.cpp:216-276 | a stream that starts with a well-formed frame yields exactly that frame |
| Framer.RejectSkipsHeader | tlv-processor/tty.cpp:263-269 | after a length that does not fit, the search restarts after the header just read |
| RadarTlv.CloudPoints | tlv-processor/radar.cpp:85-117 | each point pairs the sphere coordinates with their side info |
| RadarTlv.ProcessRadarTlv | tlv-processor/radar.cpp:59-121 | only a spherical-points record yields a cloud; it has min(length / 16, 325) points (`MAX_CLOUD_POINTS`) and a message size of the metadata plus 20 bytes per point |
| RadarTlv.ProcessRadarTlvClipped | tlv-processor/radar.cpp:72-77 | the clipped processor never yields more than the maximum cloud size |
| RadarTlv.RadarFrame | tlv-processor/radar_tlv.h:40-97 | a radar frame with n points is 40 + 2 * 8 + 20 * n bytes long |
| RadarTlv.FrameLayout | tlv-processor/radar_tlv.h:40-97 | a radar frame's record headers and point blocks read back at the offsets the processor uses |
| RadarTlv.RadarRoundTrip | tlv-processor/radar.cpp:59-121 | a frame built from at most the maximum cloud size of points decodes to exactly those points |
| RadarTlv.OverfullFrameAborts | tlv-processor/radar.cpp:72-77 | a frame with more points than the maximum trips the assertion, even though the count was clipped just before |
| RadarTlv.ClippedRoundTrip | tlv-processor/radar.cpp:72-77 | with the clip honoured, any frame decodes to its first maximum-cloud-size points |
| RadarTlv.RadarMessage | tlv-processor/radar.cpp:85-120 | the message is the metadata followed by 20 bytes per point |
| RadarTlv.RadarMessageFields | tlv-processor/radar.cpp:85-120 | each point's block in the message reads back as its coordinates, SNR and noise |
| RadarTlv.RadarIteration | tlv-processor/radar.cpp:131-147 | a forwarded message is between the metadata size and a full cloud, and a restart installs a fresh handler |
| RadarTlv.ForwardsExactlyClouds | tlv-processor/radar.cpp:131-147 | a message is forwarded exactly when a frame was read and it decoded to a cloud |
| RadarTlv.RestartRecovers | tlv-processor/radar.cpp:138-142 | after a reset request the loop gets a clean port, while the old handler would stay stuck |
| SensorTlv.Sample | tlv-processor/sensor.cpp:55-70 | the forwarded sample is the 28 bytes (`sizeof(imu_t)`) that follow the record header |
| SensorTlv.ProcessSensorBoardTlv | tlv-processor/sensor.cpp:72-84 | every message sent carries those 28 sample bytes, and at most two are sent |
| SensorTlv.DispatchByType | tlv-processor/sensor.cpp:72-84 | an IMU record reaches both IMU queues, a UI record the UI queue, anything else no queue, and no queue twice |
| SensorTlv.EncodedSampleForwarded | tlv-processor/sensor.cpp:72-84 | a sample the board encodes reaches its queue with the bytes it was encoded from |
| SensorTlv.ShortRecordPaddedWithStaleBytes | tlv-processor/sensor.cpp:82 | a record shorter than a sample is forwarded with the buffer's older bytes as padding |
| SensorTlv.SensorIteration | tlv-processor/sensor.cpp:86-94 | a completed read, and also a reset request, dispatches the last frame buffer; a starved or unhandled read sends nothing |
| SensorTlv.ResetNotActedOn | tlv-processor/sensor.cpp:86-94 | after a reset request the frame buffer is dispatched again, and every later call reports the port unhandled and sends nothing |
| RoundTrip.EncodedFrameFlat | scope-zephyr/src/tlv.c:17-29 | the bytes the board encodes are read back by the host framer as exactly that frame |
| RoundTrip.EncodedFrameRead | tlv-processor/tty.cpp:216-276 | the host reads a frame the board encoded, however the port splits it into reads |
| RoundTrip.SampleDelivered | tlv-processor/sensor.cpp:72-84 | a sample the board encodes reaches the host's IMU or UI queue unchanged |
| Crc32.Crc32 | scope-deepstream/crc.c:5-19 | the checksum of the empty buffer is zero |
| Crc32.RegisterAppend | scope-deepstream/crc.c:9-16 | feeding a buffer is feeding its two halves one after the other |
| Crc32.CheckValue | scope-deepstream/crc.c:5-19 | the checksum of "123456789" is the standard CRC-32 check value 0xCBF43926 |
| Crc32.RegisterInjective | scope-deepstream/crc.c:9-16 | different starting registers stay different after any input |
| Crc32.StepsInjectiveInBits | scope-deepstream/crc.c:11-15 | from one register, different bit strings of up to eight bits give different registers |
| Crc32.UpdateByteInjectiveInByte | scope-deepstream/crc.c:11-15 | from one register, different bytes give different registers |
| Crc32.SingleByteChangeDetected | scope-deepstream/crc.c:5-19 | changing any one byte of a buffer changes its checksum |
| Crc32.ShiftInBit | scope-deepstream/crc.c:12-14 | one inner step shifts right and applies the reflected polynomial when the low bit differs |
| Crc32.ShiftInByte | scope-deepstream/crc.c:11-15 | the inner loop feeds the eight bits of a byte, low bit first |
| Crc32.ComputeCrc32 | scope-deepstream/crc.c:5-19 | the loop computes the checksum of the whole buffer |
| Calibration.CellIndex | scope-deepstream/calibration.h:7-33 | drop cells come before lead cells, each within its own array |
| Calibration.CellIndexInjective | scope-deepstream/calibration.h:24-28 | no two in-range cells share a memory position |
| Calibration.GuardAsWrittenAdmitsOverrun | scope-deepstream/calibration.c:26-27 | the `<=` assertion lets a distance equal to the array size through, reading the first lead cell or past the struct |
| Calibration.GuardCorrectedInBounds | scope-deepstream/calibration.c:26-27 | with a strict bound, every accepted access stays inside its own array |
| Calibration.Fetch | scope-deepstream/calibration.c:25-34 | a drop fetch reads the distance's cell, and a lead fetch reads the cell at that distance and velocity |
| Calibration.DropIgnoresVelocity | scope-deepstream/calibration.c:29-30 | the velocity plays no part in a drop fetch |
| Calibration.Save | scope-deepstream/calibration.c:36-45 | a save keeps the table well formed and leaves the stored CRC as it was, to be resealed on writing |
| Calibration.SaveThenFetch | scope-deepstream/calibration.c:25-45 | a fetch after a save reads the saved value at the saved cell, and the old value everywhere else |
| Calibration.DecodeEncodeCells | scope-deepstream/calibration.c:60-73 | cells written as little-endian int16 read back as themselves |
| Calibration.EncodeDecodeCells | scope-deepstream/calibration.c:60-73 | every even-length byte string is the encoding of the cells it reads as |
| Calibration.Image | scope-deepstream/calibration.h:24-33 | the file image is 844 bytes |
| Calibration.Parse | scope-deepstream/calibration.c:67-73 | reading an 844-byte image gives a well-formed table |
| Calibration.ParseImage | scope-deepstream/calibration.c:60-73 | writing a table out and reading it back gives the same table |
| Calibration.ImageParse | scope-deepstream/calibration.c:60-73 | every 844-byte file is the image of the table it reads as |
| Calibration.FileLayout | scope-deepstream/calibration.h:24-33 | each cell sits at its own two bytes after the four CRC bytes |
| Calibration.SealWithCrc | scope-deepstream/calibration.c:60-65 | sealing keeps the cells and stores the checksum of the data bytes |
| Calibration.Validate | scope-deepstream/calibration.c:75-81 | validation returns 0 exactly when the stored CRC matches the data, and -1 otherwise |
| Calibration.ValidateAfterSeal | scope-deepstream/calibration.c:60-81 | a freshly sealed table validates |
| Calibration.AfterRead | scope-deepstream/calibration.c:67-73 | a failed read leaves the table in memory as it was |
| Calibration.Load | scope-deepstream/calibration.c:47-58 | loading succeeds exactly when a full-length read delivers a table whose CRC matches |
| Calibration.FullReadParses | scope-deepstream/calibration.c:67-73 | a full-length read gives the table the file's image encodes, whatever memory held before |
| Calibration.SaveSealLoad | scope-deepstream/calibration.c:83-90 | a table saved, sealed and written loads back with the saved value in place |
| Calibration.ShortReadRejected | scope-deepstream/calibration.c:67-73 | a file shorter than the struct never loads |
| Calibration.CorruptionDetected | scope-deepstream/calibration.c:47-58 | a sealed file with any single byte changed fails to load |
| Interpolate.Segment | scope-deepstream/interpolate.c:82-90 | the interval lookup picks the interval whose nodes bracket the point |
| Interpolate.SegmentAtNode | scope-deepstream/interpolate.c:82-90 | at a node the lookup picks the interval starting there, or the last interval at the last node |
| Interpolate.LerpBetween | scope-deepstream/interpolate.c:82-90 | between its end points a straight line stays between the end values |
| Interpolate.LinearBetweenNeighbours | scope-deepstream/interpolate.c:82-90 | an in-range linear interpolation lies between the values at the two bracketing nodes |
| Interpolate.LinearExactAtNodes | scope-deepstream/interpolate.c:71-90 | the linear interpolant passes through every node |
| Interpolate.BilinearOnColumn | scope-deepstream/interpolate.c:52-69 | on a velocity node the bilinear surface is the linear interpolant of that column |
| Interpolate.BilinearExactAtNodes | scope-deepstream/interpolate.c:20-69 | the bilinear surface passes through every grid node |
| Interpolate.ClampDistance | scope-deepstream/interpolate.c:56-60 | distances are clamped into 10..30 m and left alone inside it |
| Interpolate.ClampVelocity | scope-deepstream/interpolate.c:62-66 | velocities are clamped into 0..3 and left alone inside it |
| Interpolate.DropValues | scope-deepstream/interpolate.c:71-80 | the drop nodes hold the drop cells in distance order |
| Interpolate.LeadGrid | scope-deepstream/interpolate.c:20-50 | the lead grid holds the lead cell for each distance and velocity |
| Interpolate.DropExactAtNodes | scope-deepstream/interpolate.c:71-90 | at a calibrated distance the drop query returns the stored value |
| Interpolate.DropClamped | scope-deepstream/interpolate.c:82-90 | a distance outside the table reads the nearest end value |
| Interpolate.DropMidpoint | scope-deepstream/interpolate.c:82-90 | halfway between two calibrated distances the drop is the mean of their values |
| Interpolate.DropBetweenNeighbours | scope-deepstream/interpolate.c:82-90 | every drop answer lies between two neighbouring calibrated values |
| Interpolate.LeadExactAtNodes | scope-deepstream/interpolate.c:52-69 | at a calibrated distance and velocity the lead query returns the stored value |
| Interpolate.LeadVelocitySymmetric | scope-deepstream/interpolate.c:54 | only the magnitude of the angular velocity matters |
| Interpolate.LeadClamped | scope-deepstream/interpolate.c:52-69 | velocities beyond the table read as the table's edge |
| Interpolate.LeadOnVelocityNode | scope-deepstream/interpolate.c:52-69 | on a velocity node the lead is the linear interpolation of that velocity's column |
| Rings.Next | scope-deepstream/radar.c:102-113 | the ring index advances by one modulo the ring size |
| Rings.Write | scope-deepstream/radar.c:102-113 | a write stores the time at the current index, advances it, and keeps every other slot |
| Rings.WriteAllSlots | scope-deepstream/radar.c:102-113 | after k writes the index has moved on k slots, and the j-th write sits j slots after where the writing began |
| Rings.CountIsRecentSlots | scope-deepstream/radar.c:115-137 | the counting loop counts exactly the slots at or after the cutoff |
| Rings.CountConstant | scope-deepstream/radar.c:115-137 | a ring of equal times counts all or nothing |
| Rings.WrittenCard | scope-deepstream/radar.c:102-113 | k successive writes land in k distinct slots, none of them a slot further on |
| Rings.CountCovers | scope-deepstream/radar.c:115-137 | the count is at least the number of any set of recent slots |
| Rings.ManyRecent | scope-deepstream/radar.c:115-137 | k recent writes into distinct slots make the count at least k |
| Rings.RecentWritesCounted | scope-deepstream/radar.c:102-137 | k recent writes, however many came before, are all counted |
| RadarHealth.Initial | scope-deepstream/radar.c:102-113 | the history starts well formed |
| RadarHealth.RegisterEvent | scope-deepstream/radar.c:102-113 | a frame is stamped at the ring index, and the frame and point totals grow |
| RadarHealth.SufficientFramesRecently | scope-deepstream/radar.c:115-137 | the radar is healthy exactly when the grace period is over and more than five frames arrived in the last period |
| RadarHealth.FetchRadarHistory | scope-deepstream/radar.c:139-148 | the reported totals are the history's frame and point counts |
| RadarHealth.RecentBounded | scope-deepstream/radar.c:115-137 | no more frames count as recent than the ring holds |
| RadarHealth.ThresholdStrict | scope-deepstream/radar.c:130 | exactly five recent frames are not enough |
| RadarHealth.FetchAfterRegister | scope-deepstream/radar.c:102-148 | registering a frame adds one to the frame total and its points to the point total |
| RadarHealth.RegisterAllRing | scope-deepstream/radar.c:102-113 | a run of registered frames writes their times into the ring in order |
| RadarHealth.SixRecentFramesSuffice | scope-deepstream/radar.c:115-137 | six frames within the last period make the radar healthy |
| RadarHealth.EmptyRingPassesAtGraceEnd | scope-deepstream/radar.c:115-137 | with no frames at all the check passes at exactly the end of the grace period, and at no other time |
| Imu.Initial | scope-deepstream/imu.c:140-166 | the estimator starts well formed |
| Imu.Averaged | scope-deepstream/imu.c:97-126 | the average leaves the pitch and roll rates and the cycle count zero |
| Imu.RollingAverage | scope-deepstream/imu.c:97-126 | a sample enters the ring at the next index, and the average is taken over the ring |
| Imu.StoreForVariance | scope-deepstream/imu.c:77-95 | the yaw rate in degrees enters the variance ring at its index, which advances |
| Imu.GetImuSample | scope-deepstream/imu.c:140-166 | a sample is rejected with -1 exactly when an acceleration is too large, and otherwise stored with its yaw rate (r_y) negated |
| Imu.NegativeAccelerationAccepted | scope-deepstream/imu.c:152 | the acceleration check is one-sided: large negative accelerations pass |
| Imu.SquaredDeviation | scope-deepstream/imu.c:53-75 | the sum of squared deviations is never negative |
| Imu.MeanAndVariance | scope-deepstream/imu.c:53-75 | the variance of the rotation is never negative |
| Imu.SteadyRingHasNoVariance | scope-deepstream/imu.c:53-75 | a constant ring has that constant minus the offset as mean and zero variance |
| Imu.Calibrate | scope-deepstream/imu.c:34-51 | calibration changes only the offset; every other field of the estimator, the variance index included, is kept |
| Imu.SumShift | scope-deepstream/imu.c:72 | taking the offset off each of n means takes n times the offset off their sum |
| Imu.CalibrateOffset | scope-deepstream/imu.c:34-51 | the new offset is the average of the five raw snapshot means less the offset already in force, since each mean subtracts it (`imu.c:72`) |
| Imu.CalibrationZeroesSteadyRate | scope-deepstream/imu.c:34-75 | calibrating on a steady rate makes that rate read as zero afterwards |
| Imu.FiveCallsFillRing | scope-deepstream/imu.c:97-126 | five samples in a row fill the whole ring |
| Imu.FiveSameSamples | scope-deepstream/imu.c:97-126 | after five equal samples the average is that sample |
| Imu.AverageOfFullRing | scope-deepstream/imu.c:97-126 | a ring of equal samples averages to that sample |
| Imu.StoreAllInOrder | scope-deepstream/imu.c:77-95 | successive samples fill the variance ring in order |
| Imu.SteadySamplesNoVariance | scope-deepstream/imu.c:53-95 | a full run of equal yaw rates gives zero variance |
| Centroid.Kept | scope-deepstream/algo.c:192-233 | filtering never adds points |
| Centroid.FilterOutliers | scope-deepstream/algo.c:192-233 | the filter loop keeps exactly the points the filter predicate keeps, in order, and counts them |
| Centroid.KeptAppend | scope-deepstream/algo.c:192-233 | filtering two runs of points is filtering each and joining |
| Centroid.KeptMembers | scope-deepstream/algo.c:192-233 | a point survives exactly when it was given and passes the test |
| Centroid.FilterIdempotent | scope-deepstream/algo.c:192-233 | filtering twice keeps what filtering once keeps |
| Centroid.MeanYAbove | scope-deepstream/algo.c:235-255 | points all beyond a range have their mean beyond it |
| Centroid.RoughMeanBeyondCase | scope-deepstream/algo.c:200-213 | the mean of the points that survive the rough filter lies beyond the minimum radar distance |
| Centroid.FindCentroid | scope-deepstream/algo.c:257-285 | a cloud with no usable point leaves the estimate as it was |
| Centroid.DistanceIsRingAverage | scope-deepstream/algo.c:257-285 | the distance reported is the average of the ring of recent centroid distances |
| Centroid.FiveCloudsFillRing | scope-deepstream/algo.c:257-285 | after five usable clouds every ring slot holds the centroid distance of one of them |
| Centroid.FiveCloudsSlotsBeyondCase | scope-deepstream/algo.c:257-285 | after five usable clouds every ring slot lies beyond the minimum distance |
| Centroid.SettledDistanceBeyondCase | scope-deepstream/algo.c:257-285 | after five usable clouds the reported distance lies beyond the minimum distance |
| Centroid.FiveSameCloudsSettle | scope-deepstream/algo.c:257-285 | five usable clouds whose survivors average to the same range settle the reported distance on exactly that range, whatever the ring held before |
| Centroid.AverageOfConstant | scope-deepstream/algo.c:274-278 | the average of five equal slots is their value |
| Aim.CDiv | scope-deepstream/algo.c:307-314 | C's division truncates toward zero |
| Aim.Trunc | scope-deepstream/algo.c:327-341 | C's float-to-int cast truncates toward zero |
| Aim.AimLocation | scope-deepstream/algo.c:317-324 | the aim point is the box's horizontal centre at the box's top edge |
| Aim.CenterOffsetSquared | scope-deepstream/algo.c:327-341 | the squared distance from the screen centre is never negative |
| Aim.CenteredIsSqrtTest | scope-deepstream/algo.c:327-341 | comparing squared distances agrees with the source's truncated square root below 150 |
| Aim.Boot | scope-deepstream/algo.c:591-609 | the machine starts well formed and runs Lock first |
| Aim.LockStep | scope-deepstream/algo.c:430-466 | a centered frame is stamped in the lock ring, the lock count is the number of recent stamps, and the machine moves to Track exactly when more than 20 are recent |
| Aim.FailReasons | scope-deepstream/algo.c:387-428 | each failure bit is set exactly when its own condition holds |
| Aim.TrackStep | scope-deepstream/algo.c:387-428 | tracking records Track as the state and keeps the lock ring |
| Aim.FireStep | scope-deepstream/algo.c:343-385 | Fire returns to Lock strictly after its exit time, and draws the aim point of the current box, or the stored one when there is none |
| Aim.FailStep | scope-deepstream/algo.c:356-369 | Fail returns to Lock strictly after its exit time and changes nothing else |
| Aim.Step | scope-deepstream/algo.c:591-609 | the state function that runs is the one chosen last tick, and only Fire draws a solution |
| Aim.BootTracksImmediately | scope-deepstream/algo.c:430-466 | in the first sampling period after boot the empty ring counts as full, so the first tick moves to Track |
| Aim.AllRecentCount | scope-deepstream/algo.c:447-452 | a ring whose every slot is recent is counted in full |
| Aim.CenteredBurstLocks | scope-deepstream/algo.c:430-466 | enough recent centered frames move Lock to Track |
| Aim.TrackOutcome | scope-deepstream/algo.c:387-428 | after the track window the machine fires when no reason is set, and fails with the reasons otherwise |
| Aim.FireSolution | scope-deepstream/algo.c:371-385 | the firing solution stores the angular velocity times the distance, the distance, and the aim point at the box's top |
| Aim.CorrectedAtCalibratedDistance | scope-deepstream/algo.c:468-475 | at a calibrated distance with no rotation, the corrected aim point moves by the stored drop |
| Overlay.LockPercentageSteps | scope-deepstream/algo.c:538-589 | each recent centered frame is worth five percent, up to 100 |
| Overlay.ReasonCount | scope-deepstream/algo.c:538-589 | at most three reasons are set |
| Overlay.OverlayFor | scope-deepstream/algo.c:538-589 | only Lock shows a progress bar, and Fail shows its reasons with the text moved left 20 pixels per reason |
| Overlay.Strip | scope-deepstream/algo.c:567-583 | stripping a code leaves the rest of a text that starts with it |
| Overlay.Mask | scope-deepstream/algo.h:12-15 | the mask has exactly the given reason bits set |
| Overlay.CodesRoundTrip | scope-deepstream/algo.c:567-583 | the codes written for the reasons read back as those reasons |
| Overlay.ParsedCodes | scope-deepstream/algo.c:567-583 | whatever reads as a run of codes is the run written for what it reads as |
| Overlay.FailTextRoundTrip | scope-deepstream/algo.c:567-583 | the failure text names exactly the reasons set in the mask |
| Overlay.ParsedIsFailText | scope-deepstream/algo.c:567-583 | only failure texts read as one |
| Overlay.OverlayFits | scope-deepstream/algo.c:538-589 | every overlay text fits the 64-byte display buffer |
| Overlay.LockProgressInRange | scope-deepstream/algo.c:538-589 | the lock progress is a percentage the bar drawing accepts |
| Overlay.OverlayFollowsStep | scope-deepstream/algo.c:538-609 | after a tick the overlay names the state whose function ran |
| Screen.OffScreenIsNotOnScreen | scope-deepstream/deepstream.c:367-376 | a point is rejected exactly when it is not a pixel of the 800 x 600 screen |
| Screen.CircleAcceptedIffInside | scope-deepstream/deepstream.c:379-393 | with the height check corrected, a circle is accepted exactly when it lies inside the screen |
| Screen.CircleAsWrittenAdmitsOverflow | scope-deepstream/deepstream.c:388 | checking the lower edge against the width accepts a circle that crosses the bottom of the screen |
| Screen.BoxIgnoresSize | scope-deepstream/deepstream.c:395-412 | only the box's top-left corner is checked, so its size never matters |
| Screen.DrawLine | scope-deepstream/deepstream.c:344-363 | a line is added exactly when both ends are on screen, and the result code says which |
| Screen.ProgressFillShare | scope-deepstream/deepstream.c:272-302 | the filled width is the truncated percentage of the bar and lies within it |
| Screen.ProgressRects | scope-deepstream/deepstream.c:272-302 | the outline is the given rectangle and the fill starts one pixel in with the same height |
| Screen.Strokes | scope-deepstream/deepstream.c:324-342 | a corner's two strokes are one horizontal and one vertical, each 15 pixels long from the corner and pointing into the box |
| Screen.StrokesInsideBox | scope-deepstream/deepstream.c:314-342 | on a box at least 15 pixels wide and high, every stroke of a corner hash ends inside the box |
| Screen.DrawHashes | scope-deepstream/deepstream.c:314-322 | nothing is drawn for an invalid box |
| Screen.InnerBoxGetsEightStrokes | scope-deepstream/deepstream.c:314-342 | a box well inside the screen gets all eight corner strokes |
| Screen.HashesOnCorners | scope-deepstream/deepstream.c:314-342 | at most eight strokes are added, every one on screen and starting at a corner of the box |
| Screen.DrawTexts | scope-deepstream/deepstream.c:164-191 | never more texts are drawn than given |
| Screen.DrawTextsMembers | scope-deepstream/deepstream.c:164-191 | with the pointer advanced every pass, the texts drawn are exactly the on-screen texts given |
| Screen.AsWrittenStopsAtOffScreen | scope-deepstream/deepstream.c:169-187 | as written, drawing stops at the first off-screen text |
| Screen.StuckDrawsNothing | scope-deepstream/deepstream.c:169-187 | as written, once an off-screen text is reached nothing more is drawn |
| Screen.SingleTextAgrees | scope-deepstream/deepstream.c:164-191 | with a single text, as every caller passes, the loop as written agrees with the corrected one |
| Screen.AsWrittenDropsLaterText | scope-deepstream/deepstream.c:169-187 | an off-screen first text hides a later on-screen one |
| Menu.NumberText | scope-deepstream/menu.c:433-464 | a menu number's label is never empty, so it never reads as the end of a menu |
| Menu.EmptyTextIffBlank | scope-deepstream/menu.c:177-185 | an item's text is empty exactly for the blank sentinel |
| Menu.MainMenu | scope-deepstream/menu.c:205-220 | the main menu has its entries and a sentinel |
| Menu.Items | scope-deepstream/menu.c:433-464 | every menu is its entries followed by one sentinel |
| Menu.MenusSentinelled | scope-deepstream/menu.c:177-220 | every menu has valid items up to its size and a blank item after them |
| Menu.RightCycles | scope-deepstream/menu.c:155-160 | turning right moves to the next item and wraps to the first |
| Menu.LastValidIsLast | scope-deepstream/menu.c:162-167 | the walk to the bottom stops at the last valid item |
| Menu.LeftCycles | scope-deepstream/menu.c:161-171 | turning left moves to the previous item and wraps to the last |
| Menu.LeftRightInverse | scope-deepstream/menu.c:155-171 | a right turn and a left turn undo each other |
| Menu.Reset | scope-deepstream/menu.c:123-131 | a reset returns to the top of the main menu outside any leaf, and keeps the stack contents and the calibration value |
| Menu.Unwind | scope-deepstream/menu.c:423-431 | the unwound kind, distance and velocity are within the table |
| Menu.PreEntry | scope-deepstream/menu.c:222-244 | entering a leaf changes only its own setting, and the calibration leaf loads the stored value of the cell the stack names |
| Menu.ItemAt | scope-deepstream/menu.c:433-464 | every reachable item is valid, and a submenu is one level deeper |
| Menu.Press | scope-deepstream/menu.c:134-154 | a press pushes the item, goes one level deeper and back to the first entry |
| Menu.Push | scope-deepstream/menu.c:135-136 | a push stores the item at the stack top and changes nothing else |
| Menu.Navigate | scope-deepstream/menu.c:133-175 | outside a leaf, a turn moves the cursor within the menu and a press descends |
| Menu.MoveRight | scope-deepstream/menu.c:155-160 | turning right is +1 modulo the menu size |
| Menu.MoveLeft | scope-deepstream/menu.c:161-171 | turning left is -1 modulo the menu size |
| Menu.SaveAllDistances | scope-deepstream/menu.c:377-382 | saving for every distance keeps the table well formed |
| Menu.CalibrationInput | scope-deepstream/menu.c:342-396 | a turn stamps the wheel ring and moves the value right by +step or left by -step with int16 wrap, the step being 5 when more than ten turns are recent and 1 otherwise; only a press changes the table or the timeout, and the menu position is kept |
| Menu.Draw | scope-deepstream/menu.c:75-107 | a frame shows the menu only while it is active |
| Menu.ClosedMenuIgnoresButton | scope-deepstream/menu.c:75-107 | a button press on a closed menu changes nothing |
| Menu.TurnOpensMenu | scope-deepstream/menu.c:75-107 | a turn opens a closed menu |
| Menu.EventAtTimeZeroKeepsMenuClosed | scope-deepstream/menu.c:109-111 | an event at second 0 does not show the menu, because a last-event time of 0 reads as "no event yet" |
| Menu.MenuTimesOut | scope-deepstream/menu.c:75-107 | once the timeout has passed, a frame without events closes and resets the menu |
| Menu.WheelStepNeverFifteen | scope-deepstream/menu.c:362-368 | with 15 history slots the jump is 1 or 5, and 5 exactly when more than ten turns are recent |
| Menu.FastSpinAccelerates | scope-deepstream/menu.c:346-374 | ten quick turns before this one make the value jump by five |
| Menu.WheelBurstCounted | scope-deepstream/menu.c:346-368 | the turns of a quick burst are all counted as recent |
| Menu.SaveAllDistancesCells | scope-deepstream/menu.c:377-382 | saving for every distance writes the value into every distance's cell of that kind and velocity and leaves every other cell |
| Menu.AcceptSavesAndCloses | scope-deepstream/menu.c:375-395 | pressing in the calibration leaf saves the value and closes the menu |
| Menu.AcceptWrites | scope-deepstream/menu.c:375-395 | the press writes the value to the cell the stack names, or to every distance in single-distance mode |
| Menu.LeadCalibrationPath | scope-deepstream/menu.c:433-453 | pressing through the lead menus records the chosen distance and velocity on the stack |
| Menu.DropCalibrationPath | scope-deepstream/menu.c:454-464 | pressing through the drop menus records the chosen distance on the stack |
| UiMailbox.Fetch | scope-deepstream/ui.c:23-35 | a fetch reports true exactly when an event is pending, hands it out and empties the slot, and otherwise leaves the output alone |
| UiMailbox.Set | scope-deepstream/ui.c:37-41 | setting a code leaves an event pending exactly when the code is a real event |
| UiMailbox.Receive | scope-deepstream/ui.c:57-87 | only the three rotary events replace the pending one, and a failed receive changes nothing |
| UiMailbox.EventOf | scope-deepstream/ui.c:69-82 | each rotary code maps to its own menu event |
| UiMailbox.Poll | scope-deepstream/ui.c:23-35 | the menu sees an event exactly when one is pending, and the slot is empty afterwards |
| UiMailbox.FetchTakesOnce | scope-deepstream/ui.c:23-35 | an event is handed out at most once |
| UiMailbox.LatestWins | scope-deepstream/ui.c:37-41 | of several events posted between fetches only the last is seen |
| UiMailbox.ReceiveFilters | scope-deepstream/ui.c:66-86 | after a receive an event is pending exactly when the message was a rotary event or one was already pending |
| UiMailbox.FirstByteDecides | scope-deepstream/ui.c:66-67 | only the first byte of a message matters |
| UiMailbox.FrontButtonsDropped | scope-deepstream/ui.c:69-82 | the front buttons never reach the menu |
| UiMailbox.BoardCodeArrives | tlv-processor/sensor.cpp:82 | the four-byte little-endian code the board sends arrives as itself |
| Rotary.CodeOf | scope-zephyr/src/ui.c:50-73 | each callback posts a code below the event count |
| Rotary.Elapsed | scope-zephyr/src/ui.c:75-82 | the elapsed time is the 64-bit wrapping difference, the plain difference when the clock has not wrapped |
| Rotary.DebounceSlot | scope-zephyr/src/ui.c:75-82 | an event is suppressed exactly when less than the debounce time has elapsed since the slot's last accepted event; an accepted event stamps its slot |
| Rotary.Put | scope-zephyr/src/ui.c:31-34 | a message is queued when the queue holds fewer than its capacity, and dropped when it is full (`K_NO_WAIT`) |
| Rotary.Handle | scope-zephyr/src/ui.c:31-34 | a debounced event changes nothing; an accepted one records its time and is put on the decoder queue (4 entries) or the host-link queue (2 entries): appended when there is room, the queue unchanged when full, and the other queue kept |
| Rotary.CallbackAsWritten | scope-zephyr/src/ui.c:50-82 | the callbacks as written debounce on the slot named by the event code: a suppressed event changes nothing, and an accepted one is put on its own queue (decoder 4, host link 2), dropped when full, with the other queue kept |
| Rotary.SlotOf | scope-zephyr/include/ui.h:9-22 | every pin gets a debounce slot below the event count |
| Rotary.Callback | scope-zephyr/src/ui.c:50-82 | a bounce within the debounce time changes nothing, and an accepted event is queued to the decoder (capacity 4) or the host link (capacity 2) |
| Rotary.HostQueueDropsThird | scope-zephyr/src/usb.c:27-32 | with nothing drained, two front-button presses fill the host-link queue and a third accepted event is lost |
| Rotary.HostEventLostIffFull | scope-zephyr/src/usb.c:27-32 | an accepted host event is lost exactly when two messages already wait |
| Rotary.DebounceIndependent | scope-zephyr/src/ui.c:75-82 | with a slot per pin, an event on one pin never suppresses another pin |
| Rotary.AcceptedEventDebounces | scope-zephyr/src/ui.c:75-82 | after an accepted event the same pin is suppressed exactly for the next debounce time |
| Rotary.BounceDoesNotExtend | scope-zephyr/src/ui.c:75-82 | a suppressed bounce does not restart the debounce window |
| Rotary.BootQuietPeriod | scope-zephyr/src/ui.c:75-82 | every event within the debounce time of boot is dropped |
| Rotary.ButtonShadowedByEncoder | scope-zephyr/src/ui.c:77-80 | an encoder A edge at 100 ms makes the as-written callback drop a button press 3 ms later, while one slot per pin queues it |
| Rotary.AsWrittenSlotsShared | scope-zephyr/include/ui.h:9-22 | as written, two pins share a debounce slot exactly when they are encoder A and the encoder button |
| Rotary.Expected | scope-zephyr/src/ui.c:187-213 | the partner of phase A is phase B and vice versa |
| Rotary.DirOf | scope-zephyr/src/ui.c:187-213 | A first means a right turn and B first a left turn |
| Rotary.FirstArrival | scope-zephyr/src/ui.c:187-213 | the first message within the 20 polls is found, if any |
| Rotary.Decode | scope-zephyr/src/ui.c:155-218 | the polling loop offers the outcome's direction to the 2-entry host-link queue, which keeps it only when not full, and stops at the first message or after 20 polls |
| Rotary.OutcomeIff | scope-zephyr/src/ui.c:187-213 | a direction is emitted exactly when the first message within 20 polls is the other phase |
| Rotary.DetentDirections | scope-zephyr/src/ui.c:187-213 | A then B within the window is a right turn, and B then A a left turn |
| Rotary.NoisyTurnsIgnored | scope-zephyr/src/ui.c:187-213 | a bounce of the same phase, or a partner after the window, emits nothing |
| Rotary.Silence | scope-zephyr/src/ui.c:187-213 | a quiet stretch of n polls carries no messages |
| Rotary.DecodeRounds | scope-zephyr/src/ui.c:155-218 | a run of rounds offers the host queue at most one direction per round |
| Rotary.RoundsEmitDirections | scope-zephyr/src/ui.c:204 | the encoder task only ever posts left or right |

## Left out

- I/O is not modelled: ports, files, sockets and message queues become
  parameters or results. So is `exit(0)`, which becomes a result flag.
  The USB setup (`usb.c`), the message queue wrappers (`mq.c`) and the
  GPIO setup are not part of this model.
- Threads and mutexes are left out. The IMU store tests its `trylock`
  result against -1 (`imu.c:84`), but `pthread_mutex_trylock` reports a
  held lock as `EBUSY`, so that early return never happens. The store
  always writes, and so does the model.
- Clocks are parameters. The decoder's blocking first wait and its up to
  20 polls, each after a 1 ms sleep (`ui.c:188-191`), are modelled as a
  sequence of poll results. The 5 ms sleep after each round (`ui.c:215`)
  is left out.
- Floating point is modelled as `real`, so there is no rounding. `atan`
  and the orientation estimate (`imu_get_orientation`) are left out,
  because they are transcendental.
- The drawing calls themselves, the display strings, and the dump and
  debug screens of the menu are left out. The model keeps only the
  geometry the validators check and the lines or texts that would be
  drawn.
- The 32-bit `int` millisecond times and pixel sums are unbounded in the
  model. The source's values stay far from overflow.
- Menu.LastValid: the walk to the bottom of a menu is modelled on
  sentinelled menus only. That is every menu the program builds; an array
  without a sentinel would read past its end.
- Aim.Step: the uninitialised progress bar that Track and Fail hand to
  the overlay is modelled as None.
- Overlay.OverlayFor: the uninitialised progress bar outside Lock is
  modelled as None, as in Aim.Step.
- Rotary.Handle: the queues are modelled as sequences of event codes.
  In the source each `k_msgq_put` copies a whole message of the queue's
  size, 28 bytes (`sizeof(imu_t)`) for the host-link queue, from a 4-byte
  object: the handler's `(int[]){gpio}` (`ui.c:33`) or the decoder's
  `dir` (`ui.c:204`). That reads 24 bytes past the object, and the model
  does not carry those bytes.
- Framer.ReadChunk: a refill that returns -1 stops the model with
  Unhandled. In the source the unchecked -1 makes
  `bytes_read - read_index` wrap to a huge `size_t` (`tty.cpp:196`). The
  macro then copies stale `read_buff` bytes and completes the read
  (`tty.cpp:197-207`), which the model does not follow.
- Rotary.DecodeRounds: the directions are those offered to the host
  queue. Whether each is kept depends on how far the USB thread has
  drained that queue between rounds, which is concurrent and not
  modelled. Decode models the drop of a single round's offer.
- Framer.NewHandler: the frame buffer is zero-filled. In the source
  `tlv_buff` (`tty.h:79`) has no initialiser, so a dispatch before any
  frame is read (as after an early reset request) forwards indeterminate
  bytes where the model forwards zeros.
- Crc32.Crc32: its own contract states only the empty case. The
  properties are the separate lemmas (check value, append, injectivity,
  single-byte detection).

## Findings

| source | as written | input that shows it | evidently intended | confidence | as-written member | corrected member |
|---|---|---|---|---|---|---|
| scope-deepstream/calibration.c:26-27 | the bounds assertions use `<=` against the array size | distance 20 with velocity 0 passes the assertions; a drop fetch then reads the first lead cell, and a lead fetch reads past the table | `<` so every accepted index is inside its array | not executed | Calibration.GuardAsWrittenAdmitsOverrun | Calibration.GuardCorrectedInBounds |
| tlv-processor/radar.cpp:72-77 | the point count is clipped to the maximum, but the assertion at line 106 tests the unclipped count | a consistent frame with 326 points is clipped to 325, and the assertion then compares 325 with 326 and aborts | process the first 325 points (`MAX_CLOUD_POINTS`), as the clip intends | not executed | RadarTlv.OverfullFrameAborts | RadarTlv.ClippedRoundTrip |
| scope-deepstream/deepstream.c:388 | the circle's lower edge is checked against the screen width | centre (400, 590) with radius 17 is accepted although it reaches y = 607 on a 600-pixel screen | compare y + r with the screen height | not executed | Screen.CircleAsWrittenAdmitsOverflow | Screen.CircleAcceptedIffInside |
| scope-deepstream/deepstream.c:169-187 | the text pointer advances only after a text is drawn, so an off-screen text is checked again on every later pass | texts (-1, 0) then (10, 10): nothing is drawn | skip the off-screen text and draw the rest | not executed; latent, since every caller passes one text | Screen.AsWrittenDropsLaterText | Screen.DrawTextsMembers |
| scope-zephyr/src/ui.c:77-80 | the debounce slot is the event code, and encoder phase A (code 0) shares slot 0 with the encoder button (ROTARY_BUTTON 0) | an A edge at 100 ms, then a button press at 103 ms: the press is dropped | one debounce slot per input pin | not executed | Rotary.ButtonShadowedByEncoder | Rotary.DebounceIndependent |

=== FILE: aim.dfy ===
/**
 * The aim state machine of the aiming application (Lock, Track, Fire,
 * Fail) with its geometry helpers. Each tick the state the machine is in
 * runs once with the current time in milliseconds and whatever the queues
 * delivered: an inference box or nothing, the gyro analysis, the radar
 * health verdict and the distance estimate. Pixel arithmetic is on
 * integers with C's truncating division; floats are reals.
 */
module Aim {
  import opened Options
  import opened Rings
  import Imu
  import opened Calibration
  import opened Interpolate

  const SCREEN_WIDTH_PIXELS: int := 800
  const SCREEN_HEIGHT_PIXELS: int := 600
  const DISTANCE_TO_CENTER_MAX: int := 150

  const SAMPLES_TO_LOCK: nat := 20
  const SAMPLING_PERIOD_FOR_LOCK_IN_MS: int := 1500
  const HISTORY_BUFF_SIZE: nat := 40
  const SAMPLES_DURING_TRACK_MIN: nat := 20
  const TRACK_DURATION_MS: int := 1500
  const MAX_VARIANCE_ROTATION: real := 15.0
  const COOLDOWN_DURATION_FAIL_MS: int := 1000
  const COOLDOWN_DURATION_FIRE_MS: int := 5000

  const AIM_NO_FAIL: bv32 := 0
  const AIM_CV_FAIL_REASON: bv32 := 1
  const AIM_GYRO_VAR_FAIL_REASON: bv32 := 2
  const AIM_RADAR_FAIL_REASON: bv32 := 4

  datatype Point = Point(x: int, y: int)

  /** inference_detected_t: the detection box in pixels. */
  datatype Box = Box(left: int, top: int, width: int, height: int)

  datatype State = Lock | Track | Fire | Fail

  // ---------------------------------------------------------------------------
  // Geometry

  /** C's int division: the quotient is truncated toward zero. */
  function CDiv(a: int, b: int): (q: int)
    requires b > 0
    ensures a >= 0 ==> q == a / b
    ensures a < 0 ==> q == -((-a) / b)
  {
    if a >= 0 then a / b else -((-a) / b)
  }

  /** C's (int) cast of a float: truncation toward zero. */
  function Trunc(r: real): (i: int)
    ensures r >= 0.0 ==> i == r.Floor
    ensures r < 0.0 ==> i == -((-r).Floor)
  {
    if r >= 0.0 then r.Floor else -((-r).Floor)
  }

  /** calculate_bounding_box_center. */
  function BoxCenter(b: Box): Point
  {
    Point(b.left + CDiv(b.width, 2), b.top + CDiv(b.height, 2))
  }

  /** calculate_optimial_aim_location: meant to aim a quarter down the box,
      but 1/4 is integer division and so zero. */
  function AimLocation(b: Box): (p: Point)
    ensures p.x == BoxCenter(b).x && p.y == b.top
  {
    Point(b.left + CDiv(b.width, 2), b.top + b.height * (1 / 4))
  }

  /** The squared pixel distance of the box centre from the screen centre. */
  function CenterOffsetSquared(b: Box): (d: int)
    ensures d >= 0
  {
    var c := BoxCenter(b);
    var dx := c.x - SCREEN_WIDTH_PIXELS / 2;
    var dy := c.y - SCREEN_HEIGHT_PIXELS / 2;
    SquareNonNegative(dx);
    SquareNonNegative(dy);
    dx * dx + dy * dy
  }

  lemma SquareNonNegative(a: int)
    ensures a * a >= 0
  {
    if a < 0 {
      assert a * a == (-a) * (-a);
    }
  }

  /** calculate_if_bounding_box_centered, with the integer square root
      compared against 150 written as the equivalent squared comparison. */
  predicate Centered(b: Box)
  {
    CenterOffsetSquared(b) < DISTANCE_TO_CENTER_MAX * DISTANCE_TO_CENTER_MAX
  }

  /** r is the truncated square root of n. */
  predicate IsFloorSqrt(r: int, n: int)
  {
    0 <= r && r * r <= n < (r + 1) * (r + 1)
  }

  lemma SquareMonotone(a: int, b: int)
    requires 0 <= a <= b
    ensures a * a <= b * b
  {
    assert a * a <= a * b <= b * b;
  }

  /** The squared comparison agrees with the source's (int)sqrt(d) < 150. */
  lemma CenteredIsSqrtTest(b: Box, r: int)
    requires IsFloorSqrt(r, CenterOffsetSquared(b))
    ensures Centered(b) <==> r < DISTANCE_TO_CENTER_MAX
  {
    var n := CenterOffsetSquared(b);
    if r < DISTANCE_TO_CENTER_MAX {
      SquareMonotone(r + 1, DISTANCE_TO_CENTER_MAX);
    } else {
      SquareMonotone(DISTANCE_TO_CENTER_MAX, r);
    }
  }

  /** check_if_inference_is_centered: nothing received counts as not
      centered. */
  predicate IsCentered(inference: Option<Box>)
  {
    inference.Some? && Centered(inference.value)
  }

  // ---------------------------------------------------------------------------
  // The context and one tick

  /** context_t: the fields the states read and write. */
  datatype Ctx = Ctx(state: State, lockCount: nat, trackExit: int, trackFrames: nat, failReason: bv32,
                     failExit: int, fireExit: int, gyro: Imu.Analysis, lastCenter: Point,
                     lastInference: Box, lastAim: Point, angularVelocity: real, targetDistance: real)

  /** The state function to run next, the context, and the static lock ring
      of aim_sm_lock. */
  datatype Machine = Machine(next: State, ctx: Ctx, lock: TimeRing)

  predicate Valid(m: Machine)
  {
    ValidRing(m.lock, HISTORY_BUFF_SIZE)
  }

  /** aiming_thread starts in Lock with whatever the uninitialised context
      holds, and the static ring zeroed. */
  function Boot(ctx: Ctx): (m: Machine)
    ensures Valid(m) && m.next == Lock
  {
    Machine(Lock, ctx, ZeroRing(HISTORY_BUFF_SIZE))
  }

  /** What one tick sees: the time, the inference queue (empty or one box),
      the gyro analysis, the radar verdict and the distance estimate. */
  datatype Tick = Tick(now: int, inference: Option<Box>, gyro: Imu.Analysis, radarOk: bool, distance: real)

  /** aim_sm_lock: a centered frame stores the time in the ring; the count of
      slots no older than 1.5 s decides, strictly above 20, the move to
      Track, which starts a 1.5 s window with no frames counted. */
  function LockStep(m: Machine, t: Tick): (r: Machine)
    requires Valid(m)
    ensures Valid(r) && r.ctx.state == Lock
    ensures r.lock == if IsCentered(t.inference) then Write(m.lock, HISTORY_BUFF_SIZE, t.now) else m.lock
    ensures r.ctx.lockCount == |RecentSlots(r.lock.slots, t.now - SAMPLING_PERIOD_FOR_LOCK_IN_MS)|
    ensures r.next == Track <==> r.ctx.lockCount > SAMPLES_TO_LOCK
    ensures r.next == Lock || r.next == Track
    ensures r.next == Track ==> r.ctx.trackExit == t.now + TRACK_DURATION_MS && r.ctx.trackFrames == 0
  {
    var ring := if IsCentered(t.inference) then Write(m.lock, HISTORY_BUFF_SIZE, t.now) else m.lock;
    var cutoff := t.now - SAMPLING_PERIOD_FOR_LOCK_IN_MS;
    CountIsRecentSlots(ring.slots, cutoff);
    var count := CountRecent(ring.slots, cutoff);
    var ctx := m.ctx.(state := Lock, lockCount := count);
    if count > SAMPLES_TO_LOCK then
      Machine(Track, ctx.(trackExit := t.now + TRACK_DURATION_MS, trackFrames := 0), ring)
    else
      Machine(Lock, ctx, ring)
  }

  /** The reasons a track fails: too few centered frames, too much gyro
      variance, too few radar frames. */
  function FailReasons(frames: nat, gyro: Imu.Analysis, radarOk: bool): (mask: bv32)
    ensures mask & AIM_CV_FAIL_REASON != 0 <==> frames < SAMPLES_DURING_TRACK_MIN
    ensures mask & AIM_GYRO_VAR_FAIL_REASON != 0 <==> gyro.varianceRotation > MAX_VARIANCE_ROTATION
    ensures mask & AIM_RADAR_FAIL_REASON != 0 <==> !radarOk
    ensures mask == AIM_NO_FAIL <==>
              frames >= SAMPLES_DURING_TRACK_MIN && gyro.varianceRotation <= MAX_VARIANCE_ROTATION && radarOk
    ensures mask & 7 == mask
  {
    (if frames < SAMPLES_DURING_TRACK_MIN then AIM_CV_FAIL_REASON else 0)
    | (if gyro.varianceRotation > MAX_VARIANCE_ROTATION then AIM_GYRO_VAR_FAIL_REASON else 0)
    | (if !radarOk then AIM_RADAR_FAIL_REASON else 0)
  }

  /** aim_sm_track: centered frames are counted and remembered; once the
      window has passed, the reasons are collected and the machine moves to
      Fail for a second, or to Fire for five with the firing solution. */
  function TrackStep(m: Machine, t: Tick): (r: Machine)
    requires Valid(m)
    ensures Valid(r) && r.ctx.state == Track && r.lock == m.lock
  {
    var ctx0 := m.ctx.(state := Track);
    var ctx1 := if IsCentered(t.inference) then
                  ctx0.(trackFrames := ctx0.trackFrames + 1, lastCenter := BoxCenter(t.inference.value),
                        lastInference := t.inference.value)
                else ctx0;
    if t.now > ctx1.trackExit then
      var reason := FailReasons(ctx1.trackFrames, t.gyro, t.radarOk);
      var ctx2 := ctx1.(failReason := reason, gyro := t.gyro);
      if reason != AIM_NO_FAIL then
        Machine(Fail, ctx2.(failExit := t.now + COOLDOWN_DURATION_FAIL_MS), m.lock)
      else
        Machine(Fire, ctx2.(fireExit := t.now + COOLDOWN_DURATION_FIRE_MS,
                            angularVelocity := t.gyro.meanRotation / Imu.DEGREES_IN_RAD * t.distance,
                            targetDistance := t.distance,
                            lastAim := AimLocation(ctx1.lastInference)), m.lock)
    else
      Machine(Track, ctx1, m.lock)
  }

  /** The two crosshairs draw_crosshair sends: the aim point and the point
      corrected for lead and drop. */
  datatype AimOverlay = AimOverlay(aimTarget: Point, corrected: Point)

  /** calculate_bullet_drop_and_lead: the lead moves the point right and the
      drop moves it up, each truncated to whole pixels. */
  function CorrectedPoint(ctx: Ctx, cal: Store): Point
    requires WellFormed(cal)
  {
    Point(ctx.lastAim.x + Trunc(LeadAt(cal, ctx.targetDistance, ctx.angularVelocity)),
          ctx.lastAim.y - Trunc(DropAt(cal, ctx.targetDistance)))
  }

  /** aim_sm_fire: a new inference moves the aim point, both crosshairs are
      sent, and the machine returns to Lock once the time is strictly past
      the exit time. */
  function FireStep(m: Machine, t: Tick, cal: Store): (r: (Machine, AimOverlay))
    requires Valid(m) && WellFormed(cal)
    ensures Valid(r.0) && r.0.ctx.state == Fire && r.0.lock == m.lock
    ensures r.0.next == (if t.now > m.ctx.fireExit then Lock else Fire)
    ensures r.1.aimTarget == r.0.ctx.lastAim
    ensures t.inference.Some? ==> r.1.aimTarget == AimLocation(t.inference.value)
    ensures t.inference.None? ==> r.1.aimTarget == m.ctx.lastAim
  {
    var ctx0 := m.ctx.(state := Fire);
    var ctx1 := if t.inference.Some? then ctx0.(lastAim := AimLocation(t.inference.value)) else ctx0;
    var overlay := AimOverlay(ctx1.lastAim, CorrectedPoint(ctx1, cal));
    (Machine(if t.now > ctx1.fireExit then Lock else Fire, ctx1, m.lock), overlay)
  }

  /** aim_sm_failed: wait until the time is strictly past the exit time. */
  function FailStep(m: Machine, t: Tick): (r: Machine)
    requires Valid(m)
    ensures Valid(r) && r.ctx.state == Fail && r.lock == m.lock
    ensures r.next == (if t.now > m.ctx.failExit then Lock else Fail)
    ensures r.ctx == m.ctx.(state := Fail)
  {
    Machine(if t.now > m.ctx.failExit then Lock else Fail, m.ctx.(state := Fail), m.lock)
  }

  /** One pass of aiming_thread: run the state function, and report the
      crosshairs when Fire drew them. */
  function Step(m: Machine, t: Tick, cal: Store): (r: (Machine, Option<AimOverlay>))
    requires Valid(m) && WellFormed(cal)
    ensures Valid(r.0) && r.0.ctx.state == m.next
    ensures r.1.Some? <==> m.next == Fire
  {
    match m.next
    case Lock => (LockStep(m, t), None)
    case Track => (TrackStep(m, t), None)
    case Fire => var (m', o) := FireStep(m, t, cal); (m', Some(o))
    case Fail => (FailStep(m, t), None)
  }

  // ---------------------------------------------------------------------------
  // Properties

  /** At boot every slot of the lock ring holds 0, which counts as recent
      until 1.5 s have passed: the first tick moves to Track with no target
      in sight. */
  lemma BootTracksImmediately(ctx: Ctx, t: Tick, cal: Store)
    requires WellFormed(cal) && 0 <= t.now <= SAMPLING_PERIOD_FOR_LOCK_IN_MS
    ensures Step(Boot(ctx), t, cal).0.next == Track
  {
    var m := Boot(ctx);
    var ring := LockStep(m, t).lock;
    var cutoff := t.now - SAMPLING_PERIOD_FOR_LOCK_IN_MS;
    if IsCentered(t.inference) {
      forall i | 0 <= i < HISTORY_BUFF_SIZE
        ensures ring.slots[i] >= cutoff
      {
      }
      AllRecentCounted(ring.slots, cutoff);
    } else {
      CountConstant(ring.slots, 0, cutoff);
      CountIsRecentSlots(ring.slots, cutoff);
    }
  }

  /** A ring whose every slot is recent is counted in full. */
  lemma {:induction false} AllRecentCounted(s: seq<int>, cutoff: int)
    requires forall i :: 0 <= i < |s| ==> s[i] >= cutoff
    ensures |RecentSlots(s, cutoff)| == |s|
  {
    AllRecentCount(s, cutoff);
    CountIsRecentSlots(s, cutoff);
  }

  lemma {:induction false} AllRecentCount(s: seq<int>, cutoff: int)
    requires forall i :: 0 <= i < |s| ==> s[i] >= cutoff
    ensures CountRecent(s, cutoff) == |s|
  {
    if |s| > 0 {
      AllRecentCount(s[..|s| - 1], cutoff);
    }
  }

  /** A run of centered frames locks on: with twenty centered frames in the
      ring from the last 1.5 s (and no wrap since), one more centered frame
      moves the machine to Track. */
  lemma CenteredBurstLocks(m: Machine, start: TimeRing, ts: seq<int>, t: Tick, cal: Store)
    requires Valid(m) && WellFormed(cal) && m.next == Lock && ValidRing(start, HISTORY_BUFF_SIZE)
    requires SAMPLES_TO_LOCK <= |ts| < HISTORY_BUFF_SIZE && m.lock == WriteAll(start, HISTORY_BUFF_SIZE, ts)
    requires forall j :: 0 <= j < |ts| ==> ts[j] >= t.now - SAMPLING_PERIOD_FOR_LOCK_IN_MS
    requires IsCentered(t.inference)
    ensures Step(m, t, cal).0.next == Track
  {
    var r := LockStep(m, t);
    BurstRingLocks(r.lock, start, ts, t.now);
  }

  /** The ring written with a burst and then one more centered frame holds
      more than twenty recent slots. */
  lemma BurstRingLocks(ring: TimeRing, start: TimeRing, ts: seq<int>, now: int)
    requires ValidRing(start, HISTORY_BUFF_SIZE) && SAMPLES_TO_LOCK <= |ts| < HISTORY_BUFF_SIZE
    requires ring == Write(WriteAll(start, HISTORY_BUFF_SIZE, ts), HISTORY_BUFF_SIZE, now)
    requires forall j :: 0 <= j < |ts| ==> ts[j] >= now - SAMPLING_PERIOD_FOR_LOCK_IN_MS
    ensures |RecentSlots(ring.slots, now - SAMPLING_PERIOD_FOR_LOCK_IN_MS)| > SAMPLES_TO_LOCK
  {
    var all := ts + [now];
    assert all[..|ts|] == ts;
    assert WriteAll(start, HISTORY_BUFF_SIZE, all) == ring;
    RecentWritesCounted(start, HISTORY_BUFF_SIZE, all, now - SAMPLING_PERIOD_FOR_LOCK_IN_MS);
    CountIsRecentSlots(ring.slots, now - SAMPLING_PERIOD_FOR_LOCK_IN_MS);
  }

  /** Track holds until the time is strictly past its exit time, counting
      the centered frames; then it moves to Fail exactly when a reason is
      set, and to Fire otherwise, each with its cooldown. */
  lemma TrackOutcome(m: Machine, t: Tick)
    requires Valid(m)
    ensures var r := TrackStep(m, t);
            var frames := m.ctx.trackFrames + (if IsCentered(t.inference) then 1 else 0);
            var reason := FailReasons(frames, t.gyro, t.radarOk);
            && r.ctx.trackFrames == frames
            && (t.now <= m.ctx.trackExit ==> r.next == Track)
            && (t.now > m.ctx.trackExit ==>
                  && r.ctx.failReason == reason
                  && (r.next == Fail <==> reason != AIM_NO_FAIL)
                  && (r.next == Fire <==> reason == AIM_NO_FAIL)
                  && (r.next == Fail ==> r.ctx.failExit == t.now + COOLDOWN_DURATION_FAIL_MS)
                  && (r.next == Fire ==> r.ctx.fireExit == t.now + COOLDOWN_DURATION_FIRE_MS))
  {
  }

  /** Entering Fire fixes the firing solution: the angular velocity from the
      mean rotation in radians times the distance, the distance itself, and
      an aim point at the top of the last centered box. */
  lemma FireSolution(m: Machine, t: Tick)
    requires Valid(m) && TrackStep(m, t).next == Fire
    ensures var c := TrackStep(m, t).ctx;
            && c.angularVelocity == t.gyro.meanRotation / Imu.DEGREES_IN_RAD * t.distance
            && c.targetDistance == t.distance
            && c.lastAim.y == c.lastInference.top
            && c.lastAim.x == BoxCenter(c.lastInference).x
  {
  }

  /** The corrected crosshair at a calibrated distance and a still target:
      the drop and lead read straight from the calibration table. */
  lemma CorrectedAtCalibratedDistance(ctx: Ctx, cal: Store, i: nat)
    requires WellFormed(cal) && i < DISTANCE_POINTS
    requires ctx.targetDistance == (DISTANCE_START + DISTANCE_JUMP * i) as real && ctx.angularVelocity == 0.0
    ensures CorrectedPoint(ctx, cal)
            == Point(ctx.lastAim.x + Fetch(cal, Lead, i, 0) as int, ctx.lastAim.y - Fetch(cal, Drop, i, 0) as int)
  {
    DropExactAtNodes(cal, i);
    LeadExactAtNodes(cal, i, 0);
    TruncOfInt(DropAt(cal, ctx.targetDistance), Fetch(cal, Drop, i, 0) as int);
    TruncOfInt(LeadAt(cal, ctx.targetDistance, ctx.angularVelocity), Fetch(cal, Lead, i, 0) as int);
  }

  lemma TruncOfInt(x: real, k: int)
    requires x == k as real
    ensures Trunc(x) == k
  {
    if k < 0 {
      assert -(k as real) == (-k) as real;
    }
  }
}

=== FILE: bytes.dfy ===
/**
 * Little-endian byte layouts shared by the wire protocol and the calibration
 * file. Both the sensor CPUs and the host are little endian, so every multi-byte
 * field on the wire or on disk is stored least significant byte first.
 */
module Bytes {

  /** An octet, as read from a serial link or a file. */
  type byte = x: int | 0 <= x < 256

  const U16_LIMIT: int := 0x1_0000
  const U32_LIMIT: int := 0x1_0000_0000
  const U64_LIMIT: int := 0x1_0000_0000_0000_0000

  /** A value that fits an unsigned 32-bit field. */
  predicate IsU32(x: int) { 0 <= x < U32_LIMIT }

  /** A value that fits a signed 16-bit field. */
  predicate IsI16(x: int) { -0x8000 <= x < 0x8000 }

  type u32 = x: int | 0 <= x < 0x1_0000_0000
  type i16 = x: int | -0x8000 <= x < 0x8000

  /** Reduces an integer into the unsigned 32-bit range, as a C assignment does. */
  function ToU32(x: int): (r: u32)
    ensures x % U32_LIMIT == r
  {
    x % U32_LIMIT
  }

  /** Two's complement truncation into a signed 16-bit value. */
  function ToI16(x: int): (r: i16)
    ensures (r - x) % U16_LIMIT == 0
    ensures IsI16(x) ==> r == x
  {
    var u := x % U16_LIMIT;
    if u >= 0x8000 then u - U16_LIMIT else u
  }

  function EncodeU16(x: int): (r: seq<byte>)
    requires 0 <= x < U16_LIMIT
    ensures |r| == 2
  {
    [(x % 256), (x / 256)]
  }

  function DecodeU16(s: seq<byte>, off: nat): (r: nat)
    requires off + 2 <= |s|
    ensures r < U16_LIMIT
  {
    s[off] as int + 256 * (s[off + 1] as int)
  }

  function EncodeU32(x: u32): (r: seq<byte>)
    ensures |r| == 4
  {
    [(x % 256), ((x / 256) % 256),
     ((x / 0x1_0000) % 256), (x / 0x100_0000)]
  }

  function DecodeU32(s: seq<byte>, off: nat): (r: u32)
    requires off + 4 <= |s|
  {
    s[off] as int + 256 * (s[off + 1] as int)
      + 0x1_0000 * (s[off + 2] as int) + 0x100_0000 * (s[off + 3] as int)
  }

  /** Signed 16-bit field, two's complement. */
  function EncodeI16(x: i16): (r: seq<byte>)
    ensures |r| == 2
  {
    EncodeU16(if x < 0 then x + U16_LIMIT else x)
  }

  function DecodeI16(s: seq<byte>, off: nat): (r: i16)
    requires off + 2 <= |s|
  {
    var u := DecodeU16(s, off);
    if u >= 0x8000 then u - U16_LIMIT else u
  }

  lemma DecodeEncodeU16(x: int)
    requires 0 <= x < U16_LIMIT
    ensures DecodeU16(EncodeU16(x), 0) == x
  {
  }

  lemma EncodeDecodeU16(s: seq<byte>, off: nat)
    requires off + 2 <= |s|
    ensures EncodeU16(DecodeU16(s, off)) == s[off..off + 2]
  {
  }

  lemma DecodeEncodeU32(x: u32)
    ensures DecodeU32(EncodeU32(x), 0) == x
  {
    var q1 := x / 256;
    var q2 := q1 / 256;
    assert x / 0x1_0000 == q2;
    assert x / 0x100_0000 == q2 / 256;
    assert x == x % 256 + 256 * (q1 % 256) + 0x1_0000 * (q2 % 256) + 0x100_0000 * (q2 / 256);
  }

  lemma EncodeDecodeU32(s: seq<byte>, off: nat)
    requires off + 4 <= |s|
    ensures EncodeU32(DecodeU32(s, off)) == s[off..off + 4]
  {
    var b0, b1, b2, b3 := s[off] as int, s[off + 1] as int, s[off + 2] as int, s[off + 3] as int;
    var x := DecodeU32(s, off);
    var y := b1 + 256 * (b2 + 256 * b3);
    assert x == b0 + 256 * y;
    DigitSplit(b0, y);
    DigitSplit(b1, b2 + 256 * b3);
    DigitSplit(b2, b3);
    assert x / 0x1_0000 == (x / 256) / 256;
    assert x / 0x100_0000 == ((x / 256) / 256) / 256;
  }

  /** The lowest base-256 digit and the rest of a number. */
  lemma DigitSplit(d: int, q: int)
    requires 0 <= d < 256 && 0 <= q
    ensures (d + 256 * q) / 256 == q && (d + 256 * q) % 256 == d
  {
  }

  /** Decoding is insensitive to what surrounds the four bytes read. */
  lemma DecodeU32Window(s: seq<byte>, off: nat, t: seq<byte>, off': nat)
    requires off + 4 <= |s| && off' + 4 <= |t|
    requires s[off..off + 4] == t[off'..off' + 4]
    ensures DecodeU32(s, off) == DecodeU32(t, off')
  {
    assert s[off] == t[off'] && s[off + 1] == t[off' + 1];
    assert s[off + 2] == t[off' + 2] && s[off + 3] == t[off' + 3];
  }

  lemma DecodeI16Window(s: seq<byte>, off: nat, t: seq<byte>, off': nat)
    requires off + 2 <= |s| && off' + 2 <= |t|
    requires s[off..off + 2] == t[off'..off' + 2]
    ensures DecodeI16(s, off) == DecodeI16(t, off')
  {
    assert s[off] == t[off'] && s[off + 1] == t[off' + 1];
  }

  lemma DecodeEncodeI16(x: i16)
    ensures DecodeI16(EncodeI16(x), 0) == x
  {
    DecodeEncodeU16(if x < 0 then x + U16_LIMIT else x);
  }

  lemma EncodeDecodeI16(s: seq<byte>, off: nat)
    requires off + 2 <= |s|
    ensures EncodeI16(DecodeI16(s, off)) == s[off..off + 2]
  {
    EncodeDecodeU16(s, off);
  }

  /** Overwrites |data| bytes of `buf` at `off`, keeping every other byte. */
  function Splice(buf: seq<byte>, off: nat, data: seq<byte>): (r: seq<byte>)
    requires off + |data| <= |buf|
    ensures |r| == |buf|
    ensures r[off..off + |data|] == data
    ensures forall i :: 0 <= i < |buf| && !(off <= i < off + |data|) ==> r[i] == buf[i]
  {
    buf[..off] + data + buf[off + |data|..]
  }
}

=== FILE: calibration.dfy ===
/**
 * The ballistic calibration store: a packed table of 16-bit drop and lead
 * corrections, protected by a CRC-32 over its bytes and persisted as one flat
 * file (scope-deepstream/calibration.c).
 *
 * The packed struct is modelled in memory order. `calibration_data_t` is 20
 * drop cells followed by 20 x 20 lead cells, row by row, so a table is its
 * 420 `int16_t` cells: drop[d] is cell d and lead[d][v] is cell 20 + 20 d + v.
 * The file (and the in-memory `calibration_data_with_crc`) is the CRC as a
 * little-endian u32 followed by the 840 data bytes.
 */
module Calibration {
  import opened Bytes
  import opened Crc32

  /** MAX_CALIBRATION_POINTS: the extent of each array dimension. */
  const MAX_POINTS: nat := 20
  /** Number of int16 cells in calibration_data_t. */
  const CELLS: nat := 420
  /** sizeof(calibration_data_t) and sizeof(calibration_data_with_crc). */
  const DATA_SIZE: nat := 840
  const FILE_SIZE: nat := 844

  /** calibration_enum_e, in declaration order. */
  datatype Kind = Lead | Drop

  /** The in-memory calibration_data_with_crc. */
  datatype Store = Store(crc: u32, cells: seq<i16>)

  predicate WellFormed(s: Store)
  {
    |s.cells| == CELLS
  }

  /** Position of a cell in memory order. */
  function CellIndex(kind: Kind, distance: nat, velocity: nat): (r: nat)
    requires distance < MAX_POINTS && velocity < MAX_POINTS
    ensures r < CELLS
    ensures kind == Drop ==> r < MAX_POINTS
    ensures kind == Lead ==> MAX_POINTS <= r
  {
    match kind
    case Drop => distance
    case Lead => MAX_POINTS + MAX_POINTS * distance + velocity
  }

  /** Two cell positions coincide only for the same cell; a Drop position
      ignores the velocity. */
  lemma CellIndexInjective(k1: Kind, d1: nat, v1: nat, k2: Kind, d2: nat, v2: nat)
    requires d1 < MAX_POINTS && v1 < MAX_POINTS && d2 < MAX_POINTS && v2 < MAX_POINTS
    ensures CellIndex(k1, d1, v1) == CellIndex(k2, d2, v2)
        <==> k1 == k2 && d1 == d2 && (k1 == Drop || v1 == v2)
  {
  }

  /** The cell an access names, before any bounds check. */
  function CellOffset(kind: Kind, distance: int, velocity: int): int
  {
    match kind
    case Drop => distance
    case Lead => MAX_POINTS + MAX_POINTS * distance + velocity
  }

  /** The index check fetch and save perform, as written: each index at most
      MAX_CALIBRATION_POINTS. */
  predicate GuardAsWritten(distance: int, velocity: int)
  {
    0 <= distance <= MAX_POINTS && 0 <= velocity <= MAX_POINTS
  }

  /** The index check the array sizes call for. */
  predicate GuardCorrected(distance: int, velocity: int)
  {
    0 <= distance < MAX_POINTS && 0 <= velocity < MAX_POINTS
  }

  /** The written check admits distance 20: a Drop access then reads the
      first lead cell, and a Lead access runs past the whole struct. */
  lemma GuardAsWrittenAdmitsOverrun()
    ensures GuardAsWritten(MAX_POINTS, 0)
    ensures CellOffset(Drop, MAX_POINTS, 0) == CellOffset(Lead, 0, 0)
    ensures CellOffset(Lead, MAX_POINTS, 0) >= CELLS
  {
  }

  /** Every access the corrected check admits stays inside its own array,
      and distinct Lead cells are distinct (row-major, no aliasing). */
  lemma GuardCorrectedInBounds(distance: int, velocity: int)
    requires GuardCorrected(distance, velocity)
    ensures 0 <= CellOffset(Drop, distance, velocity) < MAX_POINTS
    ensures MAX_POINTS <= CellOffset(Lead, distance, velocity) < CELLS
    ensures (CellOffset(Lead, distance, velocity) - MAX_POINTS) / MAX_POINTS == distance
    ensures (CellOffset(Lead, distance, velocity) - MAX_POINTS) % MAX_POINTS == velocity
  {
  }

  /** fetch_calibration_value: a Drop fetch reads drop[distance] whatever the
      velocity; a Lead fetch reads lead[distance][velocity]. */
  function Fetch(s: Store, kind: Kind, distance: nat, velocity: nat): (r: i16)
    requires WellFormed(s)
    requires distance < MAX_POINTS && velocity < MAX_POINTS
    ensures kind == Drop ==> r == s.cells[distance]
    ensures kind == Lead ==> r == s.cells[MAX_POINTS + MAX_POINTS * distance + velocity]
  {
    s.cells[CellIndex(kind, distance, velocity)]
  }

  lemma DropIgnoresVelocity(s: Store, distance: nat, v1: nat, v2: nat)
    requires WellFormed(s)
    requires distance < MAX_POINTS && v1 < MAX_POINTS && v2 < MAX_POINTS
    ensures Fetch(s, Drop, distance, v1) == Fetch(s, Drop, distance, v2)
  {
  }

  /** save_calibration_value: overwrites one cell in memory. */
  function Save(s: Store, kind: Kind, distance: nat, velocity: nat, value: i16): (r: Store)
    requires WellFormed(s)
    requires distance < MAX_POINTS && velocity < MAX_POINTS
    ensures WellFormed(r)
    ensures r.crc == s.crc
  {
    s.(cells := s.cells[CellIndex(kind, distance, velocity) := value])
  }

  /** Saving a cell and fetching it back returns the value; every other cell
      reads as before, and the stored CRC is unchanged. */
  lemma SaveThenFetch(s: Store, kind: Kind, distance: nat, velocity: nat, value: i16,
                      kind': Kind, distance': nat, velocity': nat)
    requires WellFormed(s)
    requires distance < MAX_POINTS && velocity < MAX_POINTS
    requires distance' < MAX_POINTS && velocity' < MAX_POINTS
    ensures Fetch(Save(s, kind, distance, velocity, value), kind, distance, velocity) == value
    ensures Save(s, kind, distance, velocity, value).crc == s.crc
    ensures kind' != kind || distance' != distance || (kind == Lead && velocity' != velocity)
        ==> Fetch(Save(s, kind, distance, velocity, value), kind', distance', velocity')
            == Fetch(s, kind', distance', velocity')
  {
    CellIndexInjective(kind, distance, velocity, kind', distance', velocity');
  }

  // ---------------------------------------------------------------------
  // Byte image

  /** Cells as consecutive little-endian int16 values. */
  function EncodeCells(c: seq<i16>): (r: seq<byte>)
    ensures |r| == 2 * |c|
    decreases |c|
  {
    if |c| == 0 then [] else EncodeI16(c[0]) + EncodeCells(c[1..])
  }

  function DecodeCells(b: seq<byte>): (r: seq<i16>)
    requires |b| % 2 == 0
    ensures 2 * |r| == |b|
    decreases |b|
  {
    if |b| == 0 then [] else [DecodeI16(b, 0)] + DecodeCells(b[2..])
  }

  /** Cell i occupies bytes 2i and 2i + 1 of the encoding. */
  lemma {:induction false} CellBytes(c: seq<i16>, i: nat)
    requires i < |c|
    ensures EncodeCells(c)[2 * i..2 * i + 2] == EncodeI16(c[i])
    decreases i
  {
    var e := EncodeCells(c);
    assert e == EncodeI16(c[0]) + EncodeCells(c[1..]);
    if i == 0 {
      assert e[..2] == EncodeI16(c[0]);
    } else {
      CellBytes(c[1..], i - 1);
      assert e[2 * i..2 * i + 2] == EncodeCells(c[1..])[2 * (i - 1)..2 * (i - 1) + 2];
    }
  }

  lemma {:induction false} DecodeEncodeCells(c: seq<i16>)
    ensures DecodeCells(EncodeCells(c)) == c
    decreases |c|
  {
    if |c| > 0 {
      var e := EncodeCells(c);
      assert e[0..2] == EncodeI16(c[0])[0..2];
      DecodeI16Window(e, 0, EncodeI16(c[0]), 0);
      DecodeEncodeI16(c[0]);
      assert e[2..] == EncodeCells(c[1..]);
      DecodeEncodeCells(c[1..]);
    }
  }

  lemma {:induction false} EncodeDecodeCells(b: seq<byte>)
    requires |b| % 2 == 0
    ensures EncodeCells(DecodeCells(b)) == b
    decreases |b|
  {
    if |b| > 0 {
      var d := DecodeCells(b);
      assert d[0] == DecodeI16(b, 0) && d[1..] == DecodeCells(b[2..]);
      EncodeDecodeI16(b, 0);
      EncodeDecodeCells(b[2..]);
      assert b == b[0..2] + b[2..];
    }
  }

  /** The 840 bytes the checksum covers. */
  function DataBytes(s: Store): (r: seq<byte>)
    requires WellFormed(s)
    ensures |r| == DATA_SIZE
  {
    EncodeCells(s.cells)
  }

  /** The 844-byte image of calibration_data_with_crc, as written to the file. */
  function Image(s: Store): (r: seq<byte>)
    requires WellFormed(s)
    ensures |r| == FILE_SIZE
  {
    EncodeU32(s.crc) + DataBytes(s)
  }

  /** Reads an 844-byte image back into the struct. */
  function Parse(img: seq<byte>): (r: Store)
    requires |img| == FILE_SIZE
    ensures WellFormed(r)
  {
    Store(DecodeU32(img, 0), DecodeCells(img[4..]))
  }

  lemma ParseImage(s: Store)
    requires WellFormed(s)
    ensures Parse(Image(s)) == s
  {
    var img := Image(s);
    assert img[0..4] == EncodeU32(s.crc)[0..4];
    DecodeU32Window(img, 0, EncodeU32(s.crc), 0);
    DecodeEncodeU32(s.crc);
    assert img[4..] == EncodeCells(s.cells);
    DecodeEncodeCells(s.cells);
  }

  lemma ImageParse(img: seq<byte>)
    requires |img| == FILE_SIZE
    ensures Image(Parse(img)) == img
  {
    EncodeDecodeU32(img, 0);
    EncodeDecodeCells(img[4..]);
    assert img == img[0..4] + img[4..];
  }

  /** Where each cell lives in the file: drop[d] at byte 4 + 2d and
      lead[d][v] at byte 44 + 40d + 2v. */
  lemma FileLayout(s: Store, kind: Kind, distance: nat, velocity: nat)
    requires WellFormed(s)
    requires distance < MAX_POINTS && velocity < MAX_POINTS
    ensures var off := if kind == Drop then 4 + 2 * distance
                       else 44 + 40 * distance + 2 * velocity;
            off + 2 <= FILE_SIZE &&
            Image(s)[off..off + 2] == EncodeI16(Fetch(s, kind, distance, velocity))
  {
    var i := CellIndex(kind, distance, velocity);
    CellBytes(s.cells, i);
    var img := Image(s);
    assert img[4 + 2 * i..4 + 2 * i + 2] == DataBytes(s)[2 * i..2 * i + 2];
  }

  // ---------------------------------------------------------------------
  // Checksum

  /** crc32 over the data bytes, as the uint32_t the source stores. */
  function DataCrc(s: Store): (r: u32)
    requires WellFormed(s)
  {
    Crc32.Crc32(DataBytes(s)) as int
  }

  lemma CrcAsIntRoundTrip(x: bv32)
    ensures (x as int) as bv32 == x
  {
  }

  lemma CrcAsIntInjective(x: bv32, y: bv32)
    requires x != y
    ensures x as int != y as int
  {
    CrcAsIntRoundTrip(x);
    CrcAsIntRoundTrip(y);
  }

  /** save_calibration_data_with_crc (the in-memory part): the CRC field
      becomes the checksum of the data, and the data stays as it was. */
  function SealWithCrc(s: Store): (r: Store)
    requires WellFormed(s)
    ensures WellFormed(r)
    ensures r.cells == s.cells
    ensures r.crc == DataCrc(s)
  {
    s.(crc := DataCrc(s))
  }

  /** validate_crc_calibration_data: 0 when the stored CRC matches the data,
      -1 otherwise. */
  function Validate(s: Store): (r: int)
    requires WellFormed(s)
    ensures r == 0 || r == -1
    ensures r == 0 <==> s.crc == DataCrc(s)
  {
    if DataCrc(s) != s.crc then -1 else 0
  }

  lemma ValidateAfterSeal(s: Store)
    requires WellFormed(s)
    ensures Validate(SealWithCrc(s)) == 0
  {
  }

  /** What read() delivered for the whole-struct read: an error, or at most
      sizeof(cal_data) bytes. */
  datatype ReadOutcome = ReadError | ReadBytes(bytes: seq<byte>)

  predicate ReadFits(rd: ReadOutcome)
  {
    rd.ReadBytes? ==> |rd.bytes| <= FILE_SIZE
  }

  /** The struct after read(): the bytes delivered overwrite its prefix. */
  function AfterRead(mem: Store, rd: ReadOutcome): (r: Store)
    requires WellFormed(mem) && ReadFits(rd)
    ensures WellFormed(r)
    ensures rd.ReadError? ==> r == mem
  {
    match rd
    case ReadError => mem
    case ReadBytes(b) =>
      ImageParse(Image(mem));
      Parse(b + Image(mem)[|b|..])
  }

  /** load_calibration_data_and_verify_crc after the file is open: -1 on a
      short or failed read or on a CRC mismatch, 0 otherwise; the struct is
      left holding whatever was read. */
  function Load(mem: Store, rd: ReadOutcome): (r: (int, Store))
    requires WellFormed(mem) && ReadFits(rd)
    ensures WellFormed(r.1)
    ensures r.0 == 0 || r.0 == -1
    ensures r.0 == 0 <==> rd.ReadBytes? && |rd.bytes| == FILE_SIZE && Validate(r.1) == 0
  {
    var after := AfterRead(mem, rd);
    if !(rd.ReadBytes? && |rd.bytes| == FILE_SIZE) then (-1, after)
    else if Validate(after) != 0 then (-1, after)
    else (0, after)
  }

  /** A full read yields exactly the struct whose image the file holds. */
  lemma FullReadParses(mem: Store, img: seq<byte>)
    requires WellFormed(mem) && |img| == FILE_SIZE
    ensures AfterRead(mem, ReadBytes(img)) == Parse(img)
  {
    assert img + Image(mem)[FILE_SIZE..] == img;
  }

  /** Saving a value, sealing, writing the file and loading it back succeeds
      and fetches the saved value. */
  lemma SaveSealLoad(s: Store, mem: Store, kind: Kind, distance: nat, velocity: nat, value: i16)
    requires WellFormed(s) && WellFormed(mem)
    requires distance < MAX_POINTS && velocity < MAX_POINTS
    ensures var file := Image(SealWithCrc(Save(s, kind, distance, velocity, value)));
            var (rc, loaded) := Load(mem, ReadBytes(file));
            rc == 0 && Fetch(loaded, kind, distance, velocity) == value
  {
    var sealed := SealWithCrc(Save(s, kind, distance, velocity, value));
    FullReadParses(mem, Image(sealed));
    ParseImage(sealed);
    SaveThenFetch(s, kind, distance, velocity, value, kind, distance, velocity);
  }

  /** A file of the wrong length never loads. */
  lemma ShortReadRejected(mem: Store, b: seq<byte>)
    requires WellFormed(mem) && |b| < FILE_SIZE
    ensures Load(mem, ReadBytes(b)).0 == -1
  {
  }

  /** A damaged byte in the CRC field changes the stored value and leaves
      the data as it was. */
  lemma CrcFieldCorruption(sealed: Store, bad: seq<byte>, i: nat)
    requires WellFormed(sealed)
    requires i < 4 && |bad| == FILE_SIZE
    requires bad == Image(sealed)[i := bad[i]] && bad[i] != Image(sealed)[i]
    ensures Parse(bad).cells == sealed.cells
    ensures Parse(bad).crc != sealed.crc
  {
    var img := Image(sealed);
    ParseImage(sealed);
    assert bad[4..] == img[4..];
    ImageParse(bad);
    assert bad[0..4][i] != img[0..4][i];
  }

  /** A damaged data byte keeps the stored CRC and changes the checksum of
      the data. */
  lemma DataCorruption(sealed: Store, bad: seq<byte>, i: nat)
    requires WellFormed(sealed)
    requires 4 <= i < FILE_SIZE && |bad| == FILE_SIZE
    requires bad == Image(sealed)[i := bad[i]] && bad[i] != Image(sealed)[i]
    ensures Parse(bad).crc == sealed.crc
    ensures DataCrc(Parse(bad)) != DataCrc(sealed)
  {
    var img := Image(sealed);
    var data := img[4..];
    var k := i - 4;
    ParseImage(sealed);
    assert bad[0..4] == img[0..4];
    DecodeU32Window(bad, 0, img, 0);
    ImageParse(bad);
    assert DataBytes(Parse(bad)) == bad[4..];
    assert DataBytes(sealed) == data;
    assert data == data[..k] + [data[k]] + data[k + 1..];
    assert bad[4..] == data[..k] + [bad[i]] + data[k + 1..];
    SingleByteChangeDetected(data[..k], data[k], bad[i], data[k + 1..]);
    CrcAsIntInjective(Crc32.Crc32(data), Crc32.Crc32(bad[4..]));
  }

  /** Corrupting any single byte of a sealed file makes the load fail. */
  lemma CorruptionDetected(s: Store, mem: Store, i: nat, y: byte)
    requires WellFormed(s) && WellFormed(mem)
    requires i < FILE_SIZE
    requires Image(SealWithCrc(s))[i] != y
    ensures Load(mem, ReadBytes(Image(SealWithCrc(s))[i := y])).0 == -1
  {
    var sealed := SealWithCrc(s);
    var bad := Image(sealed)[i := y];
    FullReadParses(mem, bad);
    if i < 4 {
      CrcFieldCorruption(sealed, bad, i);
    } else {
      DataCorruption(sealed, bad, i);
    }
  }
}

=== FILE: centroid.dfy ===
/**
 * The distance estimate of the aiming application: each radar point cloud
 * is filtered (filter_outliers), the survivors are averaged
 * (find_euclidean_mean), and the forward coordinate of the mean goes into a
 * 5-slot rolling average that is published as the target distance
 * (find_centeroid). Coordinates are modelled as reals.
 */
module Centroid {
  import opened Rings
  import Imu

  const REJECTION_POINT_OFFSET_ROUGH: real := 100.0
  const REJECTION_POINT_OFFSET_FINE: real := 5.0
  const MINIMUM_VIABLE_DISTANCE_RADAR: real := 6.0
  const ROLLING_AVERAGE_SAMPLES: nat := 5

  /** point_cartesian_t: position in metres, y pointing away from the scope. */
  datatype CartPoint = CartPoint(x: real, y: real, z: real, snr: int, noise: int)

  datatype Vec = Vec(x: real, y: real, z: real)

  /** Without a mean the filter is the rough one; with a mean, the fine one. */
  datatype Mode = Rough | AroundMean(mean: Vec)

  function SquaredDistance(p: CartPoint, m: Vec): real
  {
    (p.x - m.x) * (p.x - m.x) + (p.y - m.y) * (p.y - m.y) + (p.z - m.z) * (p.z - m.z)
  }

  /** Which points survive: the rough filter keeps points off to the side by
      less than 100 m (signed, so any negative offset passes) and farther
      than 6 m, clear of the case's own reflections; the fine filter keeps
      points closer than 5 m to the mean, which for the non-negative
      squared distance is the same as a squared distance below 25. */
  predicate Keep(p: CartPoint, mode: Mode)
  {
    match mode
    case Rough =>
      p.x < REJECTION_POINT_OFFSET_ROUGH && p.z < REJECTION_POINT_OFFSET_ROUGH
      && p.y > MINIMUM_VIABLE_DISTANCE_RADAR
    case AroundMean(m) =>
      SquaredDistance(p, m) < REJECTION_POINT_OFFSET_FINE * REJECTION_POINT_OFFSET_FINE
  }

  /** The surviving points, in input order. */
  function Kept(ps: seq<CartPoint>, mode: Mode): (r: seq<CartPoint>)
    ensures |r| <= |ps|
  {
    if |ps| == 0 then []
    else Kept(ps[..|ps| - 1], mode) + (if Keep(ps[|ps| - 1], mode) then [ps[|ps| - 1]] else [])
  }

  /** filter_outliers: one pass over the cloud, copying each survivor to the
      next free output slot; the output count is the number copied. */
  method FilterOutliers(ps: seq<CartPoint>, mode: Mode) returns (out: seq<CartPoint>, count: int)
    ensures out == Kept(ps, mode) && count == |out|
  {
    out := [];
    var i := 0;
    while i < |ps|
      invariant 0 <= i <= |ps|
      invariant out == Kept(ps[..i], mode)
    {
      assert ps[..i + 1][..i] == ps[..i];
      if Keep(ps[i], mode) {
        out := out + [ps[i]];
      }
      i := i + 1;
    }
    assert ps[..i] == ps;
    count := |out|;
  }

  /** Filtering distributes over concatenation: survivors keep their order. */
  lemma {:induction false} KeptAppend(a: seq<CartPoint>, b: seq<CartPoint>, mode: Mode)
    ensures Kept(a + b, mode) == Kept(a, mode) + Kept(b, mode)
    decreases |b|
  {
    if |b| > 0 {
      var n := |b| - 1;
      assert (a + b)[..|a + b| - 1] == a + b[..n];
      KeptAppend(a, b[..n], mode);
    } else {
      assert a + b == a;
    }
  }

  /** Exactly the points the predicate accepts survive. */
  lemma {:induction false} KeptMembers(ps: seq<CartPoint>, mode: Mode)
    ensures forall p :: p in Kept(ps, mode) <==> p in ps && Keep(p, mode)
  {
    if |ps| > 0 {
      var n := |ps| - 1;
      KeptMembers(ps[..n], mode);
      assert ps == ps[..n] + [ps[n]];
    }
  }

  /** Filtering a filtered cloud again changes nothing. */
  lemma {:induction false} FilterIdempotent(ps: seq<CartPoint>, mode: Mode)
    ensures Kept(Kept(ps, mode), mode) == Kept(ps, mode)
  {
    if |ps| > 0 {
      var n := |ps| - 1;
      FilterIdempotent(ps[..n], mode);
      KeptAppend(Kept(ps[..n], mode), if Keep(ps[n], mode) then [ps[n]] else [], mode);
      if Keep(ps[n], mode) {
        assert Kept([ps[n]], mode) == Kept([], mode) + [ps[n]];
      } else {
        assert Kept([], mode) == [];
      }
    }
  }

  // ---------------------------------------------------------------------------
  // find_euclidean_mean

  function SumX(ps: seq<CartPoint>): real
  {
    if |ps| == 0 then 0.0 else SumX(ps[..|ps| - 1]) + ps[|ps| - 1].x
  }

  function SumY(ps: seq<CartPoint>): real
  {
    if |ps| == 0 then 0.0 else SumY(ps[..|ps| - 1]) + ps[|ps| - 1].y
  }

  function SumZ(ps: seq<CartPoint>): real
  {
    if |ps| == 0 then 0.0 else SumZ(ps[..|ps| - 1]) + ps[|ps| - 1].z
  }

  /** find_euclidean_mean, over a cloud with at least one point (the only
      way find_centeroid calls it). */
  function EuclideanMean(ps: seq<CartPoint>): Vec
    requires |ps| > 0
  {
    var n := |ps| as real;
    Vec(SumX(ps) / n, SumY(ps) / n, SumZ(ps) / n)
  }

  lemma {:induction false} SumYAbove(ps: seq<CartPoint>, c: real)
    requires forall i :: 0 <= i < |ps| ==> ps[i].y > c
    ensures |ps| > 0 ==> SumY(ps) > (|ps| as real) * c
    ensures SumY(ps) >= (|ps| as real) * c
  {
    if |ps| > 0 {
      SumYAbove(ps[..|ps| - 1], c);
    }
  }

  /** Points all beyond a range have their mean beyond it too. */
  lemma MeanYAbove(ps: seq<CartPoint>, c: real)
    requires |ps| > 0 && forall i :: 0 <= i < |ps| ==> ps[i].y > c
    ensures EuclideanMean(ps).y > c
  {
    SumYAbove(ps, c);
    var n := |ps| as real;
    assert SumY(ps) / n > (n * c) / n;
  }

  /** The survivors of the rough filter all lie beyond 6 m, and so does
      their mean. */
  lemma RoughMeanBeyondCase(ps: seq<CartPoint>)
    requires |Kept(ps, Rough)| > 0
    ensures EuclideanMean(Kept(ps, Rough)).y > MINIMUM_VIABLE_DISTANCE_RADAR
  {
    var k := Kept(ps, Rough);
    KeptMembers(ps, Rough);
    forall i | 0 <= i < |k|
      ensures k[i].y > MINIMUM_VIABLE_DISTANCE_RADAR
    {
      assert k[i] in k;
    }
    MeanYAbove(k, MINIMUM_VIABLE_DISTANCE_RADAR);
  }

  // ---------------------------------------------------------------------------
  // find_centeroid

  /** The statics of find_centeroid and the published distance. */
  datatype Estimate = Estimate(samples: seq<real>, lastIndex: nat, distance: real)

  predicate Valid(e: Estimate)
  {
    |e.samples| == ROLLING_AVERAGE_SAMPLES && e.lastIndex < ROLLING_AVERAGE_SAMPLES
  }

  function Initial(): (e: Estimate)
    ensures Valid(e)
  {
    Estimate(seq(ROLLING_AVERAGE_SAMPLES, _ => 0.0), 0, 0.0)
  }

  /** find_centeroid: a cloud with no rough survivors changes nothing;
      otherwise the mean's forward coordinate replaces the slot after the
      last one and the ring average is published. */
  function FindCentroid(e: Estimate, cloud: seq<CartPoint>): (r: Estimate)
    requires Valid(e)
    ensures Valid(r)
    ensures |Kept(cloud, Rough)| == 0 ==> r == e
    ensures |Kept(cloud, Rough)| > 0 ==>
              && r.lastIndex == (e.lastIndex + 1) % ROLLING_AVERAGE_SAMPLES
              && r.samples[r.lastIndex] == EuclideanMean(Kept(cloud, Rough)).y
              && (forall i :: 0 <= i < ROLLING_AVERAGE_SAMPLES && i != r.lastIndex ==> r.samples[i] == e.samples[i])
  {
    var kept := Kept(cloud, Rough);
    if |kept| == 0 then e
    else
      var slot := Next(e.lastIndex, ROLLING_AVERAGE_SAMPLES);
      var samples := e.samples[slot := EuclideanMean(kept).y];
      Estimate(samples, slot, Imu.Sum(samples) / (ROLLING_AVERAGE_SAMPLES as real))
  }

  /** The published distance is always the average of the five slots. */
  lemma DistanceIsRingAverage(e: Estimate, cloud: seq<CartPoint>)
    requires Valid(e) && |Kept(cloud, Rough)| > 0
    ensures FindCentroid(e, cloud).distance
            == Imu.Sum(FindCentroid(e, cloud).samples) / (ROLLING_AVERAGE_SAMPLES as real)
  {
  }

  /** Five clouds, each with survivors, in a row. */
  function FiveClouds(e: Estimate, cs: seq<seq<CartPoint>>): (r: Estimate)
    requires Valid(e) && |cs| == 5
    ensures Valid(r)
  {
    FindCentroid(FindCentroid(FindCentroid(FindCentroid(FindCentroid(e, cs[0]), cs[1]), cs[2]), cs[3]), cs[4])
  }

  /** After five clouds with survivors every slot holds one of their means. */
  lemma FiveCloudsFillRing(e: Estimate, cs: seq<seq<CartPoint>>)
    requires Valid(e) && |cs| == 5
    requires forall k :: 0 <= k < 5 ==> |Kept(cs[k], Rough)| > 0
    ensures forall i :: 0 <= i < ROLLING_AVERAGE_SAMPLES ==>
              exists k :: 0 <= k < 5 && FiveClouds(e, cs).samples[i] == EuclideanMean(Kept(cs[k], Rough)).y
  {
    var e1 := FindCentroid(e, cs[0]);
    var e2 := FindCentroid(e1, cs[1]);
    var e3 := FindCentroid(e2, cs[2]);
    var e4 := FindCentroid(e3, cs[3]);
    var e5 := FindCentroid(e4, cs[4]);
    assert {e1.lastIndex, e2.lastIndex, e3.lastIndex, e4.lastIndex, e5.lastIndex} == {0, 1, 2, 3, 4};
    forall i | 0 <= i < ROLLING_AVERAGE_SAMPLES
      ensures exists k :: 0 <= k < 5 && e5.samples[i] == EuclideanMean(Kept(cs[k], Rough)).y
    {
      if i == e5.lastIndex {
      } else if i == e4.lastIndex {
      } else if i == e3.lastIndex {
      } else if i == e2.lastIndex {
      } else {
        assert i == e1.lastIndex;
      }
    }
  }

  lemma {:induction false} SumAbove(xs: seq<real>, c: real)
    requires forall i :: 0 <= i < |xs| ==> xs[i] > c
    ensures |xs| > 0 ==> Imu.Sum(xs) > (|xs| as real) * c
    ensures Imu.Sum(xs) >= (|xs| as real) * c
  {
    if |xs| > 0 {
      SumAbove(xs[..|xs| - 1], c);
    }
  }

  /** After five clouds with survivors every slot lies beyond 6 m. */
  lemma FiveCloudsSlotsBeyondCase(e: Estimate, cs: seq<seq<CartPoint>>)
    requires Valid(e) && |cs| == 5
    requires forall k :: 0 <= k < 5 ==> |Kept(cs[k], Rough)| > 0
    ensures forall i :: 0 <= i < ROLLING_AVERAGE_SAMPLES ==> FiveClouds(e, cs).samples[i] > MINIMUM_VIABLE_DISTANCE_RADAR
  {
    FiveCloudsFillRing(e, cs);
    forall i | 0 <= i < ROLLING_AVERAGE_SAMPLES
      ensures FiveClouds(e, cs).samples[i] > MINIMUM_VIABLE_DISTANCE_RADAR
    {
      var k :| 0 <= k < 5 && FiveClouds(e, cs).samples[i] == EuclideanMean(Kept(cs[k], Rough)).y;
      RoughMeanBeyondCase(cs[k]);
    }
  }

  /** Once five clouds with survivors have come in, the published distance
      lies beyond 6 m, whatever the ring held at start. */
  lemma SettledDistanceBeyondCase(e: Estimate, cs: seq<seq<CartPoint>>)
    requires Valid(e) && |cs| == 5
    requires forall k :: 0 <= k < 5 ==> |Kept(cs[k], Rough)| > 0
    ensures FiveClouds(e, cs).distance > MINIMUM_VIABLE_DISTANCE_RADAR
  {
    FiveCloudsSlotsBeyondCase(e, cs);
    var e4 := FindCentroid(FindCentroid(FindCentroid(FindCentroid(e, cs[0]), cs[1]), cs[2]), cs[3]);
    DistanceIsRingAverage(e4, cs[4]);
    AverageAbove(FiveClouds(e, cs), MINIMUM_VIABLE_DISTANCE_RADAR);
  }

  /** Five clouds whose survivors all average to the same range m settle
      the published distance on m, whatever the ring held at start. */
  lemma FiveSameCloudsSettle(e: Estimate, cs: seq<seq<CartPoint>>, m: real)
    requires Valid(e) && |cs| == 5
    requires forall k :: 0 <= k < 5 ==> |Kept(cs[k], Rough)| > 0 && EuclideanMean(Kept(cs[k], Rough)).y == m
    ensures FiveClouds(e, cs).distance == m
  {
    var r := FiveClouds(e, cs);
    FiveCloudsFillRing(e, cs);
    forall i | 0 <= i < |r.samples|
      ensures r.samples[i] == m
    {
      var k :| 0 <= k < 5 && r.samples[i] == EuclideanMean(Kept(cs[k], Rough)).y;
    }
    var e4 := FindCentroid(FindCentroid(FindCentroid(FindCentroid(e, cs[0]), cs[1]), cs[2]), cs[3]);
    DistanceIsRingAverage(e4, cs[4]);
    AverageOfConstant(r, m);
  }

  /** A published average over five equal slots is their value. */
  lemma AverageOfConstant(r: Estimate, m: real)
    requires Valid(r) && r.distance == Imu.Sum(r.samples) / (ROLLING_AVERAGE_SAMPLES as real)
    requires forall i :: 0 <= i < |r.samples| ==> r.samples[i] == m
    ensures r.distance == m
  {
    assert Imu.Constant(r.samples, m);
    Imu.SumConstant(r.samples, m);
  }

  /** A published average over slots that all lie beyond c lies beyond c. */
  lemma AverageAbove(r: Estimate, c: real)
    requires Valid(r) && r.distance == Imu.Sum(r.samples) / (ROLLING_AVERAGE_SAMPLES as real)
    requires forall i :: 0 <= i < ROLLING_AVERAGE_SAMPLES ==> r.samples[i] > c
    ensures r.distance > c
  {
    SumAbove(r.samples, c);
  }
}

=== FILE: crc32.dfy ===
/**
 * Reflected CRC-32 (polynomial 0xEDB88320, initial register 0xFFFFFFFF,
 * final complement), computed bit by bit, least significant bit of each byte
 * first. The calibration file stores this checksum of its data block.
 *
 * The register is a `bv32`. An input byte enters as the sequence of its eight
 * bits, low bit first, which is the order in which the inner loop of the
 * source consumes them (`ch & 1`, then `ch >>= 1`).
 */
module Crc32 {
  import opened Bytes

  const POLY: bv32 := 0xEDB8_8320
  const INIT: bv32 := 0xFFFF_FFFF

  /** The value folded into the shifted register: the polynomial when the
      feedback bit is set, nothing otherwise. */
  function Mask(feedback: bool): bv32
  {
    if feedback then POLY else 0
  }

  /** One inner iteration for input bit `bit`: shift the register right,
      folding in the polynomial when the feedback bit (the input bit XOR the
      low bit of the register) is set. */
  function BitStep(crc: bv32, bit: bool): bv32
  {
    (crc >> 1) ^ Mask(bit != (crc & 1 == 1))
  }

  /** The low `n` bits of `ch`, least significant first. */
  function Bits(ch: int, n: nat): (r: seq<bool>)
    ensures |r| == n
    decreases n
  {
    if n == 0 then [] else [ch % 2 == 1] + Bits(ch / 2, n - 1)
  }

  /** The register after shifting in `bits` in order. */
  function Steps(crc: bv32, bits: seq<bool>): bv32
    decreases |bits|
  {
    if |bits| == 0 then crc else Steps(BitStep(crc, bits[0]), bits[1..])
  }

  /** The eight inner iterations for one input byte. */
  function UpdateByte(crc: bv32, b: byte): bv32
  {
    Steps(crc, Bits(b, 8))
  }

  /** The register after feeding `data` in order, starting from `crc`. */
  function Register(crc: bv32, data: seq<byte>): bv32
    decreases |data|
  {
    if |data| == 0 then crc else Register(UpdateByte(crc, data[0]), data[1..])
  }

  /** The checksum of a buffer. */
  function Crc32(data: seq<byte>): (r: bv32)
    ensures |data| == 0 ==> r == 0
  {
    !Register(INIT, data)
  }

  /** The register computation is a left fold: feeding `a` then `b` is
      feeding `a + b`. This is what lets a checksum be computed in pieces. */
  lemma {:induction false} RegisterAppend(crc: bv32, a: seq<byte>, b: seq<byte>)
    ensures Register(crc, a + b) == Register(Register(crc, a), b)
    decreases |a|
  {
    if |a| == 0 {
      assert a + b == b;
    } else {
      assert (a + b)[1..] == a[1..] + b;
      RegisterAppend(UpdateByte(crc, a[0]), a[1..], b);
    }
  }

  /** The eight steps for the digit "9" of the check string. */
  lemma CheckValueByte8()
    ensures UpdateByte(0x651F_2550, 0x39) == 0x340B_C6D9
  {
    var bits := [true, false, false, true, true, true, false, false];
    assert Bits(0x39, 8) == bits;
    assert Steps(0x340B_C6D9, bits[8..]) == 0x340B_C6D9;
    assert Steps(0x6817_8DB2, bits[7..]) == 0x340B_C6D9;
    assert Steps(0xD02F_1B64, bits[6..]) == 0x340B_C6D9;
    assert Steps(0x7B2F_3088, bits[5..]) == 0x340B_C6D9;
    assert Steps(0xF65E_6111, bits[4..]) == 0x340B_C6D9;
    assert Steps(0x37CD_C462, bits[3..]) == 0x340B_C6D9;
    assert Steps(0x6F9B_88C4, bits[2..]) == 0x340B_C6D9;
    assert Steps(0xDF37_1188, bits[1..]) == 0x340B_C6D9;
  }

  /** The register after the digits "9" of the check string. */
  lemma CheckValueSuffix8()
    ensures Register(0x651F_2550, [0x39]) == 0x340B_C6D9
  {
    CheckValueByte8();
    assert Register(0x340B_C6D9, []) == 0x340B_C6D9;
  }

  /** The eight steps for the digit "8" of the check string. */
  lemma CheckValueByte7()
    ensures UpdateByte(0xAFFC_9660, 0x38) == 0x651F_2550
  {
    var bits := [false, false, false, true, true, true, false, false];
    assert Bits(0x38, 8) == bits;
    assert Steps(0x651F_2550, bits[8..]) == 0x651F_2550;
    assert Steps(0xCA3E_4AA0, bits[7..]) == 0x651F_2550;
    assert Steps(0x4F0D_9301, bits[6..]) == 0x651F_2550;
    assert Steps(0x9E1B_2603, bits[5..]) == 0x651F_2550;
    assert Steps(0xE747_4A46, bits[4..]) == 0x651F_2550;
    assert Steps(0x15FF_92CC, bits[3..]) == 0x651F_2550;
    assert Steps(0x2BFF_2598, bits[2..]) == 0x651F_2550;
    assert Steps(0x57FE_4B30, bits[1..]) == 0x651F_2550;
  }

  /** The register after the digits "89" of the check string. */
  lemma CheckValueSuffix7()
    ensures Register(0xAFFC_9660, [0x38, 0x39]) == 0x340B_C6D9
  {
    CheckValueByte7();
    CheckValueSuffix8();
    assert [0x38, 0x39][1..] == [0x39];
  }

  /** The eight steps for the digit "7" of the check string. */
  lemma CheckValueByte6()
    ensures UpdateByte(0xF68D_2C9E, 0x37) == 0xAFFC_9660
  {
    var bits := [true, true, true, false, true, true, false, false];
    assert Bits(0x37, 8) == bits;
    assert Steps(0xAFFC_9660, bits[8..]) == 0xAFFC_9660;
    assert Steps(0x8488_2A81, bits[7..]) == 0xAFFC_9660;
    assert Steps(0xD261_5343, bits[6..]) == 0xAFFC_9660;
    assert Steps(0x7FB3_A0C6, bits[5..]) == 0xAFFC_9660;
    assert Steps(0xFF67_418D, bits[4..]) == 0xAFFC_9660;
    assert Steps(0x25BF_855B, bits[3..]) == 0xAFFC_9660;
    assert Steps(0x4B7F_0AB7, bits[2..]) == 0xAFFC_9660;
    assert Steps(0x96FE_156F, bits[1..]) == 0xAFFC_9660;
  }

  /** The register after the digits "789" of the check string. */
  lemma CheckValueSuffix6()
    ensures Register(0xF68D_2C9E, [0x37, 0x38, 0x39]) == 0x340B_C6D9
  {
    CheckValueByte6();
    CheckValueSuffix7();
    assert [0x37, 0x38, 0x39][1..] == [0x38, 0x39];
  }

  /** The eight steps for the digit "6" of the check string. */
  lemma CheckValueByte5()
    ensures UpdateByte(0x340A_C5E3, 0x36) == 0xF68D_2C9E
  {
    var bits := [false, true, true, false, true, true, false, false];
    assert Bits(0x36, 8) == bits;
    assert Steps(0xF68D_2C9E, bits[8..]) == 0xF68D_2C9E;
    assert Steps(0x366B_5F7D, bits[7..]) == 0xF68D_2C9E;
    assert Steps(0x6CD6_BEFA, bits[6..]) == 0xF68D_2C9E;
    assert Steps(0xD9AD_7DF5, bits[5..]) == 0xF68D_2C9E;
    assert Steps(0x682B_FDAA, bits[4..]) == 0xF68D_2C9E;
    assert Steps(0xD057_FB54, bits[3..]) == 0xF68D_2C9E;
    assert Steps(0x7BDE_F0E8, bits[2..]) == 0xF68D_2C9E;
    assert Steps(0xF7BD_E1D1, bits[1..]) == 0xF68D_2C9E;
  }

  /** The register after the digits "6789" of the check string. */
  lemma CheckValueSuffix5()
    ensures Register(0x340A_C5E3, [0x36, 0x37, 0x38, 0x39]) == 0x340B_C6D9
  {
    CheckValueByte5();
    CheckValueSuffix6();
    assert [0x36, 0x37, 0x38, 0x39][1..] == [0x37, 0x38, 0x39];
  }

  /** The eight steps for the digit "5" of the check string. */
  lemma CheckValueByte4()
    ensures UpdateByte(0x641C_1F5C, 0x35) == 0x340A_C5E3
  {
    var bits := [true, false, true, false, true, true, false, false];
    assert Bits(0x35, 8) == bits;
    assert Steps(0x340A_C5E3, bits[8..]) == 0x340A_C5E3;
    assert Steps(0x6815_8BC6, bits[7..]) == 0x340A_C5E3;
    assert Steps(0xD02B_178C, bits[6..]) == 0x340A_C5E3;
    assert Steps(0x7B27_2958, bits[5..]) == 0x340A_C5E3;
    assert Steps(0xF64E_52B1, bits[4..]) == 0x340A_C5E3;
    assert Steps(0x37ED_A323, bits[3..]) == 0x340A_C5E3;
    assert Steps(0x6FDB_4647, bits[2..]) == 0x340A_C5E3;
    assert Steps(0xDFB6_8C8E, bits[1..]) == 0x340A_C5E3;
  }

  /** The register after the digits "56789" of the check string. */
  lemma CheckValueSuffix4()
    ensures Register(0x641C_1F5C, [0x35, 0x36, 0x37, 0x38, 0x39]) == 0x340B_C6D9
  {
    CheckValueByte4();
    CheckValueSuffix5();
    assert [0x35, 0x36, 0x37, 0x38, 0x39][1..] == [0x36, 0x37, 0x38, 0x39];
  }

  /** The eight steps for the digit "4" of the check string. */
  lemma CheckValueByte3()
    ensures UpdateByte(0x77B7_9C2D, 0x34) == 0x641C_1F5C
  {
    var bits := [false, false, true, false, true, true, false, false];
    assert Bits(0x34, 8) == bits;
    assert Steps(0x641C_1F5C, bits[8..]) == 0x641C_1F5C;
    assert Steps(0xC838_3EB8, bits[7..]) == 0x641C_1F5C;
    assert Steps(0x4B01_7B31, bits[6..]) == 0x641C_1F5C;
    assert Steps(0x9602_F663, bits[5..]) == 0x641C_1F5C;
    assert Steps(0xF774_EA86, bits[4..]) == 0x641C_1F5C;
    assert Steps(0x3598_D34D, bits[3..]) == 0x641C_1F5C;
    assert Steps(0x6B31_A69B, bits[2..]) == 0x641C_1F5C;
    assert Steps(0xD663_4D36, bits[1..]) == 0x641C_1F5C;
  }

  /** The register after the digits "456789" of the check string. */
  lemma CheckValueSuffix3()
    ensures Register(0x77B7_9C2D, [0x34, 0x35, 0x36, 0x37, 0x38, 0x39]) == 0x340B_C6D9
  {
    CheckValueByte3();
    CheckValueSuffix4();
    assert [0x34, 0x35, 0x36, 0x37, 0x38, 0x39][1..] == [0x35, 0x36, 0x37, 0x38, 0x39];
  }

  /** The eight steps for the digit "3" of the check string. */
  lemma CheckValueByte2()
    ensures UpdateByte(0xB0AC_BB32, 0x33) == 0x77B7_9C2D
  {
    var bits := [true, true, false, false, true, true, false, false];
    assert Bits(0x33, 8) == bits;
    assert Steps(0x77B7_9C2D, bits[8..]) == 0x77B7_9C2D;
    assert Steps(0xEF6F_385A, bits[7..]) == 0x77B7_9C2D;
    assert Steps(0x05AF_76F5, bits[6..]) == 0x77B7_9C2D;
    assert Steps(0x0B5E_EDEB, bits[5..]) == 0x77B7_9C2D;
    assert Steps(0x16BD_DBD7, bits[4..]) == 0x77B7_9C2D;
    assert Steps(0x2D7B_B7AE, bits[3..]) == 0x77B7_9C2D;
    assert Steps(0x5AF7_6F5C, bits[2..]) == 0x77B7_9C2D;
    assert Steps(0xB5EE_DEB9, bits[1..]) == 0x77B7_9C2D;
  }

  /** The register after the digits "3456789" of the check string. */
  lemma CheckValueSuffix2()
    ensures Register(0xB0AC_BB32, [0x33, 0x34, 0x35, 0x36, 0x37, 0x38, 0x39]) == 0x340B_C6D9
  {
    CheckValueByte2();
    CheckValueSuffix3();
    assert [0x33, 0x34, 0x35, 0x36, 0x37, 0x38, 0x39][1..] == [0x34, 0x35, 0x36, 0x37, 0x38, 0x39];
  }

  /** The eight steps for the digit "2" of the check string. */
  lemma CheckValueByte1()
    ensures UpdateByte(0x7C23_1048, 0x32) == 0xB0AC_BB32
  {
    var bits := [false, true, false, false, true, true, false, false];
    assert Bits(0x32, 8) == bits;
    assert Steps(0xB0AC_BB32, bits[8..]) == 0xB0AC_BB32;
    assert Steps(0xBA28_7025, bits[7..]) == 0xB0AC_BB32;
    assert Steps(0xAF21_E60B, bits[6..]) == 0xB0AC_BB32;
    assert Steps(0x8532_CA56, bits[5..]) == 0xB0AC_BB32;
    assert Steps(0xD114_92EC, bits[4..]) == 0xB0AC_BB32;
    assert Steps(0x7958_2399, bits[3..]) == 0xB0AC_BB32;
    assert Steps(0xF2B0_4732, bits[2..]) == 0xB0AC_BB32;
    assert Steps(0x3E11_8824, bits[1..]) == 0xB0AC_BB32;
  }

  /** The register after the digits "23456789" of the check string. */
  lemma CheckValueSuffix1()
    ensures Register(0x7C23_1048, [0x32, 0x33, 0x34, 0x35, 0x36, 0x37, 0x38, 0x39]) == 0x340B_C6D9
  {
    CheckValueByte1();
    CheckValueSuffix2();
    assert [0x32, 0x33, 0x34, 0x35, 0x36, 0x37, 0x38, 0x39][1..] == [0x33, 0x34, 0x35, 0x36, 0x37, 0x38, 0x39];
  }

  /** The eight steps for the digit "1" of the check string. */
  lemma CheckValueByte0()
    ensures UpdateByte(0xFFFF_FFFF, 0x31) == 0x7C23_1048
  {
    var bits := [true, false, false, false, true, true, false, false];
    assert Bits(0x31, 8) == bits;
    assert Steps(0x7C23_1048, bits[8..]) == 0x7C23_1048;
    assert Steps(0xF846_2090, bits[7..]) == 0x7C23_1048;
    assert Steps(0x2BFD_4761, bits[6..]) == 0x7C23_1048;
    assert Steps(0x57FA_8EC3, bits[5..]) == 0x7C23_1048;
    assert Steps(0xAFF5_1D87, bits[4..]) == 0x7C23_1048;
    assert Steps(0x849B_3D4F, bits[3..]) == 0x7C23_1048;
    assert Steps(0xD247_7CDF, bits[2..]) == 0x7C23_1048;
    assert Steps(0x7FFF_FFFF, bits[1..]) == 0x7C23_1048;
  }

  /** The register after the digits "123456789" of the check string. */
  lemma CheckValueSuffix0()
    ensures Register(0xFFFF_FFFF, [0x31, 0x32, 0x33, 0x34, 0x35, 0x36, 0x37, 0x38, 0x39]) == 0x340B_C6D9
  {
    CheckValueByte0();
    CheckValueSuffix1();
    assert [0x31, 0x32, 0x33, 0x34, 0x35, 0x36, 0x37, 0x38, 0x39][1..] == [0x32, 0x33, 0x34, 0x35, 0x36, 0x37, 0x38, 0x39];
  }

  /** The standard check value of this CRC: the checksum of the nine ASCII
      digits "123456789" is 0xCBF43926. */
  lemma CheckValue()
    ensures Crc32([0x31, 0x32, 0x33, 0x34, 0x35, 0x36, 0x37, 0x38, 0x39]) == 0xCBF4_3926
  {
    CheckValueSuffix0();
  }

  /** A bit step is injective in the register: the top bit of the result is
      the feedback bit (POLY has its top bit set), which recovers the rest. */
  lemma BitStepInjective(r1: bv32, r2: bv32, bit: bool)
    requires BitStep(r1, bit) == BitStep(r2, bit)
    ensures r1 == r2
  {
  }

  lemma {:induction false} StepsInjective(r1: bv32, r2: bv32, bits: seq<bool>)
    requires Steps(r1, bits) == Steps(r2, bits)
    ensures r1 == r2
    decreases |bits|
  {
    if |bits| > 0 {
      StepsInjective(BitStep(r1, bits[0]), BitStep(r2, bits[0]), bits[1..]);
      BitStepInjective(r1, r2, bits[0]);
    }
  }

  /** Different registers before a common suffix give different registers
      after it: no run of bytes can mask an earlier difference. */
  lemma {:induction false} RegisterInjective(r1: bv32, r2: bv32, data: seq<byte>)
    requires Register(r1, data) == Register(r2, data)
    ensures r1 == r2
    decreases |data|
  {
    if |data| > 0 {
      RegisterInjective(UpdateByte(r1, data[0]), UpdateByte(r2, data[0]), data[1..]);
      StepsInjective(r1, r2, Bits(data[0], 8));
    }
  }

  /** The top j + 1 bits of a register, for j < 8. */
  function HighBits(r: bv32, j: nat): bv32
    requires j < 8
  {
    r >> (31 - j)
  }

  /** HighBits with the shift distance spelled out for each j. */
  function HighBitsByCase(r: bv32, j: nat): bv32
    requires j < 8
  {
    match j
    case 0 => r >> 31
    case 1 => r >> 30
    case 2 => r >> 29
    case 3 => r >> 28
    case 4 => r >> 27
    case 5 => r >> 26
    case 6 => r >> 25
    case _ => r >> 24
  }

  lemma HighBitsCases(r: bv32, j: nat)
    requires j < 8
    ensures HighBits(r, j) == HighBitsByCase(r, j)
  {
    match j
    case 0 => assert HighBits(r, 0) == r >> 31;
    case 1 => assert HighBits(r, 1) == r >> 30;
    case 2 => assert HighBits(r, 2) == r >> 29;
    case 3 => assert HighBits(r, 3) == r >> 28;
    case 4 => assert HighBits(r, 4) == r >> 27;
    case 5 => assert HighBits(r, 5) == r >> 26;
    case 6 => assert HighBits(r, 6) == r >> 25;
    case _ => assert HighBits(r, 7) == r >> 24;
  }

  /** The top j + 2 bits after a step are the top j + 1 bits before it,
      shifted down, with the polynomial's high bits folded in when the
      feedback is set. A step on each side either folds in the same mask,
      keeping the difference, or different masks, which differ in the new
      top bit. */
  lemma HighBitsStepByCase(r1: bv32, r2: bv32, a: bool, b: bool, j: nat)
    requires j < 7 && HighBitsByCase(r1, j) != HighBitsByCase(r2, j)
    ensures HighBitsByCase(BitStep(r1, a), j + 1) != HighBitsByCase(BitStep(r2, b), j + 1)
  {
  }

  /** Registers whose top j + 1 bits differ still differ in their top
      j + 2 bits after one step each, whatever the input bits. */
  lemma HighBitsStayApart(r1: bv32, r2: bv32, a: bool, b: bool, j: nat)
    requires j < 7 && HighBits(r1, j) != HighBits(r2, j)
    ensures HighBits(BitStep(r1, a), j + 1) != HighBits(BitStep(r2, b), j + 1)
  {
    HighBitsCases(r1, j);
    HighBitsCases(r2, j);
    HighBitsCases(BitStep(r1, a), j + 1);
    HighBitsCases(BitStep(r2, b), j + 1);
    HighBitsStepByCase(r1, r2, a, b, j);
  }

  /** Different input bits into the same register give different feedback,
      hence different top bits (POLY has its top bit set). */
  lemma FirstDifference(crc: bv32, a: bool, b: bool)
    requires a != b
    ensures HighBits(BitStep(crc, a), 0) != HighBits(BitStep(crc, b), 0)
  {
    assert BitStep(crc, a) >> 31 != BitStep(crc, b) >> 31;
  }

  /** Once two registers differ in their top j + 1 bits, the remaining bits
      of the byte cannot make them equal, whatever the two inputs are. */
  lemma {:induction false} Diverge(r1: bv32, r2: bv32, u: seq<bool>, v: seq<bool>, j: nat)
    requires |u| == |v| && j + |u| <= 7
    requires HighBits(r1, j) != HighBits(r2, j)
    ensures Steps(r1, u) != Steps(r2, v)
    decreases |u|
  {
    if |u| > 0 {
      HighBitsStayApart(r1, r2, u[0], v[0], j);
      Diverge(BitStep(r1, u[0]), BitStep(r2, v[0]), u[1..], v[1..], j + 1);
    }
  }

  /** Bit strings of at most eight bits that leave the same register are
      equal: the registers agree up to the first differing bit and never
      meet again after it. */
  lemma {:induction false} StepsInjectiveInBits(crc: bv32, u: seq<bool>, v: seq<bool>)
    requires |u| == |v| <= 8
    requires Steps(crc, u) == Steps(crc, v)
    ensures u == v
    decreases |u|
  {
    if |u| > 0 {
      if u[0] == v[0] {
        StepsInjectiveInBits(BitStep(crc, u[0]), u[1..], v[1..]);
        assert u == [u[0]] + u[1..] && v == [v[0]] + v[1..];
      } else {
        FirstDifference(crc, u[0], v[0]);
        Diverge(BitStep(crc, u[0]), BitStep(crc, v[0]), u[1..], v[1..], 0);
      }
    }
  }

  /** Distinct numbers below 2^n have distinct low-`n`-bit strings. */
  lemma {:induction false} BitsInjective(x: nat, y: nat, n: nat)
    requires x < Pow2(n) && y < Pow2(n)
    requires Bits(x, n) == Bits(y, n)
    ensures x == y
    decreases n
  {
    if n > 0 {
      assert Bits(x, n)[0] == Bits(y, n)[0];
      assert Bits(x, n)[1..] == Bits(x / 2, n - 1);
      assert Bits(y, n)[1..] == Bits(y / 2, n - 1);
      BitsInjective(x / 2, y / 2, n - 1);
    }
  }

  function Pow2(n: nat): (r: nat)
    ensures r >= 1
  {
    if n == 0 then 1 else 2 * Pow2(n - 1)
  }

  /** For a fixed register, different input bytes give different registers. */
  lemma UpdateByteInjectiveInByte(crc: bv32, x: byte, y: byte)
    requires UpdateByte(crc, x) == UpdateByte(crc, y)
    ensures x == y
  {
    StepsInjectiveInBits(crc, Bits(x, 8), Bits(y, 8));
    assert Pow2(8) == 256;
    BitsInjective(x, y, 8);
  }

  /** The checksum detects every corruption confined to a single byte, so a
      calibration file with one damaged byte never validates. */
  lemma SingleByteChangeDetected(a: seq<byte>, x: byte, y: byte, b: seq<byte>)
    requires x != y
    ensures Crc32(a + [x] + b) != Crc32(a + [y] + b)
  {
    var ra := Register(INIT, a);
    RegisterAppend(INIT, a + [x], b);
    RegisterAppend(INIT, a, [x]);
    RegisterAppend(INIT, a + [y], b);
    RegisterAppend(INIT, a, [y]);
    assert Register(ra, [x]) == UpdateByte(ra, x);
    assert Register(ra, [y]) == UpdateByte(ra, y);
    if Crc32(a + [x] + b) == Crc32(a + [y] + b) {
      assert Register(UpdateByte(ra, x), b) == Register(UpdateByte(ra, y), b);
      RegisterInjective(UpdateByte(ra, x), UpdateByte(ra, y), b);
      UpdateByteInjectiveInByte(ra, x, y);
    }
  }

  /** The body of the source's inner loop: the low bit of `ch` into the register. */
  method ShiftInBit(crc: bv32, ch: int) returns (r: bv32)
    ensures r == BitStep(crc, ch % 2 == 1)
  {
    var b := (ch % 2 == 1) != (crc & 1 == 1);
    r := crc >> 1;
    if b {
      r := r ^ POLY;
    }
  }

  /** The source's inner loop: the eight bits of one byte, low bit first. */
  method ShiftInByte(crc: bv32, b: byte) returns (r: bv32)
    ensures r == UpdateByte(crc, b)
  {
    var ch: int := b;
    r := crc;
    var j := 0;
    while j < 8
      invariant 0 <= j <= 8
      invariant Steps(r, Bits(ch, 8 - j)) == UpdateByte(crc, b)
    {
      assert Bits(ch, 8 - j)[1..] == Bits(ch / 2, 7 - j);
      r := ShiftInBit(r, ch);
      ch := ch / 2;
      j := j + 1;
    }
  }

  /** The source's outer loop over a buffer: returns the checksum of `data`. */
  method ComputeCrc32(data: seq<byte>) returns (r: bv32)
    ensures r == Crc32(data)
  {
    var crc: bv32 := INIT;
    var i := 0;
    while i < |data|
      invariant 0 <= i <= |data|
      invariant Register(crc, data[i..]) == Register(INIT, data)
    {
      crc := ShiftInByte(crc, data[i]);
      assert data[i..][1..] == data[i + 1..];
      i := i + 1;
    }
    r := !crc;
  }
}

=== FILE: framer.dfy ===
/**
 * The host-side frame reader of tty_handler: read_stream with its zero-read
 * counter, and tty_read_frame, which scans the byte stream for the magic
 * (FIND_MAGIC), then copies the rest of the header and the body (READ_REST)
 * into the frame buffer. The serial port is a sequence of read(2) results;
 * the model consumes them front to back.
 */
module Framer {
  import opened Bytes
  import opened Wire

  const MAX_READ: nat := 2048
  const MAX_TLV_SIZE: nat := 1024 * 200
  /** tlv_buff holds MAX_TLV_SIZE + 1 bytes. */
  const BUFFER_SIZE: nat := MAX_TLV_SIZE + 1
  const REQUEST_RESET: int := -0xFFFF
  const MAX_ZERO_LEN_READS: nat := 0xFF
  /** The largest body a frame may announce. */
  const MAX_BODY: nat := MAX_TLV_SIZE - HEADER_SIZE

  /** What one read(2) of at most 2048 bytes can deliver. */
  type Chunk = s: seq<byte> | |s| <= 2048

  /** One read(2) result: some bytes (possibly none), or an error (-1). */
  datatype ReadResult = Got(data: Chunk) | Failed

  function ReadCount(r: ReadResult): int
  {
    match r
    case Got(d) => |d|
    case Failed => -1
  }

  /** The port side of the handler: the last chunk read, the read position in
      it, the zero-read counter, and `error`, the negative read_stream result
      (-1 or REQUEST_RESET) or 0 after a successful read. */
  datatype Port = Port(chunk: seq<byte>, index: nat, error: int, zeroReads: nat)

  /** The read position never passes the chunk, and a failed read leaves a
      negative result. */
  predicate PortOk(p: Port)
  {
    |p.chunk| <= MAX_READ && p.index <= |p.chunk| && p.error <= 0
  }

  /** bytes_read: the last read_stream result. */
  function BytesRead(p: Port): int
  {
    if p.error < 0 then p.error else |p.chunk|
  }

  /** The bytes read but not yet consumed. */
  function Pending(p: Port): (r: seq<byte>)
    requires PortOk(p)
  {
    p.chunk[p.index..]
  }

  function Rem(p: Port): nat
    requires PortOk(p)
  {
    |p.chunk| - p.index
  }

  /** read_stream: resets the read position, reads, counts consecutive
      zero-length reads and reports REQUEST_RESET once there are more than
      MAX_ZERO_LEN_READS of them. */
  function Refill(p: Port, r: ReadResult): (q: Port)
    requires PortOk(p)
    ensures PortOk(q) && q.index == 0
    ensures q.zeroReads == if ReadCount(r) == 0 then p.zeroReads + 1 else 0
    ensures BytesRead(q) == REQUEST_RESET <==> ReadCount(r) == 0 && p.zeroReads >= MAX_ZERO_LEN_READS
    ensures BytesRead(q) != REQUEST_RESET ==> BytesRead(q) == ReadCount(r)
  {
    var rc := ReadCount(r);
    var zeros := if rc == 0 then p.zeroReads + 1 else 0;
    var chunk := if r.Got? then r.data else p.chunk;
    Port(chunk, 0, if zeros > MAX_ZERO_LEN_READS then REQUEST_RESET else if rc < 0 then rc else 0, zeros)
  }

  /** n zero-length reads in a row. */
  function ZeroRun(p: Port, n: nat): (q: Port)
    requires PortOk(p)
    ensures PortOk(q)
  {
    if n == 0 then p else Refill(ZeroRun(p, n - 1), Got([]))
  }

  /** After n zero-length reads the counter has grown by n, and the last of
      them reports REQUEST_RESET exactly when the counter passed 0xFF. */
  lemma {:induction false} ZeroRunCounts(p: Port, n: nat)
    requires PortOk(p) && n > 0
    ensures ZeroRun(p, n).zeroReads == p.zeroReads + n
    ensures BytesRead(ZeroRun(p, n)) == REQUEST_RESET <==> p.zeroReads + n > MAX_ZERO_LEN_READS
    ensures BytesRead(ZeroRun(p, n)) != REQUEST_RESET ==> BytesRead(ZeroRun(p, n)) == 0
  {
    if n > 1 {
      ZeroRunCounts(p, n - 1);
    }
  }

  /** From a clean counter, the 256th consecutive zero-length read is the first
      to request a reset. */
  lemma ResetOnZeroRead256(p: Port)
    requires PortOk(p) && p.zeroReads == 0
    ensures BytesRead(ZeroRun(p, 255)) == 0
    ensures BytesRead(ZeroRun(p, 256)) == REQUEST_RESET
    ensures BytesRead(ZeroRun(p, 300)) == REQUEST_RESET
  {
    ZeroRunCounts(p, 255);
    ZeroRunCounts(p, 256);
    ZeroRunCounts(p, 300);
  }

  // ---------------------------------------------------------------------------
  // Magic search

  /** One byte of the magic search: advance on a match, otherwise start over
      without testing this byte against the first magic byte. */
  function MatchStep(m: nat, b: byte): (r: nat)
    requires m < MAGIC_SIZE
    ensures r <= m + 1
    ensures r == m + 1 <==> b == MAGIC[m]
  {
    if MAGIC[m] == b then m + 1 else 0
  }

  datatype ScanResult = Found(used: nat) | Partial(matched: nat)

  /** Runs the magic search over `s` from `m` matched bytes: the number of bytes
      consumed up to and including the last magic byte, or how much of the
      magic is matched at the end. */
  function Scan(s: seq<byte>, m: nat): (r: ScanResult)
    requires m < MAGIC_SIZE
    ensures r.Found? ==> 1 <= r.used <= |s|
    ensures r.Partial? ==> r.matched < MAGIC_SIZE
  {
    ScanAt(s, m, 0)
  }

  /** The search from position i with m bytes matched. */
  function ScanAt(s: seq<byte>, m: nat, i: nat): (r: ScanResult)
    requires m < MAGIC_SIZE && i <= |s|
    ensures r.Found? ==> i < r.used <= |s|
    ensures r.Partial? ==> r.matched < MAGIC_SIZE
    decreases |s| - i
  {
    if i == |s| then Partial(m)
    else
      var m' := MatchStep(m, s[i]);
      if m' == MAGIC_SIZE then Found(i + 1) else ScanAt(s, m', i + 1)
  }

  function Shift(r: ScanResult, n: nat): ScanResult
  {
    match r
    case Found(u) => Found(u + n)
    case Partial(k) => Partial(k)
  }

  /** Scanning the second piece of a concatenation is scanning that piece on
      its own, with the positions moved by the length of the first. */
  lemma {:induction false} ScanAtShift(s: seq<byte>, t: seq<byte>, m: nat, j: nat)
    requires m < MAGIC_SIZE && j <= |t|
    ensures ScanAt(s + t, m, |s| + j) == Shift(ScanAt(t, m, j), |s|)
    decreases |t| - j
  {
    if j < |t| {
      assert (s + t)[|s| + j] == t[j];
      var m' := MatchStep(m, t[j]);
      if m' != MAGIC_SIZE {
        ScanAtShift(s, t, m', j + 1);
      }
    }
  }

  lemma {:induction false} ScanAtAppend(s: seq<byte>, t: seq<byte>, m: nat, i: nat)
    requires m < MAGIC_SIZE && i <= |s|
    ensures ScanAt(s + t, m, i) == match ScanAt(s, m, i)
                                   case Found(u) => Found(u)
                                   case Partial(k) => Shift(ScanAt(t, k, 0), |s|)
    decreases |s| - i
  {
    if i == |s| {
      ScanAtShift(s, t, m, 0);
    } else {
      assert (s + t)[i] == s[i];
      var m' := MatchStep(m, s[i]);
      if m' != MAGIC_SIZE {
        ScanAtAppend(s, t, m', i + 1);
      }
    }
  }

  /** Scanning two pieces in turn, carrying the partial match across, is
      scanning their concatenation. */
  lemma ScanAppend(s: seq<byte>, t: seq<byte>, m: nat)
    requires m < MAGIC_SIZE
    ensures Scan(s + t, m) == match Scan(s, m)
                              case Found(u) => Found(u)
                              case Partial(k) => Shift(Scan(t, k), |s|)
  {
    ScanAtAppend(s, t, m, 0);
  }

  lemma {:induction false} ScanAtSound(s: seq<byte>, m: nat, i: nat)
    requires m < MAGIC_SIZE && m <= i <= |s| && s[i - m..i] == MAGIC[..m]
    ensures ScanAt(s, m, i).Found? ==>
              var u := ScanAt(s, m, i).used;
              u >= MAGIC_SIZE && s[u - MAGIC_SIZE..u] == MAGIC
    decreases |s| - i
  {
    if i < |s| {
      var m' := MatchStep(m, s[i]);
      assert s[i + 1 - m'..i + 1] == MAGIC[..m'] by {
        if m' > 0 {
          assert s[i + 1 - m'..i + 1] == s[i - m..i] + [s[i]];
          assert MAGIC[..m'] == MAGIC[..m] + [MAGIC[m]];
        }
      }
      if m' < MAGIC_SIZE {
        ScanAtSound(s, m', i + 1);
      }
    }
  }

  /** The search only reports a real magic: the bytes it consumed end with the
      eight magic bytes. */
  lemma ScanSound(s: seq<byte>)
    ensures Scan(s, 0).Found? ==>
              var u := Scan(s, 0).used;
              u >= MAGIC_SIZE && s[u - MAGIC_SIZE..u] == MAGIC
  {
    ScanAtSound(s, 0, 0);
  }

  /** A stream that opens with the magic is found after exactly eight bytes. */
  lemma ScanMagicFirst(t: seq<byte>)
    ensures Scan(MAGIC + t, 0) == Found(MAGIC_SIZE)
  {
    var s := MAGIC + t;
    assert s[7] == 7 && s[6] == 8 && s[5] == 5 && s[4] == 6;
    assert s[3] == 3 && s[2] == 4 && s[1] == 1 && s[0] == 2;
    assert ScanAt(s, 7, 7) == Found(8);
    assert ScanAt(s, 6, 6) == Found(8);
    assert ScanAt(s, 5, 5) == Found(8);
    assert ScanAt(s, 4, 4) == Found(8);
    assert ScanAt(s, 3, 3) == Found(8);
    assert ScanAt(s, 2, 2) == Found(8);
    assert ScanAt(s, 1, 1) == Found(8);
  }

  /** A repeated first byte throws the search off: after 2, 2 the second 2 is
      not tried as a new start, so a magic right behind it is missed. */
  lemma RepeatedStartByteMissesMagic()
    ensures var s: seq<byte> := [2, 2, 1, 4, 3, 6, 5, 8, 7];
            s[1..] == MAGIC && Scan(s, 0) == Partial(0)
  {
    var s: seq<byte> := [2, 2, 1, 4, 3, 6, 5, 8, 7];
    assert ScanAt(s, 0, 9) == Partial(0);
    assert ScanAt(s, 0, 8) == Partial(0);
    assert ScanAt(s, 0, 7) == Partial(0);
    assert ScanAt(s, 0, 6) == Partial(0);
    assert ScanAt(s, 0, 5) == Partial(0);
    assert ScanAt(s, 0, 4) == Partial(0);
    assert ScanAt(s, 0, 3) == Partial(0);
    assert ScanAt(s, 0, 2) == Partial(0);
    assert ScanAt(s, 1, 1) == Partial(0);
  }

  // ---------------------------------------------------------------------------
  // The chunked reader

  datatype Status = Done | Starved | Reset | Unhandled

  /** The port together with the reads still to come. */
  datatype Io = Io(port: Port, inputs: seq<ReadResult>)

  /** read_stream on the next read. It resets the read position, so the
      position the port was left at does not matter. */
  function Next(io: Io): (r: Io)
    requires PortOk(io.port) && |io.inputs| > 0
    ensures PortOk(r.port) && r.inputs == io.inputs[1..]
  {
    Io(Refill(io.port, io.inputs[0]), io.inputs[1..])
  }

  /** The work left: every read still to come outweighs a full chunk, so
      consuming a read or pending bytes both make it shrink. */
  function Work(io: Io): nat
    requires PortOk(io.port)
  {
    |io.inputs| * (MAX_READ + 1) + Rem(io.port)
  }

  /** STATE_FIND_MAGIC: refills when the chunk is used up (a zero-length read
      just loops), scans the chunk, and keeps a partial match across refills.
      A negative read result is not checked here: it reaches the scan loop,
      whose bounds it breaks, and the model stops with Unhandled. */
  function FindMagic(io: Io, m: nat): (r: (Status, Io))
    requires PortOk(io.port) && m < MAGIC_SIZE
    ensures PortOk(r.1.port) && Work(r.1) <= Work(io)
    ensures r.0 != Reset
    ensures r.0 == Done ==> r.1.port.error == 0 && Work(r.1) < Work(io)
    decreases Work(io)
  {
    var p := io.port;
    if p.error < 0 then (Unhandled, io)
    else if p.index == |p.chunk| then
      if |io.inputs| == 0 then (Starved, io)
      else FindMagic(Next(io), m)
    else
      match Scan(Pending(p), m)
      case Found(u) => (Done, Io(p.(index := p.index + u), io.inputs))
      case Partial(k) => FindMagic(Io(p.(index := |p.chunk|), io.inputs), k)
  }

  /** READ_CHUNK: takes min(pending, still wanted) bytes and refills while
      bytes are still wanted; a REQUEST_RESET from a refill is handed straight
      back. The result carries the bytes taken, in order: the firmware copies
      each piece into the frame buffer right behind the previous one, which
      comes to one copy of them all (SpliceJoin). A -1 from read(2) is not
      checked: the next copy would use a wrapped remainder, and the model
      stops with Unhandled. */
  function ReadChunk(io: Io, want: nat): (r: (Status, Io, seq<byte>))
    requires PortOk(io.port)
    ensures PortOk(r.1.port) && Work(r.1) <= Work(io)
    ensures |r.2| <= want
    ensures r.0 == Done ==> r.1.port.error == 0 && |r.2| == want
    ensures r.0 == Reset ==> r.1.port.error == REQUEST_RESET
    decreases |io.inputs|
  {
    var p := io.port;
    if p.error < 0 then (Unhandled, io, [])
    else if want <= Rem(p) then
      (Done, Io(p.(index := p.index + want), io.inputs), p.chunk[p.index..p.index + want])
    else
      var piece := p.chunk[p.index..];
      if |io.inputs| == 0 then (Starved, Io(p.(index := |p.chunk|), io.inputs), piece)
      else if Next(io).port.error == REQUEST_RESET then (Reset, Next(io), piece)
      else
        var r := ReadChunk(Next(io), want - |piece|);
        (r.0, r.1, piece + r.2)
  }

  /** Copying two pieces one behind the other is copying them joined. */
  lemma SpliceJoin(buf: seq<byte>, at: nat, a: seq<byte>, b: seq<byte>)
    requires at + |a| + |b| <= |buf|
    ensures Splice(Splice(buf, at, a), at + |a|, b) == Splice(buf, at, a + b)
  {
    var once := Splice(buf, at, a + b);
    var twice := Splice(Splice(buf, at, a), at + |a|, b);
    forall i | 0 <= i < |buf|
      ensures twice[i] == once[i]
    {
      if at <= i < at + |a| {
        assert (a + b)[i - at] == a[i - at];
      } else if at + |a| <= i < at + |a| + |b| {
        assert (a + b)[i - at] == b[i - at - |a|];
      }
    }
  }

  /** The body length the header announces, as the size_t subtraction
      computes it: a total below 40 wraps around modulo 2^64 to a huge value.
      Written without the modulus, since total - 40 lies between -40 and
      2^32. */
  function BodyLength(total: u32): nat
  {
    if total >= HEADER_SIZE then total - HEADER_SIZE else total - HEADER_SIZE + U64_LIMIT
  }

  /** The length check admits exactly the totals from 40 to MAX_TLV_SIZE;
      totals below 40 are caught only through the wrap-around. */
  lemma LengthCheck(total: u32)
    ensures BodyLength(total) == (total - HEADER_SIZE) % U64_LIMIT
    ensures BodyLength(total) <= MAX_BODY <==> HEADER_SIZE <= total <= MAX_TLV_SIZE
    ensures HEADER_SIZE <= total ==> BodyLength(total) == total - HEADER_SIZE
  {
  }

  /** FIND_MAGIC, then the first step of READ_REST: the 32 header bytes that
      follow the magic are copied behind the 8 magic positions. */
  function ReadHeader(io: Io, buf: seq<byte>): (r: (Status, Io, seq<byte>))
    requires PortOk(io.port) && |buf| == BUFFER_SIZE
    ensures PortOk(r.1.port) && |r.2| == BUFFER_SIZE && Work(r.1) <= Work(io)
    ensures r.0 == Done ==> r.1.port.error == 0 && Work(r.1) < Work(io)
    ensures r.0 == Reset ==> r.1.port.error == REQUEST_RESET
  {
    var (s1, io1) := FindMagic(io, 0);
    if s1 != Done then (s1, io1, buf)
    else
      var (s2, io2, got) := ReadChunk(io1, HEADER_SIZE - MAGIC_SIZE);
      (s2, io2, Splice(buf, MAGIC_SIZE, got))
  }

  /** One tty_read_frame loop from FIND_MAGIC: read the header, take
      totalPacketLen, record it as the last frame size, and either reject an
      oversized frame (back to FIND_MAGIC from the current position, with the
      match reset) or copy the body. */
  function FrameFrom(io: Io, buf: seq<byte>, last: nat): (r: (Status, Io, seq<byte>, nat))
    requires PortOk(io.port) && |buf| == BUFFER_SIZE
    ensures PortOk(r.1.port) && |r.2| == BUFFER_SIZE
    ensures r.0 == Done ==> HEADER_SIZE <= r.3 <= MAX_TLV_SIZE && Work(r.1) < Work(io)
    ensures r.0 == Reset ==> r.1.port.error == REQUEST_RESET
    decreases Work(io)
  {
    var (s2, io2, buf2) := ReadHeader(io, buf);
    if s2 != Done then (s2, io2, buf2, last)
    else
      var total := DecodeU32(buf2, TOTAL_LEN_OFFSET);
      var want := BodyLength(total);
      if want > MAX_BODY then FrameFrom(io2, buf2, total)
      else
        var (s3, io3, body) := ReadChunk(io2, want);
        (s3, io3, Splice(buf2, HEADER_SIZE, body), total)
  }

  /** The handler's state that outlives a call. */
  datatype Handler = Handler(port: Port, buffer: seq<byte>, lastSize: nat)

  predicate HandlerOk(h: Handler)
  {
    PortOk(h.port) && |h.buffer| == BUFFER_SIZE
  }

  /** A freshly constructed handler. The frame buffer has no initialiser
      in the source, so its contents are indeterminate until a frame is
      read; the model fills it with zeros. */
  function NewHandler(): (h: Handler)
    ensures HandlerOk(h) && Pending(h.port) == [] && h.port.zeroReads == 0
  {
    Handler(Port([], 0, 0, 0), seq(BUFFER_SIZE, _ => 0), 0)
  }

  /** tty_read_frame: the status, the handler after the call and the reads not
      yet consumed. A call that returns yields 0 (Done) or REQUEST_RESET
      (Reset). */
  function ReadFrame(h: Handler, inputs: seq<ReadResult>): (r: (Status, Handler, seq<ReadResult>))
    requires HandlerOk(h)
    ensures HandlerOk(r.1)
    ensures r.0 == Done ==> HEADER_SIZE <= r.1.lastSize <= MAX_TLV_SIZE
                            && Work(Io(r.1.port, r.2)) < Work(Io(h.port, inputs))
    ensures r.0 == Reset ==> r.1.port.error == REQUEST_RESET
  {
    var (st, io, buf, last) := FrameFrom(Io(h.port, inputs), h.buffer, h.lastSize);
    (st, Handler(io.port, buf, last), io.inputs)
  }

  function ReturnCode(st: Status): int
    requires st == Done || st == Reset
  {
    if st == Done then 0 else REQUEST_RESET
  }

  datatype Processed = Processed(buff: seq<byte>, len: nat)

  /** get_last_processed_tlv: the frame buffer and the last announced size,
      as they stand. */
  function LastProcessed(h: Handler): (r: Processed)
    ensures r.buff == h.buffer && r.len == h.lastSize
  {
    Processed(h.buffer, h.lastSize)
  }

  /** Once a refill has requested a reset, the port is left with a negative
      read result, and the next call stops in FIND_MAGIC's unchecked scan. */
  lemma CallAfterResetUnhandled(h: Handler, inputs: seq<ReadResult>)
    requires HandlerOk(h) && h.port.error == REQUEST_RESET
    ensures ReadFrame(h, inputs).0 == Unhandled
  {
  }

  // ---------------------------------------------------------------------------
  // Reference: the same reader over the flat byte stream

  /** All the bytes a sequence of reads delivers. */
  function Concat(inputs: seq<ReadResult>): seq<byte>
  {
    if |inputs| == 0 then []
    else (match inputs[0] case Got(d) => d case Failed => []) + Concat(inputs[1..])
  }

  /** Every read delivers at least one byte (no errors, no stalls). */
  predicate AllNonEmpty(inputs: seq<ReadResult>)
  {
    |inputs| == 0 || (inputs[0].Got? && |inputs[0].data| > 0 && AllNonEmpty(inputs[1..]))
  }

  /** The byte stream still to be consumed. */
  function StreamOf(io: Io): seq<byte>
    requires PortOk(io.port)
  {
    Pending(io.port) + Concat(io.inputs)
  }

  datatype FlatResult = FlatFramed(frame: seq<byte>, total: u32, rest: seq<byte>) | FlatStarved

  /** The frame reader over a flat stream: `frame` is everything after the
      magic (32 header bytes and the body), `total` the announced length and
      `rest` what is left of the stream. */
  function FlatFrame(s: seq<byte>): (r: FlatResult)
    ensures r.FlatFramed? ==> |r.frame| + MAGIC_SIZE == r.total && r.total <= MAX_TLV_SIZE
    decreases |s|, 1
  {
    match Scan(s, 0)
    case Partial(_) => FlatStarved
    case Found(u) => FlatAfter(s, u)
  }

  /** The flat reader once the magic has ended at `u`: read the header, then
      reject it and search on behind it, or take the body. */
  function FlatAfter(s: seq<byte>, u: nat): (r: FlatResult)
    requires 1 <= u <= |s|
    ensures r.FlatFramed? ==> |r.frame| + MAGIC_SIZE == r.total && r.total <= MAX_TLV_SIZE
    decreases |s|, 0
  {
    if |s| < u + (HEADER_SIZE - MAGIC_SIZE) then FlatStarved
    else
      var total := DecodeU32(s, u + (TOTAL_LEN_OFFSET - MAGIC_SIZE));
      var want := BodyLength(total);
      if want > MAX_BODY then FlatFrame(s[u + (HEADER_SIZE - MAGIC_SIZE)..])
      else if |s| < u + (HEADER_SIZE - MAGIC_SIZE) + want then FlatStarved
      else
        FlatFramed(s[u..u + (HEADER_SIZE - MAGIC_SIZE) + want], total,
                   s[u + (HEADER_SIZE - MAGIC_SIZE) + want..])
  }

  lemma ConcatCons(inputs: seq<ReadResult>)
    requires |inputs| > 0 && inputs[0].Got?
    ensures Concat(inputs) == inputs[0].data + Concat(inputs[1..])
  {
  }

  lemma TakeAppend(a: seq<byte>, b: seq<byte>, k: nat)
    requires k <= |a|
    ensures (a + b)[..k] == a[..k]
  {
  }

  lemma DropAppendLeft(a: seq<byte>, b: seq<byte>, k: nat)
    requires k <= |a|
    ensures (a + b)[k..] == a[k..] + b
  {
  }

  lemma DropAppendRight(a: seq<byte>, b: seq<byte>, k: nat)
    requires k <= |b|
    ensures (a + b)[|a| + k..] == b[k..]
  {
  }

  /** Two adjacent slices make up the slice that spans both. */
  lemma JoinSlices(b: seq<byte>, i: nat, j: nat, k: nat)
    requires i <= j <= k <= |b|
    ensures b[i..k] == b[i..j] + b[j..k]
  {
  }

  /** Taking n pending bytes: they are the next n bytes of the chunk, and the
      rest stay pending. */
  lemma Consume(p: Port, n: nat)
    requires PortOk(p) && p.error == 0 && n <= Rem(p)
    ensures PortOk(p.(index := p.index + n))
    ensures p.chunk[p.index..p.index + n] == Pending(p)[..n]
    ensures Pending(p.(index := p.index + n)) == Pending(p)[n..]
  {
  }

  /** A refill with a non-empty read puts that read's bytes in the port. */
  lemma RefillStream(io: Io)
    requires PortOk(io.port) && |io.inputs| > 0 && AllNonEmpty(io.inputs)
    ensures Next(io).port.error == 0 && Rem(Next(io).port) > 0
    ensures StreamOf(Next(io)) == Concat(io.inputs) && AllNonEmpty(Next(io).inputs)
  {
    ConcatCons(io.inputs);
    assert Pending(Next(io).port) == io.inputs[0].data;
  }

  /** A magic search over the flat stream `s`: found, with `rest` what
      follows the magic, or starved. `ok` stands for a healthy port with
      non-empty reads. */
  predicate MagicAgrees(s: seq<byte>, m: nat, st: Status, ok: bool, rest: seq<byte>)
    requires m < MAGIC_SIZE
  {
    match Scan(s, m)
    case Partial(_) => st == Starved
    case Found(u) => st == Done && ok && rest == s[u..]
  }

  /** The chunked magic search agrees with the flat one. */
  predicate FindsFlat(io: Io, m: nat)
    requires PortOk(io.port) && m < MAGIC_SIZE
  {
    var r := FindMagic(io, m);
    MagicAgrees(StreamOf(io), m, r.0, r.1.port.error == 0 && AllNonEmpty(r.1.inputs), StreamOf(r.1))
  }

  /** A used-up chunk: the search goes on in the next read. */
  lemma FindMagicRefill(io: Io, m: nat)
    requires PortOk(io.port) && io.port.error == 0 && m < MAGIC_SIZE && AllNonEmpty(io.inputs)
    requires Rem(io.port) == 0 && |io.inputs| > 0 && FindsFlat(Next(io), m)
    ensures FindsFlat(io, m)
  {
    Drain(io);
    RefillStream(io);
    assert FindMagic(io, m) == FindMagic(Next(io), m);
    assert StreamOf(io) == StreamOf(Next(io));
  }

  /** The magic completes inside the pending bytes. */
  lemma FindMagicHere(io: Io, m: nat, u: nat)
    requires PortOk(io.port) && io.port.error == 0 && m < MAGIC_SIZE && AllNonEmpty(io.inputs)
    requires Rem(io.port) > 0 && Scan(Pending(io.port), m) == Found(u)
    ensures FindsFlat(io, m)
  {
    var pend := Pending(io.port);
    var c := Concat(io.inputs);
    ScanAppend(pend, c, m);
    Advance(io, u);
  }

  /** A search that ends the first piece with a partial match and goes on
      into the second agrees with the flat one when the second part does. */
  lemma MagicJoinAgrees(pend: seq<byte>, c: seq<byte>, m: nat, k: nat,
                        st: Status, ok: bool, rest: seq<byte>)
    requires m < MAGIC_SIZE && k < MAGIC_SIZE && Scan(pend, m) == Partial(k)
    requires MagicAgrees(c, k, st, ok, rest)
    ensures MagicAgrees(pend + c, m, st, ok, rest)
  {
    ScanAppend(pend, c, m);
    match Scan(c, k)
    case Found(u') =>
      DropAppendRight(pend, c, u');
    case Partial(_) =>
  }

  /** The pending bytes end in a partial match, carried into the next reads. */
  lemma FindMagicPartial(io: Io, m: nat, k: nat)
    requires PortOk(io.port) && io.port.error == 0 && m < MAGIC_SIZE && AllNonEmpty(io.inputs)
    requires Rem(io.port) > 0 && Scan(Pending(io.port), m) == Partial(k)
    requires FindsFlat(Io(io.port.(index := |io.port.chunk|), io.inputs), k)
    ensures FindsFlat(io, m)
  {
    var io1 := Io(io.port.(index := |io.port.chunk|), io.inputs);
    Drain(io);
    var r := FindMagic(io1, k);
    assert FindMagic(io, m) == r;
    MagicJoinAgrees(Pending(io.port), Concat(io.inputs), m, k, r.0,
                    r.1.port.error == 0 && AllNonEmpty(r.1.inputs), StreamOf(r.1));
  }

  /** The magic search over chunks finds the magic where the flat search
      does, however the stream is cut into reads. */
  lemma {:induction false} FindMagicFlat(io: Io, m: nat)
    requires PortOk(io.port) && io.port.error == 0 && m < MAGIC_SIZE && AllNonEmpty(io.inputs)
    ensures FindsFlat(io, m)
    decreases Work(io)
  {
    var p := io.port;
    if Rem(p) == 0 {
      Drain(io);
      if |io.inputs| > 0 {
        RefillStream(io);
        FindMagicFlat(Next(io), m);
        FindMagicRefill(io, m);
      }
    } else {
      match Scan(Pending(p), m)
      case Found(u) =>
        FindMagicHere(io, m, u);
      case Partial(k) =>
        Drain(io);
        FindMagicFlat(Io(p.(index := |p.chunk|), io.inputs), k);
        FindMagicPartial(io, m, k);
    }
  }

  /** Consuming u pending bytes drops them from the front of the stream. */
  lemma Advance(io: Io, u: nat)
    requires PortOk(io.port) && io.port.error == 0 && u <= Rem(io.port)
    ensures var io1 := Io(io.port.(index := io.port.index + u), io.inputs);
            PortOk(io1.port) && io1.port.error == 0 && StreamOf(io1) == StreamOf(io)[u..]
  {
    Consume(io.port, u);
    DropAppendLeft(Pending(io.port), Concat(io.inputs), u);
  }

  /** Consuming all pending bytes leaves the reads still to come. */
  lemma Drain(io: Io)
    requires PortOk(io.port) && io.port.error == 0
    ensures var io1 := Io(io.port.(index := |io.port.chunk|), io.inputs);
            && PortOk(io1.port) && io1.port.error == 0 && Rem(io1.port) == 0
            && StreamOf(io1) == Concat(io.inputs)
            && StreamOf(io) == Pending(io.port) + Concat(io.inputs)
  {
    var io1 := Io(io.port.(index := |io.port.chunk|), io.inputs);
    assert Pending(io1.port) == [];
    assert StreamOf(io1) == [] + Concat(io.inputs);
  }

  /** READ_CHUNK when the chunk holds all that is wanted. */
  lemma ReadChunkHere(io: Io, want: nat)
    requires PortOk(io.port) && io.port.error == 0 && want <= Rem(io.port)
    ensures ReadChunk(io, want)
            == (Done, Io(io.port.(index := io.port.index + want), io.inputs), Pending(io.port)[..want])
  {
    Consume(io.port, want);
  }

  /** READ_CHUNK when the chunk runs out first and a non-empty read follows:
      the pending bytes, then what the next reads deliver. */
  lemma ReadChunkOn(io: Io, want: nat)
    requires PortOk(io.port) && io.port.error == 0 && Rem(io.port) < want
    requires |io.inputs| > 0 && AllNonEmpty(io.inputs)
    ensures var r := ReadChunk(Next(io), want - Rem(io.port));
            ReadChunk(io, want) == (r.0, r.1, Pending(io.port) + r.2)
  {
    RefillStream(io);
  }

  /** A copy of `want` bytes out of the flat stream `s`: `got` holds them and
      `rest` is what is left, or the stream is too short and the copy
      starves. `ok` stands for a healthy port with non-empty reads. */
  predicate CopyAgrees(s: seq<byte>, want: nat, st: Status, ok: bool, got: seq<byte>, rest: seq<byte>)
  {
    if want <= |s| then st == Done && ok && got == s[..want] && rest == s[want..]
    else st == Starved
  }

  /** Copying `want` bytes over chunks agrees with the flat stream. */
  predicate CopiesFlat(io: Io, want: nat)
    requires PortOk(io.port)
  {
    var r := ReadChunk(io, want);
    CopyAgrees(StreamOf(io), want, r.0, r.1.port.error == 0 && AllNonEmpty(r.1.inputs), r.2, StreamOf(r.1))
  }

  /** A copy that takes the pending bytes first and the rest from later reads
      agrees with the flat stream when the later part does. */
  lemma CopyJoinAgrees(pend: seq<byte>, c: seq<byte>, want: nat,
                       st: Status, ok: bool, got: seq<byte>, rest: seq<byte>)
    requires |pend| < want
    requires CopyAgrees(c, want - |pend|, st, ok, got, rest)
    ensures CopyAgrees(pend + c, want, st, ok, pend + got, rest)
  {
    if want <= |pend + c| {
      assert (pend + c)[..want] == pend + c[..want - |pend|];
      DropAppendRight(pend, c, want - |pend|);
    }
  }

  lemma ReadChunkFlatHere(io: Io, want: nat)
    requires PortOk(io.port) && io.port.error == 0 && AllNonEmpty(io.inputs)
    requires want <= Rem(io.port)
    ensures CopiesFlat(io, want)
  {
    ReadChunkHere(io, want);
    Advance(io, want);
    TakeAppend(Pending(io.port), Concat(io.inputs), want);
  }

  lemma ReadChunkFlatOn(io: Io, want: nat)
    requires PortOk(io.port) && io.port.error == 0 && AllNonEmpty(io.inputs)
    requires Rem(io.port) < want && |io.inputs| > 0
    requires CopiesFlat(Next(io), want - Rem(io.port))
    ensures CopiesFlat(io, want)
  {
    ReadChunkOn(io, want);
    RefillStream(io);
    var r := ReadChunk(Next(io), want - Rem(io.port));
    CopyJoinAgrees(Pending(io.port), Concat(io.inputs), want, r.0,
                   r.1.port.error == 0 && AllNonEmpty(r.1.inputs), r.2, StreamOf(r.1));
  }

  /** Copying over chunks delivers the next `want` bytes of the flat stream
      and leaves the rest of the stream for later. */
  lemma {:induction false} ReadChunkFlat(io: Io, want: nat)
    requires PortOk(io.port) && io.port.error == 0 && AllNonEmpty(io.inputs)
    ensures CopiesFlat(io, want)
    decreases |io.inputs|
  {
    var p := io.port;
    if want <= Rem(p) {
      ReadChunkFlatHere(io, want);
    } else if |io.inputs| > 0 {
      RefillStream(io);
      ReadChunkFlat(Next(io), want - Rem(p));
      ReadChunkFlatOn(io, want);
    } else {
      Drain(io);
    }
  }

  /** The total length field sits four bytes after the magic. */
  lemma TotalAt(buf: seq<byte>, s: seq<byte>, u: nat)
    requires |buf| >= HEADER_SIZE && u + (HEADER_SIZE - MAGIC_SIZE) <= |s|
    requires buf[MAGIC_SIZE..HEADER_SIZE] == s[u..u + (HEADER_SIZE - MAGIC_SIZE)]
    ensures DecodeU32(buf, TOTAL_LEN_OFFSET) == DecodeU32(s, u + (TOTAL_LEN_OFFSET - MAGIC_SIZE))
  {
    var h := buf[MAGIC_SIZE..HEADER_SIZE];
    var t := s[u..u + (HEADER_SIZE - MAGIC_SIZE)];
    assert buf[12] == h[4] == t[4] == s[u + 4];
    assert buf[13] == h[5] == t[5] == s[u + 5];
    assert buf[14] == h[6] == t[6] == s[u + 6];
    assert buf[15] == h[7] == t[7] == s[u + 7];
    DecodeU32Window(buf, TOTAL_LEN_OFFSET, s, u + 4);
  }

  /** The header after the magic and the body join up in the buffer as they
      lie in the stream. */
  lemma FrameJoin(buf2: seq<byte>, body: seq<byte>, s: seq<byte>, u: nat, want: nat)
    requires |buf2| == BUFFER_SIZE && |body| == want && HEADER_SIZE + want <= |buf2|
    requires u + (HEADER_SIZE - MAGIC_SIZE) + want <= |s|
    requires buf2[MAGIC_SIZE..HEADER_SIZE] == s[u..u + (HEADER_SIZE - MAGIC_SIZE)]
    requires body == s[u + (HEADER_SIZE - MAGIC_SIZE)..][..want]
    ensures Splice(buf2, HEADER_SIZE, body)[MAGIC_SIZE..HEADER_SIZE + want]
            == s[u..u + (HEADER_SIZE - MAGIC_SIZE) + want]
    ensures s[u + (HEADER_SIZE - MAGIC_SIZE)..][want..] == s[u + (HEADER_SIZE - MAGIC_SIZE) + want..]
  {
    var buf3 := Splice(buf2, HEADER_SIZE, body);
    assert buf3[MAGIC_SIZE..HEADER_SIZE] == buf2[MAGIC_SIZE..HEADER_SIZE];
    JoinSlices(buf3, MAGIC_SIZE, HEADER_SIZE, HEADER_SIZE + want);
    JoinSlices(s, u, u + (HEADER_SIZE - MAGIC_SIZE), u + (HEADER_SIZE - MAGIC_SIZE) + want);
  }

  lemma DropTake(s: seq<byte>, u: nat, k: nat)
    requires u + k <= |s|
    ensures s[u..][..k] == s[u..u + k] && s[u..][k..] == s[u + k..]
  {
  }

  /** Reading the header over chunks agrees with the flat stream: the magic
      is found where the flat search finds it, and the 32 bytes after it
      land behind the magic positions. */
  lemma HeaderFlat(io: Io, buf: seq<byte>)
    requires PortOk(io.port) && io.port.error == 0 && AllNonEmpty(io.inputs)
    requires |buf| == BUFFER_SIZE
    ensures var r := ReadHeader(io, buf);
            var s := StreamOf(io);
            match Scan(s, 0)
            case Partial(_) => r.0 == Starved
            case Found(u) =>
              if u + (HEADER_SIZE - MAGIC_SIZE) <= |s| then
                && r.0 == Done && r.1.port.error == 0 && AllNonEmpty(r.1.inputs)
                && r.2[MAGIC_SIZE..HEADER_SIZE] == s[u..u + (HEADER_SIZE - MAGIC_SIZE)]
                && StreamOf(r.1) == s[u + (HEADER_SIZE - MAGIC_SIZE)..]
              else r.0 == Starved
  {
    var s := StreamOf(io);
    FindMagicFlat(io, 0);
    var (s1, io1) := FindMagic(io, 0);
    match Scan(s, 0)
    case Partial(_) =>
    case Found(u) =>
      ReadChunkFlat(io1, HEADER_SIZE - MAGIC_SIZE);
      if u + (HEADER_SIZE - MAGIC_SIZE) <= |s| {
        DropTake(s, u, HEADER_SIZE - MAGIC_SIZE);
      }
  }

  /** A chunked framing result agrees with the flat one: both starve, or both
      frame the same bytes with the same announced size and leave the same
      stream behind. */
  predicate FrameAgrees(flat: FlatResult, st: Status, io': Io, buf': seq<byte>, last': nat)
    requires PortOk(io'.port)
  {
    match flat
    case FlatStarved => st == Starved
    case FlatFramed(f, total, rest) =>
      && st == Done && last' == total && MAGIC_SIZE <= total <= |buf'|
      && buf'[MAGIC_SIZE..total] == f && StreamOf(io') == rest
  }

  /** The flat reader rejects a header exactly as the chunked one does, and
      starts over right behind it. */
  lemma FlatReject(s: seq<byte>, u: nat)
    requires Scan(s, 0) == Found(u) && u + (HEADER_SIZE - MAGIC_SIZE) <= |s|
    requires BodyLength(DecodeU32(s, u + (TOTAL_LEN_OFFSET - MAGIC_SIZE))) > MAX_BODY
    ensures FlatFrame(s) == FlatFrame(s[u + (HEADER_SIZE - MAGIC_SIZE)..])
  {
  }

  /** The flat reader on an accepted header: the frame is the header after
      the magic and the announced body, if the stream holds them. */
  lemma FlatAcceptShape(s: seq<byte>, u: nat, total: u32, want: nat)
    requires Scan(s, 0) == Found(u) && u + (HEADER_SIZE - MAGIC_SIZE) <= |s|
    requires total == DecodeU32(s, u + (TOTAL_LEN_OFFSET - MAGIC_SIZE))
    requires want == BodyLength(total) <= MAX_BODY
    ensures var end := u + (HEADER_SIZE - MAGIC_SIZE) + want;
            FlatFrame(s) == if end <= |s| then FlatFramed(s[u..end], total, s[end..]) else FlatStarved
  {
  }

  /** An accepted header: the body copy over chunks agrees with the flat
      reader's frame. */
  lemma FlatAccept(flat: FlatResult, s: seq<byte>, u: nat, total: u32, want: nat, buf2: seq<byte>,
                   after: seq<byte>, st: Status, ok: bool, body: seq<byte>, io3: Io)
    requires u + (HEADER_SIZE - MAGIC_SIZE) <= |s| && HEADER_SIZE <= total <= MAX_TLV_SIZE
    requires want == total - HEADER_SIZE && after == s[u + (HEADER_SIZE - MAGIC_SIZE)..]
    requires var end := u + (HEADER_SIZE - MAGIC_SIZE) + want;
             flat == if end <= |s| then FlatFramed(s[u..end], total, s[end..]) else FlatStarved
    requires PortOk(io3.port) && |buf2| == BUFFER_SIZE && |body| <= want
    requires buf2[MAGIC_SIZE..HEADER_SIZE] == s[u..u + (HEADER_SIZE - MAGIC_SIZE)]
    requires CopyAgrees(after, want, st, ok, body, StreamOf(io3))
    ensures FrameAgrees(flat, st, io3, Splice(buf2, HEADER_SIZE, body), total)
  {
    if u + (HEADER_SIZE - MAGIC_SIZE) + want <= |s| {
      FrameJoin(buf2, body, s, u, want);
    }
  }

  /** The chunked reader, started at `io`, agrees with the flat one. */
  predicate FramesFlat(io: Io, buf: seq<byte>, last: nat)
    requires PortOk(io.port) && |buf| == BUFFER_SIZE
  {
    var r := FrameFrom(io, buf, last);
    FrameAgrees(FlatFrame(StreamOf(io)), r.0, r.1, r.2, r.3)
  }

  /** No magic, or the stream ends inside the header: both readers starve. */
  lemma FrameNoHeader(io: Io, buf: seq<byte>, last: nat)
    requires PortOk(io.port) && io.port.error == 0 && AllNonEmpty(io.inputs)
    requires |buf| == BUFFER_SIZE
    requires match Scan(StreamOf(io), 0)
             case Partial(_) => true
             case Found(u) => |StreamOf(io)| < u + (HEADER_SIZE - MAGIC_SIZE)
    ensures FramesFlat(io, buf, last)
  {
    var s := StreamOf(io);
    HeaderFlat(io, buf);
    assert ReadHeader(io, buf).0 == Starved;
    assert FrameFrom(io, buf, last).0 == Starved;
    match Scan(s, 0)
    case Partial(_) =>
    case Found(u) =>
      assert FlatAfter(s, u) == FlatStarved;
  }

  /** An oversized or undersized header: both readers start over behind it. */
  lemma FrameReject(io: Io, buf: seq<byte>, last: nat, u: nat, io2: Io, buf2: seq<byte>)
    requires PortOk(io.port) && io.port.error == 0 && AllNonEmpty(io.inputs)
    requires |buf| == BUFFER_SIZE && |buf2| == BUFFER_SIZE && PortOk(io2.port)
    requires Scan(StreamOf(io), 0) == Found(u) && u + (HEADER_SIZE - MAGIC_SIZE) <= |StreamOf(io)|
    requires ReadHeader(io, buf) == (Done, io2, buf2)
    requires BodyLength(DecodeU32(buf2, TOTAL_LEN_OFFSET)) > MAX_BODY
    requires FramesFlat(io2, buf2, DecodeU32(buf2, TOTAL_LEN_OFFSET))
    ensures FramesFlat(io, buf, last)
  {
    var s := StreamOf(io);
    HeaderFlat(io, buf);
    TotalAt(buf2, s, u);
    FlatReject(s, u);
    FrameFromReject(io, buf, last, io2, buf2);
    FramesFlatSame(io, buf, last, io2, buf2, DecodeU32(buf2, TOTAL_LEN_OFFSET));
  }

  lemma FramesFlatSame(io: Io, buf: seq<byte>, last: nat, io2: Io, buf2: seq<byte>, last2: nat)
    requires PortOk(io.port) && |buf| == BUFFER_SIZE && PortOk(io2.port) && |buf2| == BUFFER_SIZE
    requires FrameFrom(io, buf, last) == FrameFrom(io2, buf2, last2)
    requires FlatFrame(StreamOf(io)) == FlatFrame(StreamOf(io2))
    requires FramesFlat(io2, buf2, last2)
    ensures FramesFlat(io, buf, last)
  {
  }

  /** A rejected header sends the reader back to FIND_MAGIC right behind it,
      with the announced size recorded. */
  lemma FrameFromReject(io: Io, buf: seq<byte>, last: nat, io2: Io, buf2: seq<byte>)
    requires PortOk(io.port) && |buf| == BUFFER_SIZE && |buf2| == BUFFER_SIZE && PortOk(io2.port)
    requires ReadHeader(io, buf) == (Done, io2, buf2)
    requires BodyLength(DecodeU32(buf2, TOTAL_LEN_OFFSET)) > MAX_BODY
    ensures FrameFrom(io, buf, last) == FrameFrom(io2, buf2, DecodeU32(buf2, TOTAL_LEN_OFFSET))
  {
  }

  /** A header of acceptable length: the body copy agrees with the flat
      frame. */
  lemma FrameAccept(io: Io, buf: seq<byte>, last: nat, u: nat, io2: Io, buf2: seq<byte>)
    requires PortOk(io.port) && io.port.error == 0 && AllNonEmpty(io.inputs)
    requires |buf| == BUFFER_SIZE && |buf2| == BUFFER_SIZE && PortOk(io2.port)
    requires Scan(StreamOf(io), 0) == Found(u) && u + (HEADER_SIZE - MAGIC_SIZE) <= |StreamOf(io)|
    requires ReadHeader(io, buf) == (Done, io2, buf2)
    requires BodyLength(DecodeU32(buf2, TOTAL_LEN_OFFSET)) <= MAX_BODY
    ensures FramesFlat(io, buf, last)
  {
    var s := StreamOf(io);
    HeaderFlat(io, buf);
    TotalAt(buf2, s, u);
    var total := DecodeU32(buf2, TOTAL_LEN_OFFSET);
    var want := BodyLength(total);
    ReadChunkFlat(io2, want);
    var r3 := ReadChunk(io2, want);
    LengthCheck(total);
    FlatAcceptShape(s, u, total, want);
    FlatAccept(FlatFrame(s), s, u, total, want, buf2, StreamOf(io2), r3.0,
               r3.1.port.error == 0 && AllNonEmpty(r3.1.inputs), r3.2, r3.1);
    FrameFromAccept(io, buf, last, io2, buf2);
    FramesFlatOf(io, buf, last, (r3.0, r3.1, Splice(buf2, HEADER_SIZE, r3.2), total));
  }

  /** An accepted header: the reader copies the announced body behind the
      header and records the announced size. */
  lemma FrameFromAccept(io: Io, buf: seq<byte>, last: nat, io2: Io, buf2: seq<byte>)
    requires PortOk(io.port) && |buf| == BUFFER_SIZE && |buf2| == BUFFER_SIZE && PortOk(io2.port)
    requires ReadHeader(io, buf) == (Done, io2, buf2)
    requires BodyLength(DecodeU32(buf2, TOTAL_LEN_OFFSET)) <= MAX_BODY
    ensures var total := DecodeU32(buf2, TOTAL_LEN_OFFSET);
            var r3 := ReadChunk(io2, BodyLength(total));
            FrameFrom(io, buf, last) == (r3.0, r3.1, Splice(buf2, HEADER_SIZE, r3.2), total)
  {
  }

  lemma FramesFlatOf(io: Io, buf: seq<byte>, last: nat, r: (Status, Io, seq<byte>, nat))
    requires PortOk(io.port) && |buf| == BUFFER_SIZE && PortOk(r.1.port)
    requires FrameFrom(io, buf, last) == r
    requires FrameAgrees(FlatFrame(StreamOf(io)), r.0, r.1, r.2, r.3)
    ensures FramesFlat(io, buf, last)
  {
  }

  /** Chunking is invisible: over reads that each deliver at least one byte,
      the chunked reader frames exactly what the flat reference frames, with
      the same announced size, the same bytes in the buffer after the magic,
      and the same leftover stream. */
  lemma {:induction false} ChunkingInvisible(io: Io, buf: seq<byte>, last: nat)
    requires PortOk(io.port) && io.port.error == 0 && AllNonEmpty(io.inputs)
    requires |buf| == BUFFER_SIZE
    ensures FramesFlat(io, buf, last)
    decreases Work(io)
  {
    var s := StreamOf(io);
    HeaderFlat(io, buf);
    var (s2, io2, buf2) := ReadHeader(io, buf);
    match Scan(s, 0)
    case Partial(_) =>
      FrameNoHeader(io, buf, last);
    case Found(u) =>
      if u + (HEADER_SIZE - MAGIC_SIZE) <= |s| {
        var total := DecodeU32(buf2, TOTAL_LEN_OFFSET);
        if BodyLength(total) > MAX_BODY {
          ChunkingInvisible(io2, buf2, total);
          FrameReject(io, buf, last, u, io2, buf2);
        } else {
          FrameAccept(io, buf, last, u, io2, buf2);
        }
      } else {
        FrameNoHeader(io, buf, last);
      }
  }

  /** A stream that opens with a whole frame of acceptable length yields
      that frame, and the bytes behind it are left over. */
  lemma FlatFrameFirst(frame: seq<byte>, rest: seq<byte>)
    requires HEADER_SIZE <= |frame| <= MAX_TLV_SIZE && frame[..MAGIC_SIZE] == MAGIC
    requires DecodeU32(frame, TOTAL_LEN_OFFSET) == |frame|
    ensures FlatFrame(frame + rest) == FlatFramed(frame[MAGIC_SIZE..], |frame|, rest)
  {
    var s := frame + rest;
    var t := frame[MAGIC_SIZE..] + rest;
    assert s == MAGIC + t;
    ScanMagicFirst(t);
    DecodeU32Window(s, TOTAL_LEN_OFFSET, frame, TOTAL_LEN_OFFSET);
    LengthCheck(|frame|);
    assert s[MAGIC_SIZE..|frame|] == frame[MAGIC_SIZE..];
    assert s[|frame|..] == rest;
  }

  /** A rejected header is skipped whole: the search resumes after its 32
      bytes, so a magic inside them is never seen. */
  lemma RejectSkipsHeader(hdr: seq<byte>, rest: seq<byte>)
    requires |hdr| == HEADER_SIZE - MAGIC_SIZE
    requires DecodeU32(hdr, TOTAL_LEN_OFFSET - MAGIC_SIZE) < HEADER_SIZE
    ensures FlatFrame(MAGIC + hdr + rest) == FlatFrame(rest)
  {
    var s := MAGIC + hdr + rest;
    assert s == MAGIC + (hdr + rest);
    ScanMagicFirst(hdr + rest);
    assert s[MAGIC_SIZE..] == hdr + rest;
    DecodeU32Window(s, TOTAL_LEN_OFFSET, hdr, TOTAL_LEN_OFFSET - MAGIC_SIZE);
    LengthCheck(DecodeU32(hdr, TOTAL_LEN_OFFSET - MAGIC_SIZE));
    assert s[MAGIC_SIZE + (HEADER_SIZE - MAGIC_SIZE)..] == rest;
  }
}

=== FILE: imu.dfy ===
/**
 * The IMU estimator of the aiming application: samples from the sensor
 * board are screened for implausible acceleration, the yaw rate is
 * negated, a 5-slot rolling average feeds the display, and a 550-slot ring
 * of yaw rates in degrees feeds the mean/variance analysis and the boot
 * calibration. Floats are modelled as reals; the model ignores rounding.
 */
module Imu {
  import opened Rings

  const DEGREES_IN_RAD: real := 57.2958
  const TOTAL_SAMPLES_FOR_VARIANCE: nat := 550
  const ROLLING_AVERAGE_SAMPLES: nat := 5
  const MAX_ACCELERATION: real := 30.0
  const COUNT_CALIBRATION: nat := 5

  /** imu_t: accelerations, the three rotation rates and the cycle count. */
  datatype Sample = Sample(ax: real, ay: real, az: real, rp: real, rr: real, ry: real, cycles: int)

  /** The fields the rolling average sums. */
  datatype Axis = AX | AY | AZ | RY

  function Get(s: Sample, a: Axis): real
  {
    match a
    case AX => s.ax
    case AY => s.ay
    case AZ => s.az
    case RY => s.ry
  }

  /** The estimator's statics: the rolling ring and its last index, the
      published average and rotation, the variance ring with its write
      index, and the calibrated offset. */
  datatype Estimator = Estimator(ring: seq<Sample>, lastIndex: nat, average: Sample, rotation: real,
                                 gyro: seq<real>, varianceIndex: nat, offset: real)

  predicate Valid(e: Estimator)
  {
    && |e.ring| == ROLLING_AVERAGE_SAMPLES && e.lastIndex < ROLLING_AVERAGE_SAMPLES
    && |e.gyro| == TOTAL_SAMPLES_FOR_VARIANCE && e.varianceIndex < TOTAL_SAMPLES_FOR_VARIANCE
  }

  const ZERO: Sample := Sample(0.0, 0.0, 0.0, 0.0, 0.0, 0.0, 0)

  /** The zero-initialised statics. */
  function Initial(): (e: Estimator)
    ensures Valid(e)
  {
    Estimator(seq(ROLLING_AVERAGE_SAMPLES, _ => ZERO), 0, ZERO, 0.0,
              seq(TOTAL_SAMPLES_FOR_VARIANCE, _ => 0.0), 0, 0.0)
  }

  /** The sum a loop over the slots accumulates. */
  function Sum(xs: seq<real>): real
  {
    if |xs| == 0 then 0.0 else Sum(xs[..|xs| - 1]) + xs[|xs| - 1]
  }

  function SumAxis(ring: seq<Sample>, a: Axis): real
  {
    if |ring| == 0 then 0.0 else SumAxis(ring[..|ring| - 1], a) + Get(ring[|ring| - 1], a)
  }

  // ---------------------------------------------------------------------------
  // imu_calculate_rolling_average

  /** The averaged sample: the four summed fields divided by five; the
      fields the loop does not sum stay zero. */
  function Averaged(ring: seq<Sample>): (s: Sample)
    ensures s.rp == 0.0 && s.rr == 0.0 && s.cycles == 0
  {
    var n := ROLLING_AVERAGE_SAMPLES as real;
    Sample(SumAxis(ring, AX) / n, SumAxis(ring, AY) / n, SumAxis(ring, AZ) / n, 0.0, 0.0,
           SumAxis(ring, RY) / n, 0)
  }

  /** imu_calculate_rolling_average: the sample replaces the slot after the
      last one, the ring is averaged, and the rotation is published in
      degrees. */
  function RollingAverage(e: Estimator, s: Sample): (r: Estimator)
    requires Valid(e)
    ensures Valid(r)
    ensures r.lastIndex == (e.lastIndex + 1) % ROLLING_AVERAGE_SAMPLES
    ensures r.ring[r.lastIndex] == s
    ensures forall i :: 0 <= i < ROLLING_AVERAGE_SAMPLES && i != r.lastIndex ==> r.ring[i] == e.ring[i]
    ensures r.rotation == DEGREES_IN_RAD * r.average.ry
    ensures r.gyro == e.gyro && r.varianceIndex == e.varianceIndex && r.offset == e.offset
  {
    var slot := Next(e.lastIndex, ROLLING_AVERAGE_SAMPLES);
    var ring := e.ring[slot := s];
    var avg := Averaged(ring);
    e.(ring := ring, lastIndex := slot, average := avg, rotation := DEGREES_IN_RAD * avg.ry)
  }

  // ---------------------------------------------------------------------------
  // imu_store_sample_for_variance_calculation

  /** The yaw rate in degrees goes into the variance ring at its index,
      which wraps from 549 to 0. */
  function StoreForVariance(e: Estimator, s: Sample): (r: Estimator)
    requires Valid(e)
    ensures Valid(r)
    ensures r.gyro[e.varianceIndex] == s.ry * DEGREES_IN_RAD
    ensures forall i :: 0 <= i < TOTAL_SAMPLES_FOR_VARIANCE && i != e.varianceIndex ==> r.gyro[i] == e.gyro[i]
    ensures r.varianceIndex == (e.varianceIndex + 1) % TOTAL_SAMPLES_FOR_VARIANCE
    ensures r.ring == e.ring && r.lastIndex == e.lastIndex && r.average == e.average
    ensures r.rotation == e.rotation && r.offset == e.offset
  {
    e.(gyro := e.gyro[e.varianceIndex := s.ry * DEGREES_IN_RAD],
       varianceIndex := Next(e.varianceIndex, TOTAL_SAMPLES_FOR_VARIANCE))
  }

  // ---------------------------------------------------------------------------
  // get_imu_sample

  /** The screen applied to every sample: a signed comparison, so only large
      positive accelerations are refused. */
  predicate TooFast(s: Sample)
  {
    s.ax > MAX_ACCELERATION || s.ay > MAX_ACCELERATION || s.az > MAX_ACCELERATION
  }

  /** get_imu_sample after a successful receive: -1 and nothing changes for
      a sample over the limit; otherwise the yaw rate is negated, averaged
      and buffered, and 0 is returned. */
  function GetImuSample(e: Estimator, s: Sample): (r: (int, Estimator))
    requires Valid(e)
    ensures Valid(r.1)
    ensures r.0 == -1 <==> TooFast(s)
    ensures r.0 == -1 || r.0 == 0
    ensures r.0 == -1 ==> r.1 == e
    ensures r.0 == 0 ==> && r.1.ring[r.1.lastIndex] == s.(ry := -s.ry)
                         && r.1.gyro[e.varianceIndex] == -s.ry * DEGREES_IN_RAD
                         && r.1.rotation == DEGREES_IN_RAD * Averaged(r.1.ring).ry
                         && r.1.offset == e.offset
  {
    if TooFast(s) then (-1, e)
    else
      var flipped := s.(ry := -s.ry);
      (0, StoreForVariance(RollingAverage(e, flipped), flipped))
  }

  /** The screen is one-sided: a sample of any negative acceleration passes. */
  lemma NegativeAccelerationAccepted(e: Estimator, s: Sample)
    requires Valid(e) && s.ax <= 0.0 && s.ay <= 0.0 && s.az <= 0.0
    ensures GetImuSample(e, s).0 == 0
  {
  }

  // ---------------------------------------------------------------------------
  // calculate_mean_rotation_and_variance

  /** The sum of squared deviations from m. */
  function SquaredDeviation(xs: seq<real>, m: real): (r: real)
    ensures r >= 0.0
  {
    if |xs| == 0 then 0.0
    else
      var d := xs[|xs| - 1] - m;
      SquareNonNegative(d);
      SquaredDeviation(xs[..|xs| - 1], m) + d * d
  }

  lemma SquareNonNegative(d: real)
    ensures d * d >= 0.0
  {
    if d < 0.0 {
      assert d * d == (-d) * (-d);
    }
  }

  datatype Analysis = Analysis(meanRotation: real, varianceRotation: real)

  /** calculate_mean_rotation_and_variance: the population mean and variance
      of the ring, the mean reported relative to the calibrated offset. */
  function MeanAndVariance(gyro: seq<real>, offset: real): (r: Analysis)
    requires |gyro| == TOTAL_SAMPLES_FOR_VARIANCE
    ensures r.varianceRotation >= 0.0
  {
    var n := TOTAL_SAMPLES_FOR_VARIANCE as real;
    var mean := Sum(gyro) / n;
    Analysis(mean - offset, SquaredDeviation(gyro, mean) / n)
  }

  function Analyze(e: Estimator): Analysis
    requires Valid(e)
  {
    MeanAndVariance(e.gyro, e.offset)
  }

  /** A list of one repeated value. */
  predicate Constant(xs: seq<real>, c: real)
  {
    forall i :: 0 <= i < |xs| ==> xs[i] == c
  }

  lemma {:induction false} SumConstant(xs: seq<real>, c: real)
    requires Constant(xs, c)
    ensures Sum(xs) == (|xs| as real) * c
  {
    if |xs| > 0 {
      SumConstant(xs[..|xs| - 1], c);
    }
  }

  lemma {:induction false} DeviationFromOwnValue(xs: seq<real>, c: real)
    requires Constant(xs, c)
    ensures SquaredDeviation(xs, c) == 0.0
  {
    if |xs| > 0 {
      DeviationFromOwnValue(xs[..|xs| - 1], c);
    }
  }

  /** A ring of one repeated rate has that rate as its mean, less the
      offset, and no variance. */
  lemma SteadyRingHasNoVariance(gyro: seq<real>, c: real, offset: real)
    requires |gyro| == TOTAL_SAMPLES_FOR_VARIANCE && Constant(gyro, c)
    ensures MeanAndVariance(gyro, offset) == Analysis(c - offset, 0.0)
  {
    SumConstant(gyro, c);
    DeviationFromOwnValue(gyro, c);
  }

  // ---------------------------------------------------------------------------
  // calibrate_imu

  /** calibrate_imu: five analyses, of the ring as it stands at each of the
      five two-second marks, are averaged into the new offset. Each analysis
      already subtracts the offset in force. */
  function Calibrate(e: Estimator, snapshots: seq<seq<real>>): (r: Estimator)
    requires Valid(e) && |snapshots| == COUNT_CALIBRATION
    requires forall k :: 0 <= k < |snapshots| ==> |snapshots[k]| == TOTAL_SAMPLES_FOR_VARIANCE
    ensures Valid(r) && r == e.(offset := r.offset)
  {
    var means := seq(COUNT_CALIBRATION, k requires 0 <= k < COUNT_CALIBRATION =>
                   MeanAndVariance(snapshots[k], e.offset).meanRotation);
    e.(offset := Sum(means) / (COUNT_CALIBRATION as real))
  }

  /** The mean of one snapshot of the ring, before any offset. */
  function RawMean(xs: seq<real>): real
  {
    Sum(xs) / (TOTAL_SAMPLES_FOR_VARIANCE as real)
  }

  /** Taking c off every element takes |xs| times c off the sum. */
  lemma {:induction false} SumShift(xs: seq<real>, ys: seq<real>, c: real)
    requires |ys| == |xs| && forall i :: 0 <= i < |xs| ==> ys[i] == xs[i] - c
    ensures Sum(ys) == Sum(xs) - (|xs| as real) * c
  {
    if |xs| > 0 {
      SumShift(xs[..|xs| - 1], ys[..|ys| - 1], c);
    }
  }

  /** The new offset is the average of the five raw snapshot means less the
      offset in force: calibrating again from a non-zero offset does not
      reproduce the raw average. */
  lemma CalibrateOffset(e: Estimator, snapshots: seq<seq<real>>)
    requires Valid(e) && |snapshots| == COUNT_CALIBRATION
    requires forall k :: 0 <= k < |snapshots| ==> |snapshots[k]| == TOTAL_SAMPLES_FOR_VARIANCE
    ensures var raw := seq(COUNT_CALIBRATION, k requires 0 <= k < COUNT_CALIBRATION => RawMean(snapshots[k]));
            Calibrate(e, snapshots).offset == Sum(raw) / (COUNT_CALIBRATION as real) - e.offset
  {
    var raw := seq(COUNT_CALIBRATION, k requires 0 <= k < COUNT_CALIBRATION => RawMean(snapshots[k]));
    var means := seq(COUNT_CALIBRATION, k requires 0 <= k < COUNT_CALIBRATION =>
                   MeanAndVariance(snapshots[k], e.offset).meanRotation);
    SumShift(raw, means, e.offset);
    assert Calibrate(e, snapshots).offset == Sum(means) / (COUNT_CALIBRATION as real);
  }

  /** At boot, with no offset yet, a stationary scope whose ring holds one
      steady rate is calibrated to exactly that rate, after which its mean
      rotation reads zero. */
  lemma CalibrationZeroesSteadyRate(e: Estimator, c: real)
    requires Valid(e) && e.offset == 0.0 && Constant(e.gyro, c)
    ensures var r := Calibrate(e, seq(COUNT_CALIBRATION, _ => e.gyro));
            r.offset == c && Analyze(r) == Analysis(0.0, 0.0)
  {
    var snaps := seq(COUNT_CALIBRATION, _ => e.gyro);
    SteadyRingHasNoVariance(e.gyro, c, 0.0);
    var means := seq(COUNT_CALIBRATION, k requires 0 <= k < COUNT_CALIBRATION =>
                   MeanAndVariance(snaps[k], e.offset).meanRotation);
    assert Constant(means, c);
    SumConstant(means, c);
    SteadyRingHasNoVariance(e.gyro, c, c);
  }

  // ---------------------------------------------------------------------------
  // The rolling average settles

  function RollFive(e: Estimator, s: Sample): (r: Estimator)
    requires Valid(e)
    ensures Valid(r)
  {
    RollingAverage(RollingAverage(RollingAverage(RollingAverage(RollingAverage(e, s), s), s), s), s)
  }

  lemma {:induction false} SumAxisConstant(ring: seq<Sample>, s: Sample, a: Axis)
    requires forall i :: 0 <= i < |ring| ==> ring[i] == s
    ensures SumAxis(ring, a) == (|ring| as real) * Get(s, a)
  {
    if |ring| > 0 {
      SumAxisConstant(ring[..|ring| - 1], s, a);
    }
  }

  /** Five calls fill every slot of the ring. */
  lemma FiveCallsFillRing(e: Estimator, s: Sample)
    requires Valid(e)
    ensures forall i :: 0 <= i < ROLLING_AVERAGE_SAMPLES ==> RollFive(e, s).ring[i] == s
  {
    var e1 := RollingAverage(e, s);
    var e2 := RollingAverage(e1, s);
    var e3 := RollingAverage(e2, s);
    var e4 := RollingAverage(e3, s);
    var e5 := RollingAverage(e4, s);
    assert {e1.lastIndex, e2.lastIndex, e3.lastIndex, e4.lastIndex, e5.lastIndex} == {0, 1, 2, 3, 4};
  }

  /** After five identical samples the published average is that sample and
      the rotation is its yaw rate in degrees, whatever came before. */
  lemma FiveSameSamples(e: Estimator, s: Sample)
    requires Valid(e)
    ensures var r := RollFive(e, s);
            && r.average == Sample(s.ax, s.ay, s.az, 0.0, 0.0, s.ry, 0)
            && r.rotation == DEGREES_IN_RAD * s.ry
  {
    FiveCallsFillRing(e, s);
    AverageOfFullRing(RollFive(e, s).ring, s);
  }

  /** A ring holding one sample throughout averages to that sample. */
  lemma AverageOfFullRing(ring: seq<Sample>, s: Sample)
    requires |ring| == ROLLING_AVERAGE_SAMPLES && forall i :: 0 <= i < |ring| ==> ring[i] == s
    ensures Averaged(ring) == Sample(s.ax, s.ay, s.az, 0.0, 0.0, s.ry, 0)
  {
    SumAxisConstant(ring, s, AX);
    SumAxisConstant(ring, s, AY);
    SumAxisConstant(ring, s, AZ);
    SumAxisConstant(ring, s, RY);
  }

  // ---------------------------------------------------------------------------
  // The variance ring fills in order

  /** Rates stored one after another. */
  function StoreAll(e: Estimator, ss: seq<Sample>): (r: Estimator)
    requires Valid(e)
    ensures Valid(r)
  {
    if |ss| == 0 then e else StoreForVariance(StoreAll(e, ss[..|ss| - 1]), ss[|ss| - 1])
  }

  /** From an empty index, the k-th stored rate sits in slot k until the ring
      turns over. */
  lemma {:induction false} StoreAllInOrder(e: Estimator, ss: seq<Sample>)
    requires Valid(e) && e.varianceIndex == 0 && |ss| <= TOTAL_SAMPLES_FOR_VARIANCE
    ensures StoreAll(e, ss).varianceIndex == if |ss| < TOTAL_SAMPLES_FOR_VARIANCE then |ss| else 0
    ensures forall j :: 0 <= j < |ss| ==> StoreAll(e, ss).gyro[j] == ss[j].ry * DEGREES_IN_RAD
  {
    if |ss| > 0 {
      var n := |ss| - 1;
      StoreAllInOrder(e, ss[..n]);
      forall j | 0 <= j < n
        ensures StoreAll(e, ss).gyro[j] == ss[j].ry * DEGREES_IN_RAD
      {
        assert ss[..n][j] == ss[j];
      }
    }
  }

  /** 550 samples of one steady rate leave a ring with no variance, whatever
      it held before. */
  lemma SteadySamplesNoVariance(e: Estimator, ss: seq<Sample>, rate: real)
    requires Valid(e) && e.varianceIndex == 0 && |ss| == TOTAL_SAMPLES_FOR_VARIANCE
    requires forall j :: 0 <= j < |ss| ==> ss[j].ry == rate
    ensures Analyze(StoreAll(e, ss)).varianceRotation == 0.0
  {
    var r := StoreAll(e, ss);
    StoreAllInOrder(e, ss);
    assert Constant(r.gyro, rate * DEGREES_IN_RAD);
    SteadyRingHasNoVariance(r.gyro, rate * DEGREES_IN_RAD, r.offset);
  }
}

=== FILE: interpolate.dfy ===
/**
 * Ballistic tables built from the calibration store. Drop is a piecewise-linear
 * function of distance over five nodes (10, 15, ..., 30 m); lead is a bilinear
 * surface over the distance nodes and four velocity nodes (0..3). Queries are
 * clamped into the node range first, so neither table ever extrapolates.
 * Arithmetic is over the reals: the model ignores double rounding.
 */
module Interpolate {
  import opened Calibration

  const DISTANCE_POINTS: nat := 5
  const DISTANCE_JUMP: nat := 5
  const DISTANCE_START: nat := 10
  const MAX_DISTANCE: nat := DISTANCE_START + DISTANCE_JUMP * (DISTANCE_POINTS - 1)

  const VELOCITY_POINTS: nat := 4
  const VELOCITY_START: nat := 0
  const VELOCITY_JUMP: nat := 1
  const MAX_VELOCITY: nat := VELOCITY_JUMP * (VELOCITY_POINTS - 1)

  predicate StrictlyIncreasing(xs: seq<real>)
  {
    forall i, j :: 0 <= i < j < |xs| ==> xs[i] < xs[j]
  }

  /** The interval a lookup uses: the last i below the final node with
      xs[i] <= x, or 0 when x lies before xs[1]. */
  function Segment(xs: seq<real>, x: real): (i: nat)
    requires |xs| >= 2
    ensures i < |xs| - 1
    ensures i > 0 ==> xs[i] <= x
    ensures i + 1 < |xs| - 1 ==> x < xs[i + 1]
    ensures xs[0] <= x <= xs[|xs| - 1] ==> xs[i] <= x <= xs[i + 1]
    decreases |xs|
  {
    if |xs| == 2 || x < xs[1] then 0 else 1 + Segment(xs[1..], x)
  }

  /** At node k the lookup picks the interval starting at k, except at the
      final node, which closes the last interval. */
  lemma {:induction false} SegmentAtNode(xs: seq<real>, k: nat)
    requires |xs| >= 2 && k < |xs|
    requires StrictlyIncreasing(xs)
    ensures Segment(xs, xs[k]) == if k == |xs| - 1 then k - 1 else k
    decreases |xs|
  {
    if k == 0 {
      assert xs[0] < xs[1];
    } else if |xs| > 2 {
      assert xs[1] <= xs[k];
      SegmentAtNode(xs[1..], k - 1);
      assert xs[1..][k - 1] == xs[k];
    }
  }

  /** Straight-line interpolation between (xl, a) and (xh, b). */
  function Lerp(a: real, b: real, xl: real, xh: real, x: real): real
    requires xl < xh
  {
    a + (b - a) * (x - xl) / (xh - xl)
  }

  /** The fraction of the way from xl to xh. */
  function Fraction(xl: real, xh: real, x: real): real
    requires xl < xh
  {
    (x - xl) / (xh - xl)
  }

  lemma LerpAtEnds(a: real, b: real, xl: real, xh: real)
    requires xl < xh
    ensures Lerp(a, b, xl, xh, xl) == a
    ensures Lerp(a, b, xl, xh, xh) == b
  {
    assert (xh - xl) / (xh - xl) == 1.0;
  }

  lemma LerpAsMean(a: real, b: real, xl: real, xh: real, x: real)
    requires xl < xh
    ensures var t := Fraction(xl, xh, x);
            Lerp(a, b, xl, xh, x) == (1.0 - t) * a + t * b
  {
    var t := Fraction(xl, xh, x);
    assert (b - a) * (x - xl) / (xh - xl) == (b - a) * t;
  }

  lemma FractionInUnit(xl: real, xh: real, x: real)
    requires xl <= x <= xh && xl < xh
    ensures 0.0 <= Fraction(xl, xh, x) <= 1.0
  {
    var n, d := x - xl, xh - xl;
    assert d / d == 1.0;
    assert n / d <= d / d;
  }

  lemma ScaleSign(k: real, d: real)
    requires 0.0 <= k && 0.0 <= d
    ensures 0.0 <= k * d
  {
  }

  /** Between its end points the line stays between the end values. */
  lemma LerpBetween(a: real, b: real, xl: real, xh: real, x: real)
    requires xl <= x <= xh && xl < xh
    ensures var r := Lerp(a, b, xl, xh, x);
            (a <= r <= b) || (b <= r <= a)
  {
    LerpAsMean(a, b, xl, xh, x);
    FractionInUnit(xl, xh, x);
    BetweenAsMean(a, b, Lerp(a, b, xl, xh, x), Fraction(xl, xh, x));
  }

  /** Any weighted mean of two values with a weight in [0, 1] lies between
      them. */
  lemma BetweenAsMean(a: real, b: real, r: real, t: real)
    requires 0.0 <= t <= 1.0 && r == (1.0 - t) * a + t * b
    ensures (a <= r <= b) || (b <= r <= a)
  {
    var d := b - a;
    assert r - a == t * d;
    assert b - r == (1.0 - t) * d;
    if a <= b {
      ScaleSign(t, d);
      ScaleSign(1.0 - t, d);
    } else {
      ScaleSign(t, -d);
      ScaleSign(1.0 - t, -d);
      assert t * d == -(t * -d);
      assert (1.0 - t) * d == -((1.0 - t) * -d);
    }
  }

  /** gsl_interp_linear evaluation over node arrays. */
  function Linear(xs: seq<real>, ys: seq<real>, x: real): (r: real)
    requires |xs| == |ys| >= 2
    requires StrictlyIncreasing(xs)
  {
    var i := Segment(xs, x);
    Lerp(ys[i], ys[i + 1], xs[i], xs[i + 1], x)
  }

  /** Inside the node range the result lies between the two neighbouring
      node values. */
  lemma LinearBetweenNeighbours(xs: seq<real>, ys: seq<real>, x: real)
    requires |xs| == |ys| >= 2
    requires StrictlyIncreasing(xs)
    requires xs[0] <= x <= xs[|xs| - 1]
    ensures var i := Segment(xs, x);
            (ys[i] <= Linear(xs, ys, x) <= ys[i + 1]) || (ys[i + 1] <= Linear(xs, ys, x) <= ys[i])
  {
    var i := Segment(xs, x);
    LerpBetween(ys[i], ys[i + 1], xs[i], xs[i + 1], x);
  }

  /** The interpolant passes through every node. */
  lemma LinearExactAtNodes(xs: seq<real>, ys: seq<real>, k: nat)
    requires |xs| == |ys| >= 2 && k < |xs|
    requires StrictlyIncreasing(xs)
    ensures Linear(xs, ys, xs[k]) == ys[k]
  {
    SegmentAtNode(xs, k);
    var i := Segment(xs, xs[k]);
    LerpAtEnds(ys[i], ys[i + 1], xs[i], xs[i + 1]);
  }

  lemma FractionAtEnds(xl: real, xh: real)
    requires xl < xh
    ensures Fraction(xl, xh, xl) == 0.0 && Fraction(xl, xh, xh) == 1.0
  {
    assert (xh - xl) / (xh - xl) == 1.0;
  }

  lemma LerpMidpoint(a: real, b: real, xl: real, xh: real)
    requires xl < xh
    ensures Lerp(a, b, xl, xh, (xl + xh) / 2.0) == (a + b) / 2.0
  {
    assert ((xl + xh) / 2.0 - xl) / (xh - xl) == 0.5;
  }

  /** The bilinear weighting of the four corners of a grid cell. */
  function Blend(z00: real, z10: real, z01: real, z11: real, t: real, u: real): real
  {
    (1.0 - t) * (1.0 - u) * z00 + t * (1.0 - u) * z10 + (1.0 - t) * u * z01 + t * u * z11
  }

  lemma BlendOnEdges(z00: real, z10: real, z01: real, z11: real, t: real)
    ensures Blend(z00, z10, z01, z11, t, 0.0) == (1.0 - t) * z00 + t * z10
    ensures Blend(z00, z10, z01, z11, t, 1.0) == (1.0 - t) * z01 + t * z11
  {
  }

  /** gsl_interp2d_bilinear evaluation; z[i][j] is the value at (xs[i], ys[j]). */
  function Bilinear(xs: seq<real>, ys: seq<real>, z: seq<seq<real>>, x: real, y: real): (r: real)
    requires |xs| >= 2 && |ys| >= 2
    requires StrictlyIncreasing(xs) && StrictlyIncreasing(ys)
    requires IsGrid(z, |xs|, |ys|)
  {
    var i := Segment(xs, x);
    var j := Segment(ys, y);
    Blend(z[i][j], z[i + 1][j], z[i][j + 1], z[i + 1][j + 1],
          Fraction(xs[i], xs[i + 1], x), Fraction(ys[j], ys[j + 1], y))
  }

  predicate IsGrid(z: seq<seq<real>>, rows: nat, cols: nat)
  {
    |z| == rows && forall i :: 0 <= i < rows ==> |z[i]| == cols
  }

  function Column(z: seq<seq<real>>, cols: nat, j: nat): (c: seq<real>)
    requires IsGrid(z, |z|, cols) && j < cols
    ensures |c| == |z|
    ensures forall i :: 0 <= i < |z| ==> c[i] == z[i][j]
  {
    seq(|z|, i requires 0 <= i < |z| => z[i][j])
  }

  /** On the lower or upper edge of a cell the bilinear weighting is the
      straight line between that edge's two corners. */
  lemma BlendOnEdgeIsLerp(z00: real, z10: real, z01: real, z11: real,
                          xl: real, xh: real, x: real, yl: real, yh: real, y: real)
    requires xl < xh && yl < yh && (y == yl || y == yh)
    ensures Blend(z00, z10, z01, z11, Fraction(xl, xh, x), Fraction(yl, yh, y))
            == if y == yl then Lerp(z00, z10, xl, xh, x) else Lerp(z01, z11, xl, xh, x)
  {
    var t := Fraction(xl, xh, x);
    FractionAtEnds(yl, yh);
    BlendOnEdges(z00, z10, z01, z11, t);
    LerpAsMean(z00, z10, xl, xh, x);
    LerpAsMean(z01, z11, xl, xh, x);
  }

  /** Along a velocity node the surface is the piecewise-linear interpolant of
      that column of the grid. */
  lemma BilinearOnColumn(xs: seq<real>, ys: seq<real>, z: seq<seq<real>>, x: real, k: nat)
    requires |xs| >= 2 && |ys| >= 2 && k < |ys|
    requires StrictlyIncreasing(xs) && StrictlyIncreasing(ys)
    requires IsGrid(z, |xs|, |ys|)
    ensures Bilinear(xs, ys, z, x, ys[k]) == Linear(xs, Column(z, |ys|, k), x)
  {
    SegmentAtNode(ys, k);
    var c := Column(z, |ys|, k);
    var i := Segment(xs, x);
    var j := Segment(ys, ys[k]);
    assert c[i] == z[i][k] && c[i + 1] == z[i + 1][k];
    BlendOnEdgeIsLerp(z[i][j], z[i + 1][j], z[i][j + 1], z[i + 1][j + 1],
                      xs[i], xs[i + 1], x, ys[j], ys[j + 1], ys[k]);
  }

  /** The surface passes through every grid node. */
  lemma BilinearExactAtNodes(xs: seq<real>, ys: seq<real>, z: seq<seq<real>>, a: nat, b: nat)
    requires |xs| >= 2 && |ys| >= 2 && a < |xs| && b < |ys|
    requires StrictlyIncreasing(xs) && StrictlyIncreasing(ys)
    requires IsGrid(z, |xs|, |ys|)
    ensures Bilinear(xs, ys, z, xs[a], ys[b]) == z[a][b]
  {
    BilinearOnColumn(xs, ys, z, xs[a], b);
    LinearExactAtNodes(xs, Column(z, |ys|, b), a);
  }

  /** Distance nodes 10, 15, 20, 25, 30 m. */
  function DistanceNodes(): (r: seq<real>)
    ensures |r| == DISTANCE_POINTS && StrictlyIncreasing(r)
    ensures r[0] == DISTANCE_START as real && r[DISTANCE_POINTS - 1] == MAX_DISTANCE as real
  {
    seq(DISTANCE_POINTS, i => (DISTANCE_START + DISTANCE_JUMP * i) as real)
  }

  /** Velocity nodes 0, 1, 2, 3. */
  function VelocityNodes(): (r: seq<real>)
    ensures |r| == VELOCITY_POINTS && StrictlyIncreasing(r)
    ensures r[0] == VELOCITY_START as real && r[VELOCITY_POINTS - 1] == MAX_VELOCITY as real
  {
    seq(VELOCITY_POINTS, i => (VELOCITY_START + VELOCITY_JUMP * i) as real)
  }

  /** The distance clamp both queries apply. */
  function ClampDistance(x: real): (r: real)
    ensures DISTANCE_START as real <= r <= MAX_DISTANCE as real
    ensures DISTANCE_START as real <= x <= MAX_DISTANCE as real ==> r == x
    ensures x < DISTANCE_START as real ==> r == DISTANCE_START as real
    ensures x > MAX_DISTANCE as real ==> r == MAX_DISTANCE as real
  {
    if x < DISTANCE_START as real then DISTANCE_START as real
    else if x > MAX_DISTANCE as real then MAX_DISTANCE as real
    else x
  }

  function Abs(x: real): (r: real)
    ensures r >= 0.0 && (r == x || r == -x)
  {
    if x < 0.0 then -x else x
  }

  /** The velocity clamp of the lead query, applied after taking the
      magnitude. */
  function ClampVelocity(v: real): (r: real)
    ensures VELOCITY_START as real <= r <= MAX_VELOCITY as real
    ensures VELOCITY_START as real <= v <= MAX_VELOCITY as real ==> r == v
    ensures v > MAX_VELOCITY as real ==> r == MAX_VELOCITY as real
  {
    if v < VELOCITY_START as real then VELOCITY_START as real
    else if v > MAX_VELOCITY as real then MAX_VELOCITY as real
    else v
  }

  /** init_interpolation_distance: the drop value at each distance node. */
  function DropValues(s: Store): (r: seq<real>)
    requires WellFormed(s)
    ensures |r| == DISTANCE_POINTS
    ensures forall i :: 0 <= i < DISTANCE_POINTS ==> r[i] == Fetch(s, Drop, i, 0) as real
  {
    seq(DISTANCE_POINTS, i requires 0 <= i < DISTANCE_POINTS => Fetch(s, Drop, i, 0) as real)
  }

  /** interpolate_create_lead: grid[d][v] is the lead value at distance node d,
      velocity node v. */
  function LeadGrid(s: Store): (r: seq<seq<real>>)
    requires WellFormed(s)
    ensures IsGrid(r, DISTANCE_POINTS, VELOCITY_POINTS)
    ensures forall d, v :: 0 <= d < DISTANCE_POINTS && 0 <= v < VELOCITY_POINTS ==>
              r[d][v] == Fetch(s, Lead, d, v) as real
  {
    seq(DISTANCE_POINTS, d requires 0 <= d < DISTANCE_POINTS =>
      seq(VELOCITY_POINTS, v requires 0 <= v < VELOCITY_POINTS => Fetch(s, Lead, d, v) as real))
  }

  /** get_interpolation_distance. */
  function DropAt(s: Store, distance: real): (r: real)
    requires WellFormed(s)
  {
    Linear(DistanceNodes(), DropValues(s), ClampDistance(distance))
  }

  /** get_interpolation_lead. */
  function LeadAt(s: Store, distance: real, velocity: real): (r: real)
    requires WellFormed(s)
  {
    Bilinear(DistanceNodes(), VelocityNodes(), LeadGrid(s),
             ClampDistance(distance), ClampVelocity(Abs(velocity)))
  }

  /** At a calibrated distance the drop query returns the stored value. */
  lemma DropExactAtNodes(s: Store, i: nat)
    requires WellFormed(s) && i < DISTANCE_POINTS
    ensures DropAt(s, (DISTANCE_START + DISTANCE_JUMP * i) as real) == Fetch(s, Drop, i, 0) as real
  {
    LinearExactAtNodes(DistanceNodes(), DropValues(s), i);
  }

  /** Distances outside 10..30 m read the nearest end of the table. */
  lemma DropClamped(s: Store, distance: real)
    requires WellFormed(s)
    ensures distance <= DISTANCE_START as real ==> DropAt(s, distance) == Fetch(s, Drop, 0, 0) as real
    ensures distance >= MAX_DISTANCE as real ==>
              DropAt(s, distance) == Fetch(s, Drop, DISTANCE_POINTS - 1, 0) as real
  {
    DropExactAtNodes(s, 0);
    DropExactAtNodes(s, DISTANCE_POINTS - 1);
  }

  /** Halfway between two calibrated distances the drop is the mean of the
      two stored values. */
  lemma DropMidpoint(s: Store, i: nat)
    requires WellFormed(s) && i + 1 < DISTANCE_POINTS
    ensures DropAt(s, (DISTANCE_START + DISTANCE_JUMP * i) as real + (DISTANCE_JUMP as real) / 2.0)
            == (Fetch(s, Drop, i, 0) as real + Fetch(s, Drop, i + 1, 0) as real) / 2.0
  {
    var xs := DistanceNodes();
    var x := (DISTANCE_START + DISTANCE_JUMP * i) as real + (DISTANCE_JUMP as real) / 2.0;
    var ys := DropValues(s);
    assert xs[i] == (DISTANCE_START + DISTANCE_JUMP * i) as real;
    assert xs[i + 1] == (DISTANCE_START + DISTANCE_JUMP * (i + 1)) as real;
    assert x == (xs[i] + xs[i + 1]) / 2.0;
    assert ClampDistance(x) == x;
    SegmentInside(xs, x, i);
    assert Linear(xs, ys, x) == Lerp(ys[i], ys[i + 1], xs[i], xs[i + 1], x);
    LerpMidpoint(ys[i], ys[i + 1], xs[i], xs[i + 1]);
  }

  /** A point strictly inside interval i is looked up in interval i. */
  lemma {:induction false} SegmentInside(xs: seq<real>, x: real, i: nat)
    requires |xs| >= 2 && i + 1 < |xs|
    requires StrictlyIncreasing(xs)
    requires xs[i] <= x < xs[i + 1]
    ensures Segment(xs, x) == i
    decreases |xs|
  {
    if i > 0 {
      assert xs[1] <= xs[i];
      SegmentInside(xs[1..], x, i - 1);
    }
  }

  /** Every drop answer lies between two neighbouring calibrated values. */
  lemma DropBetweenNeighbours(s: Store, distance: real)
    requires WellFormed(s)
    ensures exists i :: 0 <= i < DISTANCE_POINTS - 1 &&
              var a, b := Fetch(s, Drop, i, 0) as real, Fetch(s, Drop, i + 1, 0) as real;
              (a <= DropAt(s, distance) <= b) || (b <= DropAt(s, distance) <= a)
  {
    var xs := DistanceNodes();
    var x := ClampDistance(distance);
    LinearBetweenNeighbours(xs, DropValues(s), x);
    var i := Segment(xs, x);
    assert DropValues(s)[i] == Fetch(s, Drop, i, 0) as real;
    assert DropValues(s)[i + 1] == Fetch(s, Drop, i + 1, 0) as real;
  }

  /** At a calibrated distance and velocity the lead query returns the stored
      value. */
  lemma LeadExactAtNodes(s: Store, d: nat, v: nat)
    requires WellFormed(s) && d < DISTANCE_POINTS && v < VELOCITY_POINTS
    ensures LeadAt(s, (DISTANCE_START + DISTANCE_JUMP * d) as real, (VELOCITY_JUMP * v) as real)
            == Fetch(s, Lead, d, v) as real
  {
    var xs, ys, z := DistanceNodes(), VelocityNodes(), LeadGrid(s);
    var x, y := (DISTANCE_START + DISTANCE_JUMP * d) as real, (VELOCITY_JUMP * v) as real;
    assert xs[d] == x && ys[v] == y;
    assert ClampDistance(x) == x && ClampVelocity(Abs(y)) == y;
    BilinearExactAtNodes(xs, ys, z, d, v);
  }

  /** Only the magnitude of the angular velocity matters. */
  lemma LeadVelocitySymmetric(s: Store, distance: real, velocity: real)
    requires WellFormed(s)
    ensures LeadAt(s, distance, -velocity) == LeadAt(s, distance, velocity)
  {
    assert Abs(-velocity) == Abs(velocity);
  }

  /** Velocities beyond the table read the fastest column, and distances
      outside 10..30 m the nearest row. */
  lemma LeadClamped(s: Store, distance: real, velocity: real)
    requires WellFormed(s)
    ensures Abs(velocity) >= MAX_VELOCITY as real ==>
              LeadAt(s, distance, velocity) == LeadAt(s, distance, MAX_VELOCITY as real)
    ensures distance <= DISTANCE_START as real ==>
              LeadAt(s, distance, velocity) == LeadAt(s, DISTANCE_START as real, velocity)
    ensures distance >= MAX_DISTANCE as real ==>
              LeadAt(s, distance, velocity) == LeadAt(s, MAX_DISTANCE as real, velocity)
  {
  }

  /** At a calibrated velocity the lead query is the piecewise-linear
      interpolant over distance of that velocity's column. */
  lemma LeadOnVelocityNode(s: Store, distance: real, v: nat)
    requires WellFormed(s) && v < VELOCITY_POINTS
    ensures LeadAt(s, distance, (VELOCITY_JUMP * v) as real)
            == Linear(DistanceNodes(), Column(LeadGrid(s), VELOCITY_POINTS, v), ClampDistance(distance))
  {
    BilinearOnColumn(DistanceNodes(), VelocityNodes(), LeadGrid(s), ClampDistance(distance), v);
  }
}

=== FILE: menu.dfy ===
/**
 * The on-screen menu driven by the rotary encoder: menus as arrays closed
 * by an empty sentinel item, cyclic navigation, a stack of the items
 * pressed on the way down, leaf functions, the calibration editor with its
 * wheel acceleration, and the six-second activity window. Seconds come
 * from the monotonic clock and milliseconds from the start of the program;
 * both are parameters.
 */
module Menu {
  import opened Options
  import opened Bytes
  import opened Rings
  import opened Calibration
  import opened Interpolate

  const MAX_MENU_DEPTH: nat := 25
  const MENU_TIMEOUT_TIME: int := 6
  const MENU_ACCELERATE_CUTOFF_MS: int := 1250
  const WHEEL_HISTORY_CIRC_BUFF_LEN: nat := 15
  const MENU_LEAD_TYPE: nat := 0
  const MENU_DROP_TYPE: nat := 1
  const ITEM_UNDER_CALIBRATION_INDEX: nat := 0
  const DISTANCE_UNDER_CALIBRATION_INDEX: nat := 1
  const VELOCITY_UNDER_CALIBRATION_INDEX: nat := 2

  /** The three rotary events the menu receives. */
  datatype Event = RotaryButton | RotaryLeft | RotaryRight

  /** The four menu arrays. */
  datatype MenuId = Main | LeadDistance | LeadVelocity | DropDistance

  /** What a leaf item does: its pre-entry action, display and input
      handler. */
  datatype Leaf = NoLeaf | DumpDrop | DumpLead | SaveTables | ToggleForceSingle | Restart
                | ToggleBoundingBox | ToggleUncorrected | ToggleDebug | Calibrate

  /** The text of an item, by what it says; Blank is the empty text of a
      zeroed item. */
  datatype Label = Blank | CalibrateLeadText | CalibrateDropText | DumpDropText | DumpLeadText
                 | SaveText | ForceSingleText | RestartText | BoundingBoxText | UncorrectedText
                 | DebugText | DistanceText(d: nat) | VelocityText(v: nat)

  /** The characters each label stands for. */
  function LabelText(l: Label): string
  {
    match l
    case Blank => ""
    case CalibrateLeadText => "Calibrate bullet lead"
    case CalibrateDropText => "Calibrate bullet drop"
    case DumpDropText => "Dump calibration (drop)"
    case DumpLeadText => "Dump calibration (lead)"
    case SaveText => "Save calibration tables (both)"
    case ForceSingleText => "Toggle force single distance calibration point"
    case RestartText => "Restart program"
    case BoundingBoxText => "Toggle bounding box"
    case UncorrectedText => "Toggle uncorrected aimpoint"
    case DebugText => "Toggle debug info"
    case DistanceText(d) => NumberText(DISTANCE_START + DISTANCE_JUMP * d) + "m"
    case VelocityText(v) => NumberText(VELOCITY_START + VELOCITY_JUMP * v) + "m/s"
  }

  /** Decimal digits of a natural number, as %d prints it. */
  function NumberText(n: nat): (r: string)
    ensures |r| > 0
    decreases n
  {
    if n < 10 then [(48 + n) as char] else NumberText(n / 10) + [(48 + n % 10) as char]
  }

  /** Only the zeroed item has an empty text. */
  lemma EmptyTextIffBlank(l: Label)
    ensures |LabelText(l)| == 0 <==> l == Blank
  {
  }

  /** menu_item_t: the text, the menu it opens (if any), the leaf it runs
      otherwise, and the misc and type values. */
  datatype Item = Item(title: Label, next: Option<MenuId>, leaf: Leaf, misc: nat, kind: nat)

  /** A zeroed item, as unused static slots hold; its empty text makes it a
      sentinel. */
  const EMPTY: Item := Item(Blank, None, NoLeaf, 0, 0)

  /** is_menu_valid: an item is real iff its text is not empty. */
  predicate IsValidItem(item: Item)
  {
    item.title != Blank
  }

  /** An item some menu holds, or a zeroed one: its misc value is a table
      index below five and its type is lead or drop. */
  predicate Known(item: Item)
  {
    item.misc < DISTANCE_POINTS && item.kind <= 1
  }

  function MainMenu(): (m: seq<Item>)
    ensures |m| == MAX_MENU_DEPTH + 1
  {
    [ Item(CalibrateLeadText, Some(LeadDistance), NoLeaf, 0, MENU_LEAD_TYPE),
      Item(CalibrateDropText, Some(DropDistance), NoLeaf, 0, MENU_DROP_TYPE),
      Item(DumpDropText, None, DumpDrop, 0, 0),
      Item(DumpLeadText, None, DumpLead, 0, 0),
      Item(SaveText, None, SaveTables, 0, 0),
      Item(ForceSingleText, None, ToggleForceSingle, 0, 0),
      Item(RestartText, None, Restart, 0, 0),
      Item(BoundingBoxText, None, ToggleBoundingBox, 0, 0),
      Item(UncorrectedText, None, ToggleUncorrected, 0, 0),
      Item(DebugText, None, ToggleDebug, 0, 0) ]
    + seq(16, _ => EMPTY)
  }

  /** The menu arrays as register_all_menus fills them, each one longer than
      its items for the sentinel. */
  function Items(id: MenuId): (m: seq<Item>)
    ensures |m| == Size(id) + 1 || id == Main
  {
    match id
    case Main => MainMenu()
    case LeadDistance =>
      seq(DISTANCE_POINTS, d requires 0 <= d < DISTANCE_POINTS => Item(DistanceText(d), Some(LeadVelocity), NoLeaf, d, 0)) + [EMPTY]
    case LeadVelocity =>
      seq(VELOCITY_POINTS, v requires 0 <= v < VELOCITY_POINTS => Item(VelocityText(v), None, Calibrate, v, 0)) + [EMPTY]
    case DropDistance =>
      seq(DISTANCE_POINTS, d requires 0 <= d < DISTANCE_POINTS => Item(DistanceText(d), None, Calibrate, d, 0)) + [EMPTY]
  }

  /** How many real items each menu has. */
  function Size(id: MenuId): nat
  {
    match id
    case Main => 10
    case LeadDistance => DISTANCE_POINTS
    case LeadVelocity => VELOCITY_POINTS
    case DropDistance => DISTANCE_POINTS
  }

  /** k real items followed by a sentinel. */
  predicate Sentinelled(m: seq<Item>, k: nat)
  {
    0 < k < |m| && (forall i :: 0 <= i < k ==> IsValidItem(m[i])) && !IsValidItem(m[k])
  }

  lemma MenusSentinelled(id: MenuId)
    ensures Sentinelled(Items(id), Size(id))
  {
    var m := Items(id);
    forall i | 0 <= i < Size(id)
      ensures IsValidItem(m[i])
    {
    }
  }

  // ---------------------------------------------------------------------------
  // Navigation

  /** ROTARY_RIGHT: on to the next item, or back to the first at the
      sentinel. */
  function Right(m: seq<Item>, i: nat): nat
    requires i + 1 < |m|
  {
    if !IsValidItem(m[i + 1]) then 0 else i + 1
  }

  /** The loop of ROTARY_LEFT at the top: walk forward while the next item
      is real. It stops at the end of the array, which the sentinel makes
      unreachable. */
  function LastValid(m: seq<Item>, i: nat): nat
    requires i < |m|
    decreases |m| - i
  {
    if i + 1 < |m| && IsValidItem(m[i + 1]) then LastValid(m, i + 1) else i
  }

  /** ROTARY_LEFT: back one item, or from the first to the last. */
  function Left(m: seq<Item>, i: nat): nat
    requires 0 < |m| && i < |m|
  {
    if i == 0 then LastValid(m, 0) else i - 1
  }

  /** RIGHT steps round the k real items cyclically. */
  lemma RightCycles(m: seq<Item>, k: nat, i: nat)
    requires Sentinelled(m, k) && i < k
    ensures Right(m, i) == (i + 1) % k
  {
  }

  /** The walk from any real item ends on the last one. */
  lemma {:induction false} LastValidIsLast(m: seq<Item>, k: nat, i: nat)
    requires Sentinelled(m, k) && i < k
    ensures LastValid(m, i) == k - 1
    decreases k - i
  {
    if i + 1 < k {
      LastValidIsLast(m, k, i + 1);
    }
  }

  /** LEFT steps round the k real items cyclically the other way. */
  lemma LeftCycles(m: seq<Item>, k: nat, i: nat)
    requires Sentinelled(m, k) && i < k
    ensures Left(m, i) == (i + k - 1) % k
  {
    if i == 0 {
      LastValidIsLast(m, k, 0);
    }
  }

  /** LEFT undoes RIGHT and RIGHT undoes LEFT. */
  lemma LeftRightInverse(m: seq<Item>, k: nat, i: nat)
    requires Sentinelled(m, k) && i < k
    ensures Left(m, Right(m, i)) == i
    ensures Left(m, i) + 1 < |m| && Right(m, Left(m, i)) == i
  {
    RightCycles(m, k, i);
    LeftCycles(m, k, i);
    LeftCycles(m, k, Right(m, i));
    RightCycles(m, k, Left(m, i));
  }

  // ---------------------------------------------------------------------------
  // State

  /** The menu's statics. The stack keeps its slots across resets; only its
      depth returns to zero. */
  datatype MenuState = MenuState(current: MenuId, index: nat, stack: seq<Item>, depth: nat,
                                 inLeaf: bool, leaf: Leaf,
                                 lastEventTime: int, timeout: int, resetTime: int,
                                 value: i16, forceSingle: bool,
                                 boundingBox: bool, uncorrectedAim: bool, debugInfo: bool,
                                 wheel: TimeRing)

  /** How deep each menu sits. */
  function Depth(id: MenuId): nat
  {
    match id
    case Main => 0
    case LeadDistance => 1
    case DropDistance => 1
    case LeadVelocity => 2
  }

  /** What every reachable state satisfies: the index is on a real item,
      the depth matches the menu (one more inside a leaf), and every stack
      slot holds an item some menu has (or a zeroed one). */
  predicate Consistent(s: MenuState)
  {
    && |s.stack| == MAX_MENU_DEPTH + 1
    && ValidRing(s.wheel, WHEEL_HISTORY_CIRC_BUFF_LEN)
    && s.index < Size(s.current)
    && s.depth == Depth(s.current) + (if s.inLeaf then 1 else 0)
    && (forall i :: 0 <= i < |s.stack| ==> Known(s.stack[i]))
  }

  /** The statics at start-up. */
  function Initial(): (s: MenuState)
    ensures Consistent(s)
  {
    MenuState(Main, 0, seq(MAX_MENU_DEPTH + 1, _ => EMPTY), 0, false, NoLeaf, 0, 0, 0, 0, false,
              false, true, true, ZeroRing(WHEEL_HISTORY_CIRC_BUFF_LEN))
  }

  /** menu_active: some event has been seen and its window has not run out. */
  predicate Active(s: MenuState, now: int)
  {
    s.lastEventTime != 0 && now < s.timeout
  }

  /** reset_menu: back to the top of the main menu. */
  function Reset(s: MenuState): (r: MenuState)
    requires Consistent(s)
    ensures Consistent(r) && r.current == Main && r.index == 0 && r.depth == 0 && !r.inLeaf
    ensures r.stack == s.stack && r.value == s.value && r.forceSingle == s.forceSingle
  {
    s.(depth := 0, index := 0, inLeaf := false, current := Main, leaf := NoLeaf)
  }

  /** unwind_stack_calibration: the item type from the first stack slot, the
      distance from the second, the velocity from the third. */
  datatype Unwound = Unwound(kind: nat, distance: nat, velocity: nat)

  function Unwind(s: MenuState): (u: Unwound)
    requires Consistent(s)
    ensures u.kind <= 1 && u.distance < DISTANCE_POINTS && u.velocity < DISTANCE_POINTS
  {
    Unwound(s.stack[ITEM_UNDER_CALIBRATION_INDEX].kind, s.stack[DISTANCE_UNDER_CALIBRATION_INDEX].misc,
            s.stack[VELOCITY_UNDER_CALIBRATION_INDEX].misc)
  }

  function KindOf(t: nat): Kind
    requires t <= 1
  {
    if t == MENU_DROP_TYPE then Drop else Lead
  }

  /** The pre-entry action of a leaf. */
  function PreEntry(s: MenuState, leaf: Leaf, now: int, store: Store): (r: MenuState)
    requires Consistent(s) && WellFormed(store)
    ensures Consistent(r) && r.stack == s.stack && r.depth == s.depth && r.current == s.current
    ensures r.index == s.index && r.inLeaf == s.inLeaf && r.leaf == s.leaf
    ensures r.lastEventTime == s.lastEventTime && r.timeout == s.timeout
    ensures leaf == Calibrate ==>
              r.value == Fetch(store, KindOf(Unwind(s).kind), Unwind(s).distance, Unwind(s).velocity)
  {
    match leaf
    case ToggleForceSingle => s.(forceSingle := !s.forceSingle)
    case Restart => s.(resetTime := now + MENU_TIMEOUT_TIME / 2)
    case ToggleBoundingBox => s.(boundingBox := !s.boundingBox)
    case ToggleUncorrected => s.(uncorrectedAim := !s.uncorrectedAim)
    case ToggleDebug => s.(debugInfo := !s.debugInfo)
    case Calibrate =>
      var u := Unwind(s);
      s.(value := Fetch(store, KindOf(u.kind), u.distance, u.velocity))
    case _ => s
  }

  /** The real items of every menu are known, and the menu an item opens
      sits one level deeper. */
  lemma ItemFacts(id: MenuId, i: nat)
    requires i < Size(id)
    ensures IsValidItem(Items(id)[i]) && Known(Items(id)[i])
    ensures Items(id)[i].next.Some? ==> Depth(Items(id)[i].next.value) == Depth(id) + 1
  {
    MenusSentinelled(id);
  }

  /** The item at index i of a menu. */
  function ItemAt(id: MenuId, i: nat): (item: Item)
    requires i < Size(id)
    ensures IsValidItem(item) && Known(item)
    ensures item.next.Some? ==> Depth(item.next.value) == Depth(id) + 1
  {
    ItemFacts(id, i);
    Items(id)[i]
  }

  /** ROTARY_BUTTON in a menu: the item goes onto the stack, then its menu
      opens, or its leaf is entered after its pre-entry action; the index
      returns to the first item. */
  function Press(s: MenuState, now: int, store: Store): (r: MenuState)
    requires Consistent(s) && !s.inLeaf && WellFormed(store)
    ensures Consistent(r) && r.index == 0 && r.depth == s.depth + 1
    ensures r.stack == s.stack[s.depth := ItemAt(s.current, s.index)]
    ensures r.lastEventTime == s.lastEventTime && r.timeout == s.timeout
    ensures r.inLeaf <==> ItemAt(s.current, s.index).next.None?
    ensures !r.inLeaf ==> r.current == ItemAt(s.current, s.index).next.value
    ensures r.inLeaf ==> r.leaf == ItemAt(s.current, s.index).leaf && r.current == s.current
  {
    var item := ItemAt(s.current, s.index);
    var pushed := Push(s, item);
    if item.next.Some? then pushed.(current := item.next.value)
    else PreEntry(pushed.(inLeaf := true, leaf := item.leaf), item.leaf, now, store)
  }

  /** The item onto the stack, one level deeper, index back to the first
      item; the menu and leaf fields are left to the caller. */
  function Push(s: MenuState, item: Item): (r: MenuState)
    requires Consistent(s) && Known(item)
    ensures r == s.(stack := s.stack[s.depth := item], depth := s.depth + 1, index := 0)
    ensures |r.stack| == |s.stack| && forall i :: 0 <= i < |r.stack| ==> Known(r.stack[i])
  {
    s.(stack := s.stack[s.depth := item], depth := s.depth + 1, index := 0)
  }

  /** update_menu_ui_event: BUTTON presses the item; RIGHT and LEFT move
      cyclically over the real items. */
  function Navigate(s: MenuState, e: Event, now: int, store: Store): (r: MenuState)
    requires Consistent(s) && !s.inLeaf && WellFormed(store)
    ensures Consistent(r)
    ensures r.lastEventTime == s.lastEventTime && r.timeout == s.timeout
    ensures e != RotaryButton ==> r == s.(index := r.index)
    ensures e == RotaryRight ==> r.index == (s.index + 1) % Size(s.current)
    ensures e == RotaryLeft ==> r.index == (s.index + Size(s.current) - 1) % Size(s.current)
  {
    match e
    case RotaryButton => Press(s, now, store)
    case RotaryRight => s.(index := MoveRight(s.current, s.index))
    case RotaryLeft => s.(index := MoveLeft(s.current, s.index))
  }

  function MoveRight(id: MenuId, i: nat): (j: nat)
    requires i < Size(id)
    ensures j == (i + 1) % Size(id)
  {
    MenusSentinelled(id);
    RightCycles(Items(id), Size(id), i);
    Right(Items(id), i)
  }

  function MoveLeft(id: MenuId, i: nat): (j: nat)
    requires i < Size(id)
    ensures j == (i + Size(id) - 1) % Size(id)
  {
    MenusSentinelled(id);
    LeftCycles(Items(id), Size(id), i);
    Left(Items(id), i)
  }

  // ---------------------------------------------------------------------------
  // The calibration editor

  /** The wheel step: 1, or 5 once more than ten turns fell in the last
      1.25 s, or 15 beyond fifteen. */
  function Jump(recent: nat): int
  {
    if recent > 15 then 15 else if recent > 10 then 5 else 1
  }

  /** Every distance of one velocity column set to the value. */
  function SaveAllDistances(store: Store, kind: Kind, velocity: nat, value: i16, d: nat): (r: Store)
    requires WellFormed(store) && velocity < MAX_POINTS && d <= DISTANCE_POINTS
    ensures WellFormed(r)
    decreases d
  {
    if d == 0 then store
    else Save(SaveAllDistances(store, kind, velocity, value, d - 1), kind, d - 1, velocity, value)
  }

  /** calibration_ui_handle_input: turns record their time in the wheel ring
      and move the value by the step; the button saves the value (into every
      distance when one distance is forced) and closes the menu. */
  function CalibrationInput(s: MenuState, e: Event, nowMs: int, store: Store): (r: (MenuState, Store))
    requires Consistent(s) && WellFormed(store)
    ensures Consistent(r.0) && WellFormed(r.1)
    ensures r.0.lastEventTime == s.lastEventTime && r.0.inLeaf == s.inLeaf && r.0.leaf == s.leaf
    ensures e != RotaryButton ==> r.0.timeout == s.timeout
    ensures r.0.current == s.current && r.0.index == s.index && r.0.depth == s.depth && r.0.stack == s.stack
    ensures e != RotaryButton ==> r.1 == store
    ensures e != RotaryButton ==> r.0.wheel == Write(s.wheel, WHEEL_HISTORY_CIRC_BUFF_LEN, nowMs)
    ensures e != RotaryButton ==>
              var step := if CountRecent(r.0.wheel.slots, nowMs - MENU_ACCELERATE_CUTOFF_MS) > 10 then 5 else 1;
              && (e == RotaryRight ==> r.0.value == ToI16(s.value + step))
              && (e == RotaryLeft ==> r.0.value == ToI16(s.value - step))
    ensures e == RotaryButton ==> r.0.value == s.value && r.0.wheel == s.wheel
  {
    if e == RotaryButton then
      var u := Unwind(s);
      var stored := if s.forceSingle then SaveAllDistances(store, KindOf(u.kind), u.velocity, s.value, DISTANCE_POINTS)
                    else Save(store, KindOf(u.kind), u.distance, u.velocity, s.value);
      (s.(timeout := 0), stored)
    else
      var w := Write(s.wheel, WHEEL_HISTORY_CIRC_BUFF_LEN, nowMs);
      var jump := Jump(CountRecent(w.slots, nowMs - MENU_ACCELERATE_CUTOFF_MS));
      WheelStepNeverFifteen(w, nowMs - MENU_ACCELERATE_CUTOFF_MS);
      var v := if e == RotaryRight then ToI16(s.value + jump) else ToI16(s.value - jump);
      (s.(wheel := w, value := v), store)
  }

  /** What a frame of draw_menu produces: the new statics and store, whether
      the menu was drawn, and whether the restart leaf ended the program. */
  datatype Frame = Frame(state: MenuState, store: Store, shown: bool, exit: bool)

  /** draw_menu, once per video frame: a pending event refreshes the window
      and goes to the leaf or to navigation (except a button while the menu
      is closed, which is dropped); then an active menu is drawn, and an
      inactive one reset. Drawing the save leaf seals the store and drawing
      the restart leaf after its time exits. */
  function Draw(s: MenuState, event: Option<Event>, now: int, nowMs: int, store: Store): (f: Frame)
    requires Consistent(s) && WellFormed(store)
    ensures Consistent(f.state) && WellFormed(f.store)
    ensures f.shown ==> Active(f.state, now)
  {
    if event.Some? && !Active(s, now) && event.value == RotaryButton then Frame(s, store, false, false)
    else
      var (s2, st2) :=
        if event.None? then (s, store)
        else
          var s1 := s.(lastEventTime := now, timeout := now + MENU_TIMEOUT_TIME);
          if !s1.inLeaf then (Navigate(s1, event.value, now, store), store)
          else if s1.leaf == Calibrate then CalibrationInput(s1, event.value, nowMs, store)
          else (s1, store);
      if Active(s2, now) then
        var st3 := if s2.inLeaf && s2.leaf == SaveTables then SealWithCrc(st2) else st2;
        Frame(s2, st3, true, s2.inLeaf && s2.leaf == Restart && now > s2.resetTime)
      else Frame(Reset(s2), st2, false, false)
  }

  // ---------------------------------------------------------------------------
  // Properties

  /** With the menu closed a button press is swallowed: nothing changes and
      nothing is drawn. */
  lemma ClosedMenuIgnoresButton(s: MenuState, now: int, nowMs: int, store: Store)
    requires Consistent(s) && WellFormed(store) && !Active(s, now)
    ensures Draw(s, Some(RotaryButton), now, nowMs, store) == Frame(s, store, false, false)
  {
  }

  /** A turn of the wheel outside the calibration editor opens (or keeps
      open) the menu for six seconds, provided the clock is past zero. */
  lemma TurnOpensMenu(s: MenuState, e: Event, now: int, nowMs: int, store: Store)
    requires Consistent(s) && WellFormed(store) && now != 0
    requires e != RotaryButton && !(s.inLeaf && s.leaf == Calibrate)
    ensures var f := Draw(s, Some(e), now, nowMs, store);
            f.shown && f.state.timeout == now + MENU_TIMEOUT_TIME && f.state.lastEventTime == now
  {
  }

  /** At second zero of the monotonic clock an event is recorded as time 0,
      which reads as "no event yet": the menu does not open. */
  lemma EventAtTimeZeroKeepsMenuClosed(s: MenuState, e: Event, nowMs: int, store: Store)
    requires Consistent(s) && WellFormed(store)
    ensures !Draw(s, Some(e), 0, nowMs, store).shown
  {
  }

  /** Without events the menu closes once its window has run out, and is
      back at the top of the main menu. */
  lemma MenuTimesOut(s: MenuState, now: int, nowMs: int, store: Store)
    requires Consistent(s) && WellFormed(store) && now >= s.timeout
    ensures var f := Draw(s, None, now, nowMs, store);
            !f.shown && f.state.current == Main && f.state.depth == 0 && !f.state.inLeaf
  {
  }

  /** The wheel step is 1 or 5: the ring has fifteen slots, so more than
      fifteen recent turns never happen and the step of 15 is unreachable. */
  lemma WheelStepNeverFifteen(w: TimeRing, cutoff: int)
    requires ValidRing(w, WHEEL_HISTORY_CIRC_BUFF_LEN)
    ensures Jump(CountRecent(w.slots, cutoff)) in {1, 5}
    ensures Jump(CountRecent(w.slots, cutoff)) == 5 <==> CountRecent(w.slots, cutoff) > 10
  {
  }

  /** Ten turns within 1.25 s (with no wrap of the ring since) and one more
      now move the value by five. */
  lemma FastSpinAccelerates(s: MenuState, start: TimeRing, ts: seq<int>, nowMs: int, store: Store)
    requires Consistent(s) && WellFormed(store) && ValidRing(start, WHEEL_HISTORY_CIRC_BUFF_LEN)
    requires 10 <= |ts| < WHEEL_HISTORY_CIRC_BUFF_LEN && s.wheel == WriteAll(start, WHEEL_HISTORY_CIRC_BUFF_LEN, ts)
    requires forall j :: 0 <= j < |ts| ==> ts[j] >= nowMs - MENU_ACCELERATE_CUTOFF_MS
    ensures CalibrationInput(s, RotaryRight, nowMs, store).0.value == ToI16(s.value + 5)
  {
    var w := Write(s.wheel, WHEEL_HISTORY_CIRC_BUFF_LEN, nowMs);
    WheelBurstCounted(w, start, ts, nowMs);
  }

  lemma WheelBurstCounted(w: TimeRing, start: TimeRing, ts: seq<int>, nowMs: int)
    requires ValidRing(start, WHEEL_HISTORY_CIRC_BUFF_LEN) && 10 <= |ts| < WHEEL_HISTORY_CIRC_BUFF_LEN
    requires w == Write(WriteAll(start, WHEEL_HISTORY_CIRC_BUFF_LEN, ts), WHEEL_HISTORY_CIRC_BUFF_LEN, nowMs)
    requires forall j :: 0 <= j < |ts| ==> ts[j] >= nowMs - MENU_ACCELERATE_CUTOFF_MS
    ensures Jump(CountRecent(w.slots, nowMs - MENU_ACCELERATE_CUTOFF_MS)) == 5
  {
    var all := ts + [nowMs];
    assert all[..|ts|] == ts;
    assert WriteAll(start, WHEEL_HISTORY_CIRC_BUFF_LEN, all) == w;
    RecentWritesCounted(start, WHEEL_HISTORY_CIRC_BUFF_LEN, all, nowMs - MENU_ACCELERATE_CUTOFF_MS);
  }

  /** The forced save writes the value into every distance of the velocity
      column and leaves every other cell alone. */
  lemma {:induction false} SaveAllDistancesCells(store: Store, kind: Kind, velocity: nat, value: i16, d: nat,
                                                 kind': Kind, distance': nat, velocity': nat)
    requires WellFormed(store) && velocity < MAX_POINTS && d <= DISTANCE_POINTS
    requires distance' < MAX_POINTS && velocity' < MAX_POINTS
    ensures distance' < d ==> Fetch(SaveAllDistances(store, kind, velocity, value, d), kind, distance', velocity) == value
    ensures (kind' != kind || distance' >= d || (kind == Lead && velocity' != velocity))
            ==> (Fetch(SaveAllDistances(store, kind, velocity, value, d), kind', distance', velocity')
                 == Fetch(store, kind', distance', velocity'))
    decreases d
  {
    if d > 0 {
      var before := SaveAllDistances(store, kind, velocity, value, d - 1);
      SaveAllDistancesCells(store, kind, velocity, value, d - 1, kind', distance', velocity');
      SaveAllDistancesCells(store, kind, velocity, value, d - 1, kind, distance', velocity);
      SaveThenFetch(before, kind, d - 1, velocity, value, kind', distance', velocity');
      SaveThenFetch(before, kind, d - 1, velocity, value, kind, distance', velocity);
    }
  }

  /** Accepting in the calibration editor saves the edited value into the
      cell the stack names (or, forced, into every distance of its velocity
      column) and closes the menu at once. */
  lemma AcceptSavesAndCloses(s: MenuState, now: int, nowMs: int, store: Store, d: nat)
    requires Consistent(s) && WellFormed(store) && Active(s, now) && now > 0
    requires s.inLeaf && s.leaf == Calibrate && d < DISTANCE_POINTS
    ensures var f := Draw(s, Some(RotaryButton), now, nowMs, store);
            var u := Unwind(s);
            && !f.shown && f.state.current == Main && !f.state.inLeaf
            && Fetch(f.store, KindOf(u.kind), u.distance, u.velocity) == s.value
            && (s.forceSingle ==> Fetch(f.store, KindOf(u.kind), d, u.velocity) == s.value)
  {
    var s1 := s.(lastEventTime := now, timeout := now + MENU_TIMEOUT_TIME);
    var r := CalibrationInput(s1, RotaryButton, nowMs, store);
    AcceptWrites(s1, nowMs, store, d);
    assert !Active(r.0, now);
    assert Draw(s, Some(RotaryButton), now, nowMs, store) == Frame(Reset(r.0), r.1, false, false);
  }

  /** The button in the calibration editor writes the edited value where
      the stack points, or down the whole velocity column when forced. */
  lemma AcceptWrites(s: MenuState, nowMs: int, store: Store, d: nat)
    requires Consistent(s) && WellFormed(store) && d < DISTANCE_POINTS
    ensures var r := CalibrationInput(s, RotaryButton, nowMs, store);
            var u := Unwind(s);
            && r.0.timeout == 0
            && Fetch(r.1, KindOf(u.kind), u.distance, u.velocity) == s.value
            && (s.forceSingle ==> Fetch(r.1, KindOf(u.kind), d, u.velocity) == s.value)
  {
    var u := Unwind(s);
    if s.forceSingle {
      SaveAllDistancesCells(store, KindOf(u.kind), u.velocity, s.value, DISTANCE_POINTS, KindOf(u.kind), d, u.velocity);
      SaveAllDistancesCells(store, KindOf(u.kind), u.velocity, s.value, DISTANCE_POINTS, KindOf(u.kind), u.distance, u.velocity);
    } else {
      SaveThenFetch(store, KindOf(u.kind), u.distance, u.velocity, s.value, KindOf(u.kind), u.distance, u.velocity);
    }
  }

  /** Choosing "Calibrate bullet lead", the d-th distance and the v-th
      velocity enters the editor on lead cell (d, v), loaded with its stored
      value. */
  lemma LeadCalibrationPath(s: MenuState, d: nat, v: nat, now: int, store: Store)
    requires Consistent(s) && WellFormed(store) && !s.inLeaf && s.current == Main && s.index == 0
    requires d < DISTANCE_POINTS && v < VELOCITY_POINTS
    ensures var s1 := Navigate(s, RotaryButton, now, store);
            s1.current == LeadDistance &&
            var s2 := Navigate(s1.(index := d), RotaryButton, now, store);
            s2.current == LeadVelocity &&
            var s3 := Navigate(s2.(index := v), RotaryButton, now, store);
            && s3.inLeaf && s3.leaf == Calibrate
            && Unwind(s3) == Unwound(MENU_LEAD_TYPE, d, v)
            && s3.value == Fetch(store, Lead, d, v)
  {
  }

  /** Choosing "Calibrate bullet drop" and the d-th distance enters the
      editor on drop cell d; the velocity slot of the stack is whatever an
      earlier visit left there, which the drop table ignores. */
  lemma DropCalibrationPath(s: MenuState, d: nat, now: int, store: Store)
    requires Consistent(s) && WellFormed(store) && !s.inLeaf && s.current == Main && s.index == 1
    requires d < DISTANCE_POINTS
    ensures var s1 := Navigate(s, RotaryButton, now, store);
            s1.current == DropDistance &&
            var s2 := Navigate(s1.(index := d), RotaryButton, now, store);
            && s2.inLeaf && s2.leaf == Calibrate
            && Unwind(s2).kind == MENU_DROP_TYPE && Unwind(s2).distance == d
            && Unwind(s2).velocity == s.stack[VELOCITY_UNDER_CALIBRATION_INDEX].misc
            && s2.value == Fetch(store, Drop, d, 0)
  {
    var s1 := Navigate(s, RotaryButton, now, store);
    assert s1 == Press(s, now, store);
    assert s1.stack[0] == ItemAt(Main, 1);
    var s2 := Navigate(s1.(index := d), RotaryButton, now, store);
    assert s2 == Press(s1.(index := d), now, store);
    assert s2.stack[0] == s1.stack[0] && s2.stack[1] == ItemAt(DropDistance, d);
  }
}

=== FILE: options.dfy ===
/** A value that may be missing: a message queue that had nothing, an empty
    mailbox slot. */
module Options {
  datatype Option<T> = None | Some(value: T)
}

=== FILE: overlay.dfy ===
/**
 * The status overlay the aim thread publishes after every tick
 * (update_crosshair_overlay_based_on_state): a text, its horizontal
 * offset, and in Lock a progress bar for the lock-on.
 */
module Overlay {
  import opened Options
  import opened Aim

  const MAX_DISPLAY_LEN: nat := 64
  const PROGRESS_BAR_WIDTH: int := 100
  const PROGRESS_BAR_HEIGHT: int := 20

  datatype ProgressBar = ProgressBar(corner: Point, width: int, height: int, percent: int)

  /** What set_overlay_info stores. The progress bar is None where the
      source hands over its uninitialised local. */
  datatype OverlayInfo = OverlayInfo(text: string, xOffset: int, progress: Option<ProgressBar>)

  /** The lock-on percentage: count / 20 * 100 in floating point,
      truncated, and capped at 100. */
  function LockPercentage(count: nat): (p: int)
  {
    var pct := Trunc(count as real * 1.0 / SAMPLES_TO_LOCK as real * 100.0);
    if pct > 100 then 100 else pct
  }

  /** Each recent centered frame is worth five percent, up to 100. */
  lemma LockPercentageSteps(count: nat)
    ensures 0 <= LockPercentage(count) <= 100
    ensures LockPercentage(count) == if count >= 20 then 100 else 5 * count
  {
    var x := count as real * 1.0 / SAMPLES_TO_LOCK as real * 100.0;
    assert x == (5 * count) as real;
    TruncOfInt(x, 5 * count);
  }

  /** The codes of the set reasons, in the order the text lists them. */
  function Codes(cv: bool, gy: bool, rd: bool): string
  {
    (if cv then "CV" else "") + (if gy then " GY" else "") + (if rd then " RD" else "")
  }

  /** "FAILED [" with the codes of the reasons set in the mask and "]". */
  function FailText(mask: bv32): string
  {
    "FAILED [" + Codes(mask & AIM_CV_FAIL_REASON != 0, mask & AIM_GYRO_VAR_FAIL_REASON != 0,
                       mask & AIM_RADAR_FAIL_REASON != 0) + "]"
  }

  /** How many of the three reasons are set. */
  function ReasonCount(mask: bv32): (n: nat)
    ensures n <= 3
  {
    (if mask & AIM_CV_FAIL_REASON != 0 then 1 else 0)
    + (if mask & AIM_GYRO_VAR_FAIL_REASON != 0 then 1 else 0)
    + (if mask & AIM_RADAR_FAIL_REASON != 0 then 1 else 0)
  }

  /** update_crosshair_overlay_based_on_state, on the state the last state
      function stored in the context. */
  function OverlayFor(ctx: Ctx): (o: OverlayInfo)
    ensures o.progress.Some? <==> ctx.state == Lock
    ensures ctx.state == Fail ==> o.text == FailText(ctx.failReason)
                                  && o.xOffset == 330 - 20 * ReasonCount(ctx.failReason)
  {
    match ctx.state
    case Lock =>
      OverlayInfo("SEEKING", 265,
                  Some(ProgressBar(Point(420, 271), PROGRESS_BAR_WIDTH, PROGRESS_BAR_HEIGHT,
                                   LockPercentage(ctx.lockCount))))
    case Track => OverlayInfo("TRACKING", 330, None)
    case Fail =>
      var x0 := 330;
      var x1 := if ctx.failReason & AIM_CV_FAIL_REASON != 0 then x0 - 20 else x0;
      var x2 := if ctx.failReason & AIM_GYRO_VAR_FAIL_REASON != 0 then x1 - 20 else x1;
      var x3 := if ctx.failReason & AIM_RADAR_FAIL_REASON != 0 then x2 - 20 else x2;
      OverlayInfo(FailText(ctx.failReason), x3, None)
    case Fire => OverlayInfo(" ", 341, None)
  }

  // ---------------------------------------------------------------------------
  // Reading the failure text back

  /** Strips `code` from the front of s if it is there. */
  function Strip(s: string, code: string): (r: (bool, string))
    ensures r.0 ==> s == code + r.1
    ensures !r.0 ==> r.1 == s
  {
    if |code| <= |s| && s[..|code|] == code then (true, s[|code|..]) else (false, s)
  }

  /** The reasons a run of codes names, or None if it is not one. */
  function ParseCodes(m: string): Option<(bool, bool, bool)>
  {
    var (cv, r1) := Strip(m, "CV");
    var (gy, r2) := Strip(r1, " GY");
    var (rd, r3) := Strip(r2, " RD");
    if r3 == "" then Some((cv, gy, rd)) else None
  }

  /** The mask with the given reasons set. */
  function Mask(cv: bool, gy: bool, rd: bool): (mask: bv32)
    ensures mask & AIM_CV_FAIL_REASON != 0 <==> cv
    ensures mask & AIM_GYRO_VAR_FAIL_REASON != 0 <==> gy
    ensures mask & AIM_RADAR_FAIL_REASON != 0 <==> rd
    ensures mask & 7 == mask
  {
    (if cv then AIM_CV_FAIL_REASON else 0) | (if gy then AIM_GYRO_VAR_FAIL_REASON else 0)
    | (if rd then AIM_RADAR_FAIL_REASON else 0)
  }

  /** The reasons a failure text names, or None if it is not one. */
  function ParseFailText(s: string): (r: Option<bv32>)
  {
    if |s| < 9 || s[..8] != "FAILED [" || s[|s| - 1] != ']' then None
    else match ParseCodes(s[8..|s| - 1])
      case None => None
      case Some((cv, gy, rd)) => Some(Mask(cv, gy, rd))
  }

  /** Each run of codes reads back as the reasons it was written from. */
  lemma CodesRoundTrip(cv: bool, gy: bool, rd: bool)
    ensures ParseCodes(Codes(cv, gy, rd)) == Some((cv, gy, rd))
  {
    var a, b, c := (if cv then "CV" else ""), (if gy then " GY" else ""), (if rd then " RD" else "");
    assert Codes(cv, gy, rd) == a + (b + c);
    if cv {
      StripHit("CV", b + c);
    } else {
      assert a + (b + c) == b + c;
      assert |b + c| == 0 || (b + c)[0] == ' ';
    }
    if gy {
      StripHit(" GY", c);
    } else {
      assert b + c == c;
      assert |c| == 0 || c[1] == 'R';
    }
    if rd {
      StripHit(" RD", "");
      assert c + "" == c;
    }
  }

  lemma StripHit(code: string, rest: string)
    ensures Strip(code + rest, code) == (true, rest)
  {
    assert (code + rest)[..|code|] == code;
    assert (code + rest)[|code|..] == rest;
  }

  /** Whatever reads as a run of codes is the run written from what it
      reads as. */
  lemma ParsedCodes(m: string, cv: bool, gy: bool, rd: bool)
    requires ParseCodes(m) == Some((cv, gy, rd))
    ensures m == Codes(cv, gy, rd)
  {
    var (c, r1) := Strip(m, "CV");
    var (g, r2) := Strip(r1, " GY");
    var (d, r3) := Strip(r2, " RD");
    assert r2 == (if rd then " RD" else "");
    assert r1 == (if gy then " GY" else "") + r2;
    assert m == (if cv then "CV" else "") + r1;
  }

  /** The text names exactly the reasons set in the mask. */
  lemma FailTextRoundTrip(mask: bv32)
    ensures ParseFailText(FailText(mask)) == Some(mask & 7)
  {
    var cv, gy, rd := mask & AIM_CV_FAIL_REASON != 0, mask & AIM_GYRO_VAR_FAIL_REASON != 0,
                      mask & AIM_RADAR_FAIL_REASON != 0;
    var s := FailText(mask);
    assert s[..8] == "FAILED [";
    assert s[8..|s| - 1] == Codes(cv, gy, rd);
    CodesRoundTrip(cv, gy, rd);
    MaskOfBits(mask);
  }

  lemma MaskOfBits(mask: bv32)
    ensures Mask(mask & 1 != 0, mask & 2 != 0, mask & 4 != 0) == mask & 7
  {
  }

  /** Only failure texts parse: whatever parses is the text of what it
      parses to. */
  lemma ParsedIsFailText(s: string, mask: bv32)
    requires ParseFailText(s) == Some(mask)
    ensures s == FailText(mask)
  {
    var m := s[8..|s| - 1];
    var cv, gy, rd :| ParseCodes(m) == Some((cv, gy, rd));
    ParsedCodes(m, cv, gy, rd);
    assert mask == Mask(cv, gy, rd);
    assert FailText(mask) == "FAILED [" + m + "]";
    Bracketed(s);
  }

  lemma Bracketed(s: string)
    requires |s| >= 9
    ensures s == s[..8] + s[8..|s| - 1] + [s[|s| - 1]]
  {
  }

  /** The overlay always fits the display buffer, so the copy into it
      keeps the whole text. */
  lemma OverlayFits(ctx: Ctx)
    ensures |OverlayFor(ctx).text| < MAX_DISPLAY_LEN
  {
  }

  /** The lock progress bar always carries a percentage the bar drawing
      accepts. */
  lemma LockProgressInRange(ctx: Ctx)
    requires ctx.state == Lock
    ensures 0 <= OverlayFor(ctx).progress.value.percent <= 100
  {
    LockPercentageSteps(ctx.lockCount);
  }

  /** After a tick the overlay reports the state whose function ran. */
  lemma OverlayFollowsStep(m: Machine, t: Tick, cal: Calibration.Store)
    requires Valid(m) && Calibration.WellFormed(cal)
    ensures var o := OverlayFor(Step(m, t, cal).0.ctx);
            && (m.next == Lock <==> o.text == "SEEKING")
            && (m.next == Track <==> o.text == "TRACKING")
            && (m.next == Fire <==> o.text == " ")
  {
    var ctx := Step(m, t, cal).0.ctx;
    if ctx.state == Fail {
      assert FailText(ctx.failReason)[0] == 'F';
      assert "SEEKING"[0] == 'S' && "TRACKING"[0] == 'T';
      assert |FailText(ctx.failReason)| >= 9;
    }
  }
}

=== FILE: radar_health.dfy ===
/**
 * The radar health record of the aiming application: a 60-slot ring of
 * frame arrival times with running totals (radar_statitics_register_event),
 * the "enough frames recently" check, and fetch_radar_history. Times are
 * milliseconds since start, passed in by the caller.
 */
module RadarHealth {
  import opened Rings

  const HISTORY_LEN: nat := 60
  const PERIOD_MS: int := 3500
  const MIN_RECENT_FRAMES: nat := 5

  /** The ring of arrival times and the running totals. */
  datatype History = History(ring: TimeRing, frames: int, points: int)

  predicate Valid(h: History)
  {
    ValidRing(h.ring, HISTORY_LEN)
  }

  /** The zero-initialised statics. */
  function Initial(): (h: History)
    ensures Valid(h)
  {
    History(ZeroRing(HISTORY_LEN), 0, 0)
  }

  /** radar_statitics_register_event: the time goes into the current slot,
      the index moves on modulo 60 and the totals grow by one frame and by
      the frame's points. */
  function RegisterEvent(h: History, now: int, count: int): (r: History)
    requires Valid(h)
    ensures Valid(r)
    ensures r.ring.slots[h.ring.index] == now
    ensures forall i :: 0 <= i < HISTORY_LEN && i != h.ring.index ==> r.ring.slots[i] == h.ring.slots[i]
    ensures r.ring.index == (h.ring.index + 1) % HISTORY_LEN
    ensures r.frames == h.frames + 1 && r.points == h.points + count
    ensures count >= 0 ==> r.frames > h.frames && r.points >= h.points
  {
    History(Write(h.ring, HISTORY_LEN, now), h.frames + 1, h.points + count)
  }

  /** radar_received_sufficient_frames_recently: never before 3.5 s have
      passed, afterwards iff more than five slots hold a time no older than
      3.5 s. */
  function SufficientFramesRecently(h: History, now: int): (ok: bool)
    requires Valid(h)
    ensures ok <==> now >= PERIOD_MS && |RecentSlots(h.ring.slots, now - PERIOD_MS)| > MIN_RECENT_FRAMES
  {
    CountIsRecentSlots(h.ring.slots, now - PERIOD_MS);
    if now < PERIOD_MS then false
    else CountRecent(h.ring.slots, now - PERIOD_MS) > MIN_RECENT_FRAMES
  }

  datatype Totals = Totals(totalFrames: int, totalPoints: int)

  /** fetch_radar_history: a copy of the totals; the record is not touched. */
  function FetchRadarHistory(h: History): (t: Totals)
    ensures t.totalFrames == h.frames && t.totalPoints == h.points
  {
    Totals(h.frames, h.points)
  }

  // ---------------------------------------------------------------------------
  // Properties

  /** The recent count never exceeds the ring size. */
  lemma RecentBounded(h: History, now: int)
    requires Valid(h)
    ensures |RecentSlots(h.ring.slots, now - PERIOD_MS)| <= HISTORY_LEN
  {
    CountIsRecentSlots(h.ring.slots, now - PERIOD_MS);
  }

  /** The threshold is strict: five recent frames are not enough, six are. */
  lemma ThresholdStrict(h: History, now: int)
    requires Valid(h) && now >= PERIOD_MS
    ensures |RecentSlots(h.ring.slots, now - PERIOD_MS)| == 5 ==> !SufficientFramesRecently(h, now)
    ensures |RecentSlots(h.ring.slots, now - PERIOD_MS)| == 6 ==> SufficientFramesRecently(h, now)
  {
  }

  /** Registering a frame shows in the next fetch as one more frame and the
      frame's points. */
  lemma FetchAfterRegister(h: History, now: int, count: int)
    requires Valid(h)
    ensures FetchRadarHistory(RegisterEvent(h, now, count))
            == Totals(FetchRadarHistory(h).totalFrames + 1, FetchRadarHistory(h).totalPoints + count)
  {
  }

  /** One radar frame: its arrival time and point count. */
  datatype Event = Event(time: int, count: int)

  /** Events registered in order. */
  function RegisterAll(h: History, evs: seq<Event>): (r: History)
    requires Valid(h)
    ensures Valid(r)
  {
    if |evs| == 0 then h
    else RegisterEvent(RegisterAll(h, evs[..|evs| - 1]), evs[|evs| - 1].time, evs[|evs| - 1].count)
  }

  function Times(evs: seq<Event>): (ts: seq<int>)
    ensures |ts| == |evs| && forall j :: 0 <= j < |evs| ==> ts[j] == evs[j].time
  {
    seq(|evs|, j requires 0 <= j < |evs| => evs[j].time)
  }

  /** The ring after a run of events is the ring written with their times. */
  lemma {:induction false} RegisterAllRing(h: History, evs: seq<Event>)
    requires Valid(h)
    ensures RegisterAll(h, evs).ring == WriteAll(h.ring, HISTORY_LEN, Times(evs))
  {
    if |evs| > 0 {
      var n := |evs| - 1;
      RegisterAllRing(h, evs[..n]);
      assert Times(evs[..n]) == Times(evs)[..n];
    }
  }

  /** Six frames within the last 3.5 s, as long as the ring has not turned
      over since, are enough for a positive health check. */
  lemma SixRecentFramesSuffice(h: History, evs: seq<Event>, now: int)
    requires Valid(h) && 6 <= |evs| <= HISTORY_LEN && now >= PERIOD_MS
    requires forall j :: 0 <= j < |evs| ==> evs[j].time >= now - PERIOD_MS
    ensures SufficientFramesRecently(RegisterAll(h, evs), now)
  {
    RegisterAllRing(h, evs);
    WrittenRingSuffices(RegisterAll(h, evs), h.ring, Times(evs), now);
  }

  /** A record whose ring received six or more recent times in one turn
      passes the check. */
  lemma WrittenRingSuffices(r: History, start: TimeRing, ts: seq<int>, now: int)
    requires Valid(r) && ValidRing(start, HISTORY_LEN) && 6 <= |ts| <= HISTORY_LEN && now >= PERIOD_MS
    requires r.ring == WriteAll(start, HISTORY_LEN, ts)
    requires forall j :: 0 <= j < |ts| ==> ts[j] >= now - PERIOD_MS
    ensures SufficientFramesRecently(r, now)
  {
    RecentWritesCounted(start, HISTORY_LEN, ts, now - PERIOD_MS);
  }

  /** The zero-initialised ring passes the check at exactly 3500 ms, with
      no frame received, since every empty slot then lies on the cutoff; at
      any other time it fails. */
  lemma EmptyRingPassesAtGraceEnd(now: int)
    ensures SufficientFramesRecently(Initial(), now) <==> now == PERIOD_MS
  {
    CountConstant(Initial().ring.slots, 0, now - PERIOD_MS);
    CountIsRecentSlots(Initial().ring.slots, now - PERIOD_MS);
  }
}

=== FILE: radar_tlv.dfy ===
/**
 * The radar side of the TLV processor: process_radar_tlv reads the
 * spherical point-cloud record and the side-info record behind it out of
 * the frame buffer, enque_to_python_radar packs the points for the message
 * queue, and program_loop/main decide what to do with each tty_read_frame
 * result. The buffer is the handler's whole frame buffer: the decoder never
 * looks at the announced frame length, so it reads whatever lies at the
 * offsets it computes, and an offset past the buffer is reported as
 * OutOfBuffer rather than read.
 */
module RadarTlv {
  import opened Bytes
  import opened Wire
  import opened Framer
  import opened TlvEncode

  const SPHERICAL_POINTS: u32 := 1000
  const SIDE_INFO: u32 := 7
  /** sizeof(DPIF_PointCloudSpherical): four floats. */
  const POINT_SIZE: nat := 16
  /** sizeof(DPIF_PointCloudSideInfo): two int16 values. */
  const SIDE_SIZE: nat := 4
  const MAX_CLOUD_POINTS: nat := 325
  /** sizeof(PointCloudMetaData): five u32 fields. */
  const META_SIZE: nat := 20
  /** sizeof(SphericalPointAndSnr), packed. */
  const WIRE_POINT_SIZE: nat := 20

  datatype SideInfo = SideInfo(snr: i16, noise: i16)

  /** A point as copied: the four floats as their 16 raw bytes, and its side
      info. */
  datatype Point = Point(sphere: seq<byte>, side: SideInfo)

  /** The result of process_radar_tlv: a cloud and the byte count to send,
      -1 (Rejected), the failed assert (Aborted), or a read past the frame
      buffer (OutOfBuffer). */
  datatype Outcome = Cloud(points: seq<Point>, size: nat) | Rejected | OutOfBuffer | Aborted

  predicate WellFormed(ps: seq<Point>)
  {
    forall i :: 0 <= i < |ps| ==> |ps[i].sphere| == POINT_SIZE
  }

  function Min(a: nat, b: nat): nat
  {
    if a < b then a else b
  }

  /** One DPIF_PointCloudSideInfo read at `off`. */
  function SideAt(buff: seq<byte>, off: nat): SideInfo
    requires off + SIDE_SIZE <= |buff|
  {
    SideInfo(DecodeI16(buff, off), DecodeI16(buff, off + 2))
  }

  /** The first `count` points: point i from offset 48 + 16i, its side info
      from `sideBase` + 4i. */
  function CloudPoints(buff: seq<byte>, count: nat, sideBase: nat): (r: seq<Point>)
    requires count <= MAX_CLOUD_POINTS && PAYLOAD_OFFSET + 16 * MAX_CLOUD_POINTS <= |buff|
    requires sideBase + 4 * count <= |buff|
    ensures |r| == count && WellFormed(r)
  {
    seq(count, i requires 0 <= i < count =>
      Point(buff[PAYLOAD_OFFSET + 16 * i..PAYLOAD_OFFSET + 16 * i + 16], SideAt(buff, sideBase + 4 * i)))
  }

  /** process_radar_tlv. The point count is the first record's length / 16,
      clipped to 325; the side-info record is looked for behind the whole
      unclipped first record, and its count (length / 4) must equal the
      clipped count or the assert fires. */
  function ProcessRadarTlv(buff: seq<byte>): (r: Outcome)
    requires |buff| == BUFFER_SIZE
    ensures r.Cloud? ==> DecodeU32(buff, RECORD_TYPE_OFFSET) == SPHERICAL_POINTS
    ensures r.Cloud? ==> |r.points| <= MAX_CLOUD_POINTS && WellFormed(r.points)
                         && r.size == META_SIZE + 20 * |r.points|
    ensures r.Cloud? ==> |r.points| == Min(DecodeU32(buff, RECORD_LENGTH_OFFSET) / 16, MAX_CLOUD_POINTS)
  {
    if DecodeU32(buff, RECORD_TYPE_OFFSET) != SPHERICAL_POINTS then Rejected
    else
      var cloudLen := DecodeU32(buff, RECORD_LENGTH_OFFSET);
      var count := Min(cloudLen / 16, MAX_CLOUD_POINTS);
      var side := PAYLOAD_OFFSET + cloudLen;
      if |buff| < side + 4 then OutOfBuffer
      else if DecodeU32(buff, side) != SIDE_INFO then Rejected
      else if |buff| < side + RECORD_HEADER_SIZE then OutOfBuffer
      else if DecodeU32(buff, side + 4) / 4 != count then Aborted
      else if |buff| < side + RECORD_HEADER_SIZE + 4 * count then OutOfBuffer
      else Cloud(CloudPoints(buff, count, side + RECORD_HEADER_SIZE), META_SIZE + 20 * count)
  }

  /** The decoder with the side-info count compared against the unclipped
      point count, so that an over-full but consistent frame is clipped as
      the warning says instead of failing the assert. */
  function ProcessRadarTlvClipped(buff: seq<byte>): (r: Outcome)
    requires |buff| == BUFFER_SIZE
    ensures r.Cloud? ==> |r.points| <= MAX_CLOUD_POINTS && WellFormed(r.points)
                         && r.size == META_SIZE + 20 * |r.points|
    ensures r != Aborted
  {
    if DecodeU32(buff, RECORD_TYPE_OFFSET) != SPHERICAL_POINTS then Rejected
    else
      var cloudLen := DecodeU32(buff, RECORD_LENGTH_OFFSET);
      var count := Min(cloudLen / 16, MAX_CLOUD_POINTS);
      var side := PAYLOAD_OFFSET + cloudLen;
      if |buff| < side + 4 then OutOfBuffer
      else if DecodeU32(buff, side) != SIDE_INFO then Rejected
      else if |buff| < side + RECORD_HEADER_SIZE then OutOfBuffer
      else if DecodeU32(buff, side + 4) / 4 != cloudLen / 16 then Rejected
      else if |buff| < side + RECORD_HEADER_SIZE + 4 * count then OutOfBuffer
      else Cloud(CloudPoints(buff, count, side + RECORD_HEADER_SIZE), META_SIZE + 20 * count)
  }

  // ---------------------------------------------------------------------------
  // The radar's side: a frame as the sensor lays it out

  /** Blocks of bytes laid end to end. */
  function Flatten(blocks: seq<seq<byte>>): seq<byte>
  {
    if |blocks| == 0 then [] else blocks[0] + Flatten(blocks[1..])
  }

  /** Block i sits behind the blocks before it. */
  lemma {:induction false} FlattenAt(blocks: seq<seq<byte>>, i: nat)
    requires i < |blocks|
    ensures Flatten(blocks) == Flatten(blocks[..i]) + blocks[i] + Flatten(blocks[i + 1..])
  {
    if i > 0 {
      var rest := blocks[1..];
      FlattenAt(rest, i - 1);
      assert blocks[..i][1..] == rest[..i - 1];
      assert Flatten(blocks[..i]) == blocks[0] + Flatten(rest[..i - 1]);
      assert rest[i..] == blocks[i + 1..];
    } else {
      assert blocks[..0] == [];
      assert blocks[1..] == blocks[i + 1..];
    }
  }

  /** Blocks of a common width w flatten to w bytes per block. */
  lemma {:induction false} FlattenLength(blocks: seq<seq<byte>>, w: nat)
    requires forall j :: 0 <= j < |blocks| ==> |blocks[j]| == w
    ensures |Flatten(blocks)| == w * |blocks|
  {
    if |blocks| > 0 {
      FlattenLength(blocks[1..], w);
      assert w * |blocks| == w + w * (|blocks| - 1);
    }
  }

  /** Block i of uniform width w is the slice at w * i, written for a width
      the caller fixes so that the offsets stay linear. */
  lemma BlockAt(blocks: seq<seq<byte>>, w: nat, i: nat, off: nat)
    requires forall j :: 0 <= j < |blocks| ==> |blocks[j]| == w
    requires i < |blocks| && off == w * i
    ensures off + w <= |Flatten(blocks)|
    ensures Flatten(blocks)[off..off + w] == blocks[i]
  {
    FlattenAt(blocks, i);
    FlattenLength(blocks[..i], w);
    assert |Flatten(blocks[..i])| == off;
  }

  function EncodeSide(s: SideInfo): (r: seq<byte>)
    ensures |r| == SIDE_SIZE
  {
    EncodeI16(s.snr) + EncodeI16(s.noise)
  }

  /** Side info written at `off` reads back. */
  lemma SideWindow(b: seq<byte>, off: nat, s: SideInfo)
    requires off + SIDE_SIZE <= |b| && b[off..off + SIDE_SIZE] == EncodeSide(s)
    ensures SideAt(b, off) == s
  {
    var e := EncodeSide(s);
    DecodeEncodeI16(s.snr);
    DecodeEncodeI16(s.noise);
    assert b[off..off + 2] == e[..2] == EncodeI16(s.snr);
    DecodeI16Window(b, off, EncodeI16(s.snr), 0);
    assert b[off + 2..off + 4] == e[2..4] == EncodeI16(s.noise);
    DecodeI16Window(b, off + 2, EncodeI16(s.noise), 0);
  }

  function Spheres(ps: seq<Point>): seq<seq<byte>>
  {
    seq(|ps|, i requires 0 <= i < |ps| => ps[i].sphere)
  }

  function Sides(ps: seq<Point>): seq<seq<byte>>
  {
    seq(|ps|, i requires 0 <= i < |ps| => EncodeSide(ps[i].side))
  }

  /** A radar frame: the 40-byte frame header, the spherical-points record
      and the side-info record, one entry per point in each. */
  function RadarFrame(header: seq<byte>, ps: seq<Point>): (r: seq<byte>)
    requires |header| == HEADER_SIZE && WellFormed(ps)
    ensures |r| == HEADER_SIZE + 2 * RECORD_HEADER_SIZE + 20 * |ps|
  {
    FlattenLength(Spheres(ps), 16);
    FlattenLength(Sides(ps), 4);
    header + RecordHeader(SPHERICAL_POINTS, 16 * |ps|) + Flatten(Spheres(ps))
      + RecordHeader(SIDE_INFO, 4 * |ps|) + Flatten(Sides(ps))
  }

  /** A part at `off` of a buffer: its sub-slices are the buffer's. */
  lemma Inside(b: seq<byte>, off: nat, part: seq<byte>, i: nat, j: nat)
    requires off + |part| <= |b| && b[off..off + |part|] == part && i <= j <= |part|
    ensures b[off + i..off + j] == part[i..j]
  {
    assert forall k :: off + i <= k < off + j ==> b[k] == b[off..off + |part|][k - off];
  }

  /** Where the pieces of a radar frame sit in the frame buffer. */
  lemma FrameParts(b: seq<byte>, header: seq<byte>, ps: seq<Point>, tail: seq<byte>)
    requires |header| == HEADER_SIZE && WellFormed(ps)
    requires b == RadarFrame(header, ps) + tail
    ensures var n := |ps|;
            && b[HEADER_SIZE..PAYLOAD_OFFSET] == RecordHeader(SPHERICAL_POINTS, 16 * n)
            && b[PAYLOAD_OFFSET..PAYLOAD_OFFSET + 16 * n] == Flatten(Spheres(ps))
            && b[PAYLOAD_OFFSET + 16 * n..PAYLOAD_OFFSET + 16 * n + 8] == RecordHeader(SIDE_INFO, 4 * n)
            && b[PAYLOAD_OFFSET + 16 * n + 8..PAYLOAD_OFFSET + 20 * n + 8] == Flatten(Sides(ps))
  {
    var n := |ps|;
    FlattenLength(Spheres(ps), 16);
    FlattenLength(Sides(ps), 4);
    var r1 := RecordHeader(SPHERICAL_POINTS, 16 * n);
    var s := Flatten(Spheres(ps));
    var r2 := RecordHeader(SIDE_INFO, 4 * n);
    var d := Flatten(Sides(ps));
    FiveParts(header + r1, s, r2, d, tail);
    assert b[HEADER_SIZE..PAYLOAD_OFFSET] == (header + r1)[HEADER_SIZE..];
  }

  /** The parts of a five-part concatenation sit where their lengths say. */
  lemma FiveParts(a: seq<byte>, b: seq<byte>, c: seq<byte>, d: seq<byte>, e: seq<byte>)
    ensures var s := a + b + c + d + e;
            && s[..|a|] == a && s[|a|..|a| + |b|] == b
            && s[|a| + |b|..|a| + |b| + |c|] == c
            && s[|a| + |b| + |c|..|a| + |b| + |c| + |d|] == d
  {
  }

  /** A record header at `off` reads back as its type and length. */
  lemma RecordAt(b: seq<byte>, off: nat, kind: u32, len: nat)
    requires off + RECORD_HEADER_SIZE <= |b| && len < U32_LIMIT
    requires b[off..off + RECORD_HEADER_SIZE] == RecordHeader(kind, len)
    ensures DecodeU32(b, off) == kind && DecodeU32(b, off + 4) == len
  {
    var h := RecordHeader(kind, len);
    assert ToU32(len) == len;
    Inside(b, off, h, 0, 4);
    Inside(b, off, h, 4, 8);
    FieldAt(b, off, kind);
    FieldAt(b, off + 4, len);
  }

  /** The four record-header fields of a radar frame read back. */
  lemma FrameFields(b: seq<byte>, n: nat)
    requires PAYLOAD_OFFSET + 20 * n + 8 <= |b| && 20 * n < U32_LIMIT
    requires b[HEADER_SIZE..PAYLOAD_OFFSET] == RecordHeader(SPHERICAL_POINTS, 16 * n)
    requires b[PAYLOAD_OFFSET + 16 * n..PAYLOAD_OFFSET + 16 * n + 8] == RecordHeader(SIDE_INFO, 4 * n)
    ensures DecodeU32(b, RECORD_TYPE_OFFSET) == SPHERICAL_POINTS
    ensures DecodeU32(b, RECORD_LENGTH_OFFSET) == 16 * n
    ensures DecodeU32(b, PAYLOAD_OFFSET + 16 * n) == SIDE_INFO
    ensures DecodeU32(b, PAYLOAD_OFFSET + 16 * n + 4) == 4 * n
  {
    RecordAt(b, HEADER_SIZE, SPHERICAL_POINTS, 16 * n);
    RecordAt(b, PAYLOAD_OFFSET + 16 * n, SIDE_INFO, 4 * n);
  }

  /** Block i of a flattened run at `off` of a buffer is the buffer's slice
      at off + w * i. */
  lemma BlockInside(b: seq<byte>, off: nat, blocks: seq<seq<byte>>, w: nat, i: nat, at: nat)
    requires forall j :: 0 <= j < |blocks| ==> |blocks[j]| == w
    requires i < |blocks| && at == w * i
    requires off + |Flatten(blocks)| <= |b| && b[off..off + |Flatten(blocks)|] == Flatten(blocks)
    ensures off + at + w <= |b| && b[off + at..off + at + w] == blocks[i]
  {
    BlockAt(blocks, w, i, at);
    Inside(b, off, Flatten(blocks), at, at + w);
  }

  /** Point i of a radar frame reads back: its 16 bytes from the first
      record, its side info from the second. */
  lemma PointAt(b: seq<byte>, ps: seq<Point>, i: nat)
    requires WellFormed(ps) && i < |ps| && PAYLOAD_OFFSET + 20 * |ps| + 8 <= |b|
    requires b[PAYLOAD_OFFSET..PAYLOAD_OFFSET + 16 * |ps|] == Flatten(Spheres(ps))
    requires b[PAYLOAD_OFFSET + 16 * |ps| + 8..PAYLOAD_OFFSET + 20 * |ps| + 8] == Flatten(Sides(ps))
    ensures b[PAYLOAD_OFFSET + 16 * i..PAYLOAD_OFFSET + 16 * i + 16] == ps[i].sphere
    ensures SideAt(b, PAYLOAD_OFFSET + 16 * |ps| + 8 + 4 * i) == ps[i].side
  {
    FlattenLength(Spheres(ps), 16);
    FlattenLength(Sides(ps), 4);
    var sides := PAYLOAD_OFFSET + 16 * |ps| + 8;
    BlockInside(b, PAYLOAD_OFFSET, Spheres(ps), 16, i, 16 * i);
    BlockInside(b, sides, Sides(ps), 4, i, 4 * i);
    SideWindow(b, sides + 4 * i, ps[i].side);
  }

  /** Every field a radar frame holds reads back at the offsets the decoder
      uses, whatever the tail of the buffer holds. */
  lemma FrameLayout(b: seq<byte>, header: seq<byte>, ps: seq<Point>, tail: seq<byte>)
    requires |header| == HEADER_SIZE && WellFormed(ps)
    requires b == RadarFrame(header, ps) + tail && |b| == BUFFER_SIZE
    ensures var n := |ps|;
            && DecodeU32(b, RECORD_TYPE_OFFSET) == SPHERICAL_POINTS
            && DecodeU32(b, RECORD_LENGTH_OFFSET) == 16 * n
            && DecodeU32(b, PAYLOAD_OFFSET + 16 * n) == SIDE_INFO
            && DecodeU32(b, PAYLOAD_OFFSET + 16 * n + 4) == 4 * n
            && (forall i :: 0 <= i < n ==>
                  b[PAYLOAD_OFFSET + 16 * i..PAYLOAD_OFFSET + 16 * i + 16] == ps[i].sphere)
            && (forall i :: 0 <= i < n ==>
                  SideAt(b, PAYLOAD_OFFSET + 16 * n + 8 + 4 * i) == ps[i].side)
  {
    FrameParts(b, header, ps, tail);
    FrameFields(b, |ps|);
    forall i | 0 <= i < |ps|
      ensures b[PAYLOAD_OFFSET + 16 * i..PAYLOAD_OFFSET + 16 * i + 16] == ps[i].sphere
      ensures SideAt(b, PAYLOAD_OFFSET + 16 * |ps| + 8 + 4 * i) == ps[i].side
    {
      PointAt(b, ps, i);
    }
  }

  /** The points a frame's fields describe, read back, are the points. */
  lemma PointsRead(b: seq<byte>, ps: seq<Point>, k: nat)
    requires k <= |ps| && k <= MAX_CLOUD_POINTS && |b| == BUFFER_SIZE
    requires PAYLOAD_OFFSET + 20 * |ps| + 8 <= |b|
    requires forall i :: 0 <= i < |ps| ==>
               b[PAYLOAD_OFFSET + 16 * i..PAYLOAD_OFFSET + 16 * i + 16] == ps[i].sphere
    requires forall i :: 0 <= i < |ps| ==>
               SideAt(b, PAYLOAD_OFFSET + 16 * |ps| + 8 + 4 * i) == ps[i].side
    ensures CloudPoints(b, k, PAYLOAD_OFFSET + 16 * |ps| + 8) == ps[..k]
  {
    var got := CloudPoints(b, k, PAYLOAD_OFFSET + 16 * |ps| + 8);
    forall i | 0 <= i < k
      ensures got[i] == ps[i]
    {
    }
  }

  /** The record lengths of n points give back n. */
  lemma Counts(n: nat)
    ensures (16 * n) / 16 == n && (4 * n) / 4 == n
  {
  }

  /** What the decoders make of a buffer whose record headers describe n
      points laid out in full. */
  lemma DecodeShape(b: seq<byte>, n: nat)
    requires |b| == BUFFER_SIZE && PAYLOAD_OFFSET + 20 * n + 8 <= |b|
    requires DecodeU32(b, RECORD_TYPE_OFFSET) == SPHERICAL_POINTS
    requires DecodeU32(b, RECORD_LENGTH_OFFSET) == 16 * n
    requires DecodeU32(b, PAYLOAD_OFFSET + 16 * n) == SIDE_INFO
    requires DecodeU32(b, PAYLOAD_OFFSET + 16 * n + 4) == 4 * n
    ensures var k := Min(n, MAX_CLOUD_POINTS);
            var cloud := Cloud(CloudPoints(b, k, PAYLOAD_OFFSET + 16 * n + 8), META_SIZE + 20 * k);
            && ProcessRadarTlv(b) == (if n <= MAX_CLOUD_POINTS then cloud else Aborted)
            && ProcessRadarTlvClipped(b) == cloud
  {
    Counts(n);
  }

  /** A radar frame with at most 325 points decodes to exactly its points,
      and the size handed to the queue covers the metadata and every point. */
  lemma RadarRoundTrip(b: seq<byte>, header: seq<byte>, ps: seq<Point>, tail: seq<byte>)
    requires |header| == HEADER_SIZE && WellFormed(ps) && |ps| <= MAX_CLOUD_POINTS
    requires b == RadarFrame(header, ps) + tail && |b| == BUFFER_SIZE
    ensures ProcessRadarTlv(b) == Cloud(ps, META_SIZE + WIRE_POINT_SIZE * |ps|)
  {
    FrameLayout(b, header, ps, tail);
    DecodeShape(b, |ps|);
    PointsRead(b, ps, |ps|);
    assert ps[..|ps|] == ps;
  }

  /** The clipping never helps: a consistent frame with more than 325 points
      fails the assert, since the side-info count is the unclipped one. */
  lemma OverfullFrameAborts(b: seq<byte>, header: seq<byte>, ps: seq<Point>, tail: seq<byte>)
    requires |header| == HEADER_SIZE && WellFormed(ps) && |ps| > MAX_CLOUD_POINTS
    requires b == RadarFrame(header, ps) + tail && |b| == BUFFER_SIZE
    ensures ProcessRadarTlv(b) == Aborted
  {
    FrameLayout(b, header, ps, tail);
    DecodeShape(b, |ps|);
  }

  /** With the corrected comparison every radar frame decodes, to its first
      325 points at most. */
  lemma ClippedRoundTrip(b: seq<byte>, header: seq<byte>, ps: seq<Point>, tail: seq<byte>)
    requires |header| == HEADER_SIZE && WellFormed(ps)
    requires b == RadarFrame(header, ps) + tail && |b| == BUFFER_SIZE
    ensures var k := Min(|ps|, MAX_CLOUD_POINTS);
            ProcessRadarTlvClipped(b) == Cloud(ps[..k], META_SIZE + WIRE_POINT_SIZE * k)
  {
    FrameLayout(b, header, ps, tail);
    DecodeShape(b, |ps|);
    PointsRead(b, ps, Min(|ps|, MAX_CLOUD_POINTS));
  }

  // ---------------------------------------------------------------------------
  // The message to the queue

  function WirePoint(p: Point): (r: seq<byte>)
    requires |p.sphere| == POINT_SIZE
    ensures |r| == WIRE_POINT_SIZE
  {
    p.sphere + EncodeSide(p.side)
  }

  function WirePoints(ps: seq<Point>): seq<seq<byte>>
    requires WellFormed(ps)
  {
    seq(|ps|, i requires 0 <= i < |ps| => WirePoint(ps[i]))
  }

  /** The first `size` bytes of the static PointCloudSpherical: the metadata
      (frame number and CPU cycles are never assigned, so they stay 0; the
      point count; the monotonic clock's seconds and nanoseconds) and then
      the packed points. */
  function RadarMessage(ps: seq<Point>, seconds: u32, nanoseconds: u32): (r: seq<byte>)
    requires WellFormed(ps) && |ps| <= MAX_CLOUD_POINTS
    ensures |r| == META_SIZE + 20 * |ps|
  {
    FlattenLength(WirePoints(ps), 20);
    EncodeU32(0) + EncodeU32(0) + EncodeU32(|ps|) + EncodeU32(seconds) + EncodeU32(nanoseconds)
      + Flatten(WirePoints(ps))
  }

  /** A reader of the message finds the point count at offset 8 and point i,
      with its side info, at 20 + 20i. */
  lemma RadarMessageFields(ps: seq<Point>, seconds: u32, nanoseconds: u32, i: nat)
    requires WellFormed(ps) && |ps| <= MAX_CLOUD_POINTS && i < |ps|
    ensures var m := RadarMessage(ps, seconds, nanoseconds);
            && DecodeU32(m, 8) == |ps|
            && m[META_SIZE + 20 * i..META_SIZE + 20 * i + POINT_SIZE] == ps[i].sphere
            && SideAt(m, META_SIZE + 20 * i + POINT_SIZE) == ps[i].side
  {
    var m := RadarMessage(ps, seconds, nanoseconds);
    var meta := EncodeU32(0) + EncodeU32(0) + EncodeU32(|ps|) + EncodeU32(seconds) + EncodeU32(nanoseconds);
    var points := Flatten(WirePoints(ps));
    assert m == meta + points;
    assert m[8..12] == EncodeU32(|ps|);
    FieldAt(m, 8, |ps|);
    assert m[META_SIZE..META_SIZE + |points|] == points;
    BlockInside(m, META_SIZE, WirePoints(ps), 20, i, 20 * i);
    WirePointAt(m, META_SIZE + 20 * i, ps[i]);
  }

  /** A packed point at `at` reads back. */
  lemma WirePointAt(m: seq<byte>, at: nat, p: Point)
    requires |p.sphere| == POINT_SIZE && at + WIRE_POINT_SIZE <= |m|
    requires m[at..at + WIRE_POINT_SIZE] == WirePoint(p)
    ensures m[at..at + POINT_SIZE] == p.sphere
    ensures SideAt(m, at + POINT_SIZE) == p.side
  {
    var w := WirePoint(p);
    Inside(m, at, w, 0, POINT_SIZE);
    Inside(m, at, w, POINT_SIZE, WIRE_POINT_SIZE);
    assert w[POINT_SIZE..] == EncodeSide(p.side);
    SideWindow(m, at + POINT_SIZE, p.side);
  }

  // ---------------------------------------------------------------------------
  // The program loop

  /** What one pass of program_loop does with a tty_read_frame call. */
  datatype Action =
    | Forward(message: seq<byte>)   // a decoded cloud, enqueued
    | Skip                          // -1 from the decoder, or a read past the buffer
    | Restart                       // REQUEST_RESET: leave the loop, reset the USB radar, start over
    | Crash                         // the side-info assert failed
    | Wait                          // the blocking read has nothing more to deliver
    | Undefined                     // a read error reached code that does not check it

  /** One pass of program_loop, with main's restart folded in: after a reset
      the loop starts again on a freshly opened handler. The clock values
      the queue message is stamped with are parameters. */
  function RadarIteration(h: Handler, inputs: seq<ReadResult>, seconds: u32, nanoseconds: u32)
    : (r: (Action, Handler, seq<ReadResult>))
    requires HandlerOk(h)
    ensures HandlerOk(r.1)
    ensures r.0.Forward? ==> META_SIZE <= |r.0.message| <= META_SIZE + 20 * MAX_CLOUD_POINTS
    ensures r.0 == Restart ==> r.1 == NewHandler()
  {
    var (st, h', rest) := ReadFrame(h, inputs);
    match st
    case Reset => (Restart, NewHandler(), rest)
    case Starved => (Wait, h', rest)
    case Unhandled => (Undefined, h', rest)
    case Done =>
      match ProcessRadarTlv(h'.buffer)
      case Cloud(ps, size) => (Forward(RadarMessage(ps, seconds, nanoseconds)), h', rest)
      case Aborted => (Crash, h', rest)
      case _ => (Skip, h', rest)
  }

  /** Only decoded clouds reach the queue, and every one does: the size test
      in program_loop passes exactly for them, and the message is as long as
      the size the decoder returned. */
  lemma ForwardsExactlyClouds(h: Handler, inputs: seq<ReadResult>, seconds: u32, nanoseconds: u32)
    requires HandlerOk(h)
    ensures var r := RadarIteration(h, inputs, seconds, nanoseconds);
            var (st, h', _) := ReadFrame(h, inputs);
            && (r.0.Forward? <==> st == Done && ProcessRadarTlv(h'.buffer).Cloud?)
            && (r.0.Forward? ==> |r.0.message| == ProcessRadarTlv(h'.buffer).size > 0)
  {
  }

  /** Unlike the sensor loop, the radar loop acts on REQUEST_RESET: it goes on
      with a freshly opened port, where staying on the old handler would run
      the next call into the reset's negative read result. */
  lemma RestartRecovers(h: Handler, inputs: seq<ReadResult>, seconds: u32, nanoseconds: u32)
    requires HandlerOk(h) && RadarIteration(h, inputs, seconds, nanoseconds).0 == Restart
    ensures var r := RadarIteration(h, inputs, seconds, nanoseconds);
            && r.1.port.error == 0 && r.1.port.zeroReads == 0 && Pending(r.1.port) == []
            && ReadFrame(ReadFrame(h, inputs).1, r.2).0 == Unhandled
  {
    var (st, h', rest) := ReadFrame(h, inputs);
    CallAfterResetUnhandled(h', rest);
  }
}

=== FILE: ring.dfy ===
/**
 * Rings of timestamps, as both the radar health record and the aim lock
 * keep them: a fixed number of slots written round-robin, and a count of
 * the slots whose time is no older than a cutoff. The slot after i is
 * (i + 1) modulo the ring size, written as the sources' wrap test.
 */
module Rings {
  /** The slot after i in a ring of n. */
  function Next(i: nat, n: nat): (j: nat)
    requires i < n
    ensures j < n
    ensures j == (i + 1) % n
  {
    if i + 1 < n then i + 1 else 0
  }

  /** The slot the j-th write after `index` goes to, within one turn. */
  function Slot(index: nat, j: nat, n: nat): (p: nat)
    requires index < n && j <= n
    ensures p < n
  {
    if index + j < n then index + j else index + j - n
  }

  /** Within one turn of the ring the slots written are distinct. */
  lemma SlotsDistinct(index: nat, j: nat, k: nat, n: nat)
    requires index < n && j < k < n
    ensures Slot(index, j, n) != Slot(index, k, n)
  {
  }

  /** A ring of timestamps and the slot the next write goes to. */
  datatype TimeRing = TimeRing(slots: seq<int>, index: nat)

  predicate ValidRing(r: TimeRing, n: nat)
  {
    |r.slots| == n && r.index < n
  }

  /** A ring of n slots all zero, as static storage starts out. */
  function ZeroRing(n: nat): (r: TimeRing)
    requires n > 0
    ensures ValidRing(r, n)
  {
    TimeRing(seq(n, _ => 0), 0)
  }

  /** One write: the time goes into the current slot and the index moves
      on to the next. */
  function Write(r: TimeRing, n: nat, t: int): (w: TimeRing)
    requires ValidRing(r, n)
    ensures ValidRing(w, n)
    ensures w.slots[r.index] == t && w.index == (r.index + 1) % n
    ensures forall i :: 0 <= i < n && i != r.index ==> w.slots[i] == r.slots[i]
  {
    TimeRing(r.slots[r.index := t], Next(r.index, n))
  }

  /** Writes in order. */
  function WriteAll(r: TimeRing, n: nat, ts: seq<int>): (w: TimeRing)
    requires ValidRing(r, n)
    ensures ValidRing(w, n)
  {
    if |ts| == 0 then r else Write(WriteAll(r, n, ts[..|ts| - 1]), n, ts[|ts| - 1])
  }

  /** Up to one turn of writes: each time is still in the slot it went to,
      and the index has moved on by the number of writes. */
  lemma {:induction false} WriteAllSlots(r: TimeRing, n: nat, ts: seq<int>)
    requires ValidRing(r, n) && |ts| <= n
    ensures WriteAll(r, n, ts).index == Slot(r.index, |ts|, n)
    ensures forall j :: 0 <= j < |ts| ==> WriteAll(r, n, ts).slots[Slot(r.index, j, n)] == ts[j]
  {
    if |ts| > 0 {
      var k := |ts| - 1;
      WriteAllSlots(r, n, ts[..k]);
      forall j | 0 <= j < |ts|
        ensures WriteAll(r, n, ts).slots[Slot(r.index, j, n)] == ts[j]
      {
        WriteStep(r, n, ts, j);
      }
    }
  }

  /** One more write lands in the next slot and leaves the earlier writes
      of the turn in theirs. */
  lemma WriteStep(r: TimeRing, n: nat, ts: seq<int>, j: nat)
    requires ValidRing(r, n) && 0 < |ts| <= n && j < |ts|
    requires WriteAll(r, n, ts[..|ts| - 1]).index == Slot(r.index, |ts| - 1, n)
    requires forall i :: 0 <= i < |ts| - 1 ==>
               WriteAll(r, n, ts[..|ts| - 1]).slots[Slot(r.index, i, n)] == ts[..|ts| - 1][i]
    ensures WriteAll(r, n, ts).slots[Slot(r.index, j, n)] == ts[j]
  {
    var k := |ts| - 1;
    if j < k {
      SlotsDistinct(r.index, j, k, n);
      assert ts[..k][j] == ts[j];
    }
  }

  // ---------------------------------------------------------------------------
  // Counting recent slots

  /** How many slots hold a time at or after `cutoff`, counted as the loops
      over the ring do. */
  function CountRecent(s: seq<int>, cutoff: int): (c: nat)
    ensures c <= |s|
  {
    if |s| == 0 then 0
    else CountRecent(s[..|s| - 1], cutoff) + (if s[|s| - 1] >= cutoff then 1 else 0)
  }

  /** The slots whose time is at or after `cutoff`. */
  function RecentSlots(s: seq<int>, cutoff: int): set<nat>
  {
    set i: nat | i < |s| && s[i] >= cutoff
  }

  /** The loop counts exactly the recent slots. */
  lemma {:induction false} CountIsRecentSlots(s: seq<int>, cutoff: int)
    ensures CountRecent(s, cutoff) == |RecentSlots(s, cutoff)|
  {
    if |s| > 0 {
      var n := |s| - 1;
      CountIsRecentSlots(s[..n], cutoff);
      var before := RecentSlots(s[..n], cutoff);
      forall i: nat | i < n
        ensures i in RecentSlots(s, cutoff) <==> i in before
      {
        assert s[..n][i] == s[i];
      }
      if s[n] >= cutoff {
        assert RecentSlots(s, cutoff) == before + {n};
      } else {
        assert RecentSlots(s, cutoff) == before;
      }
    }
  }

  /** A ring of equal times is all recent or not at all. */
  lemma {:induction false} CountConstant(s: seq<int>, t: int, cutoff: int)
    requires forall i :: 0 <= i < |s| ==> s[i] == t
    ensures CountRecent(s, cutoff) == if t >= cutoff then |s| else 0
  {
    if |s| > 0 {
      CountConstant(s[..|s| - 1], t, cutoff);
    }
  }

  /** The first k slots written from `index`. */
  function Written(index: nat, k: nat, n: nat): set<nat>
    requires index < n && k <= n
  {
    if k == 0 then {} else Written(index, k - 1, n) + {Slot(index, k - 1, n)}
  }

  lemma {:induction false} WrittenCard(index: nat, k: nat, n: nat)
    requires index < n && k <= n
    ensures |Written(index, k, n)| == k
    ensures forall m :: k <= m < n ==> Slot(index, m, n) !in Written(index, k, n)
  {
    if k > 0 {
      WrittenCard(index, k - 1, n);
      forall m | k <= m < n
        ensures Slot(index, m, n) !in Written(index, k, n)
      {
        SlotsDistinct(index, k - 1, m, n);
      }
    }
  }

  lemma {:induction false} WrittenMembers(index: nat, k: nat, n: nat, p: nat)
    requires index < n && k <= n && p in Written(index, k, n)
    ensures exists j :: 0 <= j < k && p == Slot(index, j, n)
  {
    if p != Slot(index, k - 1, n) {
      WrittenMembers(index, k - 1, n, p);
    }
  }

  /** A set of slots that all hold recent times is counted in full. */
  lemma {:induction false} CountCovers(s: seq<int>, cutoff: int, p: set<nat>)
    requires forall i :: i in p ==> i < |s| && s[i] >= cutoff
    ensures |p| <= CountRecent(s, cutoff)
  {
    if |s| > 0 {
      var n := |s| - 1;
      var q := p - {n};
      forall i | i in q
        ensures i < |s[..n]| && s[..n][i] >= cutoff
      {
      }
      CountCovers(s[..n], cutoff, q);
      if n in p {
        assert p == q + {n};
      } else {
        assert p == q;
      }
    } else {
      assert p == {};
    }
  }

  /** k slots written in one turn from `index`, all holding recent times,
      are all counted. */
  lemma ManyRecent(s: seq<int>, cutoff: int, index: nat, k: nat)
    requires index < |s| && k <= |s|
    requires forall j :: 0 <= j < k ==> s[Slot(index, j, |s|)] >= cutoff
    ensures CountRecent(s, cutoff) >= k
  {
    var n := |s|;
    forall p | p in Written(index, k, n)
      ensures p < n && s[p] >= cutoff
    {
      WrittenMembers(index, k, n, p);
    }
    WrittenCard(index, k, n);
    CountCovers(s, cutoff, Written(index, k, n));
  }

  /** Writes no older than the cutoff leave recent times in their slots. */
  lemma WriteAllRecent(r: TimeRing, n: nat, ts: seq<int>, cutoff: int)
    requires ValidRing(r, n) && |ts| <= n
    requires forall j :: 0 <= j < |ts| ==> ts[j] >= cutoff
    ensures forall j :: 0 <= j < |ts| ==> WriteAll(r, n, ts).slots[Slot(r.index, j, n)] >= cutoff
  {
    WriteAllSlots(r, n, ts);
  }

  /** Up to one turn of writes, all no older than the cutoff, are all
      counted as recent, whatever the ring held before. */
  lemma RecentWritesCounted(r: TimeRing, n: nat, ts: seq<int>, cutoff: int)
    requires ValidRing(r, n) && |ts| <= n
    requires forall j :: 0 <= j < |ts| ==> ts[j] >= cutoff
    ensures CountRecent(WriteAll(r, n, ts).slots, cutoff) >= |ts|
  {
    WriteAllRecent(r, n, ts, cutoff);
    ManyRecent(WriteAll(r, n, ts).slots, cutoff, r.index, |ts|);
  }
}

=== FILE: rotary.dfy ===
/**
 * The sensor board's input handling (scope-zephyr/src/ui.c): every pin
 * interrupt passes a per-event debounce before its code is queued, and a
 * decoder thread turns the two phases of the rotary encoder into LEFT and
 * RIGHT events.
 */
module Rotary {
  import opened Options

  /** The codes the interrupt handlers pass on. The encoder phases come
      from rotary_encoder_e, the others from ui_event_e, and the two
      enumerations overlap. */
  const ROTARY_A: nat := 0
  const ROTARY_B: nat := 1
  const ROTARY_BUTTON: nat := 0
  const ROTARY_LEFT: nat := 1
  const ROTARY_RIGHT: nat := 2
  const BUTTON_0: nat := 3
  const BUTTON_1: nat := 4
  const TOTAL_EVENT_COUNT: nat := 5

  const DEBOUNCE_TIME_MS: nat := 8
  const MAX_DELAY_ENCODER: nat := 20
  /** rotary_msgq, from the interrupt handlers to the decoder thread. */
  const DECODER_QUEUE_LEN: nat := 4
  /** ui_ouput_msgq, from the button handlers and the decoder to the host
      link (scope-zephyr/src/usb.c). */
  const HOST_QUEUE_LEN: nat := 2
  const U64_LIMIT: int := 0x1_0000_0000_0000_0000

  /** The five interrupt sources. */
  datatype Pin = EncoderA | EncoderB | EncoderButton | Front0 | Front1

  /** The code each handler hands to HANDLE_CALLBACK. */
  function CodeOf(p: Pin): (c: nat)
    ensures c < TOTAL_EVENT_COUNT
  {
    match p
    case EncoderA => ROTARY_A
    case EncoderB => ROTARY_B
    case EncoderButton => ROTARY_BUTTON
    case Front0 => BUTTON_0
    case Front1 => BUTTON_1
  }

  /** Which queue a pin's events go to: the encoder phases to the
      decoder, everything else straight to the host link. */
  predicate ToDecoder(p: Pin)
  {
    p == EncoderA || p == EncoderB
  }

  // ---------------------------------------------------------------------------
  // Debounce

  /** The time of the last accepted event per slot, zero at boot. */
  datatype Debounce = Debounce(last: seq<nat>)

  predicate ValidDebounce(d: Debounce)
  {
    |d.last| == TOTAL_EVENT_COUNT && forall i :: 0 <= i < |d.last| ==> d.last[i] < U64_LIMIT
  }

  const BOOT: Debounce := Debounce([0, 0, 0, 0, 0])

  /** The elapsed time as the source computes it, in unsigned 64-bit
      arithmetic. */
  function Elapsed(now: nat, last: nat): (e: nat)
    requires now < U64_LIMIT && last < U64_LIMIT
    ensures last <= now ==> e == now - last
  {
    (now - last) % U64_LIMIT
  }

  /** debounce_handler on one slot: an event closer than 8 ms to the last
      accepted one of that slot is suppressed and leaves the time alone;
      otherwise the time is recorded. */
  function DebounceSlot(d: Debounce, slot: nat, now: nat): (r: (bool, Debounce))
    requires ValidDebounce(d) && slot < TOTAL_EVENT_COUNT && now < U64_LIMIT
    ensures ValidDebounce(r.1)
    ensures r.0 <==> Elapsed(now, d.last[slot]) < DEBOUNCE_TIME_MS
    ensures r.0 ==> r.1 == d
    ensures !r.0 ==> r.1.last == d.last[slot := now]
  {
    if Elapsed(now, d.last[slot]) < DEBOUNCE_TIME_MS then (true, d)
    else (false, Debounce(d.last[slot := now]))
  }

  /** A message queue holding at most `cap` entries; a put on a full
      queue is dropped, as K_NO_WAIT does. */
  function Put(q: seq<nat>, x: nat, cap: nat): (r: seq<nat>)
    requires |q| <= cap
    ensures |r| <= cap
    ensures |q| < cap ==> r == q + [x]
    ensures |q| == cap ==> r == q
  {
    if |q| < cap then q + [x] else q
  }

  /** The board's input side: the debounce times and the two queues. */
  datatype Board = Board(debounce: Debounce, decoderQueue: seq<nat>, hostQueue: seq<nat>)

  predicate ValidBoard(b: Board)
  {
    ValidDebounce(b.debounce) && |b.decoderQueue| <= DECODER_QUEUE_LEN && |b.hostQueue| <= HOST_QUEUE_LEN
  }

  /** HANDLE_CALLBACK with the debounce slot chosen by `slot`: a
      suppressed event returns early; a kept one is put on the pin's
      queue. */
  function Handle(b: Board, p: Pin, slot: nat, now: nat): (r: Board)
    requires ValidBoard(b) && slot < TOTAL_EVENT_COUNT && now < U64_LIMIT
    ensures ValidBoard(r)
    ensures Elapsed(now, b.debounce.last[slot]) < DEBOUNCE_TIME_MS ==> r == b
    ensures Elapsed(now, b.debounce.last[slot]) >= DEBOUNCE_TIME_MS ==>
              && r.debounce.last == b.debounce.last[slot := now]
              && |r.decoderQueue| + |r.hostQueue| <= |b.decoderQueue| + |b.hostQueue| + 1
              && (ToDecoder(p) ==> r.decoderQueue == Put(b.decoderQueue, CodeOf(p), DECODER_QUEUE_LEN)
                                   && r.hostQueue == b.hostQueue)
              && (!ToDecoder(p) ==> r.hostQueue == Put(b.hostQueue, CodeOf(p), HOST_QUEUE_LEN)
                                    && r.decoderQueue == b.decoderQueue)
  {
    var (suppressed, d) := DebounceSlot(b.debounce, slot, now);
    if suppressed then b
    else if ToDecoder(p) then b.(debounce := d, decoderQueue := Put(b.decoderQueue, CodeOf(p), DECODER_QUEUE_LEN))
    else b.(debounce := d, hostQueue := Put(b.hostQueue, CodeOf(p), HOST_QUEUE_LEN))
  }

  /** The interrupt handlers as written: the debounce slot is the event
      code, so encoder phase A and the encoder button share slot 0. */
  function CallbackAsWritten(b: Board, p: Pin, now: nat): (r: Board)
    requires ValidBoard(b) && now < U64_LIMIT
    ensures ValidBoard(r)
    ensures Elapsed(now, b.debounce.last[CodeOf(p)]) < DEBOUNCE_TIME_MS ==> r == b
    ensures Elapsed(now, b.debounce.last[CodeOf(p)]) >= DEBOUNCE_TIME_MS ==>
              && r.debounce.last == b.debounce.last[CodeOf(p) := now]
              && (ToDecoder(p) ==> r.decoderQueue == Put(b.decoderQueue, CodeOf(p), DECODER_QUEUE_LEN)
                                   && r.hostQueue == b.hostQueue)
              && (!ToDecoder(p) ==> r.hostQueue == Put(b.hostQueue, CodeOf(p), HOST_QUEUE_LEN)
                                    && r.decoderQueue == b.decoderQueue)
  {
    Handle(b, p, CodeOf(p), now)
  }

  /** A slot of its own for every pin. */
  function SlotOf(p: Pin): (s: nat)
    ensures s < TOTAL_EVENT_COUNT
  {
    match p
    case EncoderA => 0
    case EncoderB => 1
    case EncoderButton => 2
    case Front0 => 3
    case Front1 => 4
  }

  /** The interrupt handlers with one debounce time per pin, as the
      per-event debounce is meant to work. */
  function Callback(b: Board, p: Pin, now: nat): (r: Board)
    requires ValidBoard(b) && now < U64_LIMIT
    ensures ValidBoard(r)
    ensures Suppressed(b, p, now) ==> r == b
    ensures !Suppressed(b, p, now) ==>
              && r.debounce.last == b.debounce.last[SlotOf(p) := now]
              && (ToDecoder(p) ==> r.decoderQueue == Put(b.decoderQueue, CodeOf(p), DECODER_QUEUE_LEN) && r.hostQueue == b.hostQueue)
              && (!ToDecoder(p) ==> r.hostQueue == Put(b.hostQueue, CodeOf(p), HOST_QUEUE_LEN) && r.decoderQueue == b.decoderQueue)
  {
    Handle(b, p, SlotOf(p), now)
  }

  /** Whether a pin's event at `now` falls within 8 ms of its last accepted
      one. */
  predicate Suppressed(b: Board, p: Pin, now: nat)
    requires ValidBoard(b) && now < U64_LIMIT
  {
    Elapsed(now, b.debounce.last[SlotOf(p)]) < DEBOUNCE_TIME_MS
  }

  lemma SlotsDistinct(p: Pin, q: Pin)
    requires p != q
    ensures SlotOf(p) != SlotOf(q)
  {
  }

  /** Debouncing one pin never changes whether another pin's next event is
      suppressed. */
  lemma DebounceIndependent(b: Board, p: Pin, q: Pin, now: nat, later: nat)
    requires ValidBoard(b) && now < U64_LIMIT && later < U64_LIMIT && p != q
    ensures Suppressed(Callback(b, p, now), q, later) <==> Suppressed(b, q, later)
  {
    SlotsDistinct(p, q);
  }

  /** An accepted event suppresses every further event of its pin for the
      next 8 ms, and none after that. */
  lemma AcceptedEventDebounces(b: Board, p: Pin, now: nat, later: nat)
    requires ValidBoard(b) && now <= later < U64_LIMIT && !Suppressed(b, p, now)
    ensures Suppressed(Callback(b, p, now), p, later) <==> later < now + DEBOUNCE_TIME_MS
  {
  }

  /** A suppressed event does not extend the quiet period: a bounce at
      now + 5 still lets an event at now + 8 through. */
  lemma BounceDoesNotExtend(b: Board, p: Pin, now: nat)
    requires ValidBoard(b) && now + DEBOUNCE_TIME_MS < U64_LIMIT && !Suppressed(b, p, now)
    ensures var b1 := Callback(b, p, now);
            var b2 := Callback(b1, p, now + 5);
            b2 == b1 && !Suppressed(b2, p, now + DEBOUNCE_TIME_MS)
  {
  }

  /** Since the times start at zero, nothing gets through in the first
      8 ms after boot. */
  lemma BootQuietPeriod(p: Pin, now: nat, dq: seq<nat>, hq: seq<nat>)
    requires now < DEBOUNCE_TIME_MS && |dq| <= DECODER_QUEUE_LEN && |hq| <= HOST_QUEUE_LEN
    ensures Callback(Board(BOOT, dq, hq), p, now) == Board(BOOT, dq, hq)
    ensures CallbackAsWritten(Board(BOOT, dq, hq), p, now) == Board(BOOT, dq, hq)
  {
  }

  /** As written, an encoder edge shadows the encoder button: a click
      3 ms after an accepted phase-A edge is dropped, although the button
      itself has been quiet since boot. */
  lemma ButtonShadowedByEncoder()
    ensures var b0 := Board(BOOT, [], []);
            var b1 := CallbackAsWritten(b0, EncoderA, 100);
            && b1.decoderQueue == [ROTARY_A]
            && CallbackAsWritten(b1, EncoderButton, 103).hostQueue == []
            && Callback(Callback(b0, EncoderA, 100), EncoderButton, 103).hostQueue == [ROTARY_BUTTON]
  {
  }

  /** The host-link queue holds two messages: with nothing drained, two
      front-button presses fill it and a third press is lost, while the
      decoder queue still takes four encoder edges. */
  lemma HostQueueDropsThird()
    ensures var b0 := Board(BOOT, [], []);
            var b3 := Callback(Callback(Callback(b0, Front0, 100), Front1, 100), EncoderButton, 100);
            && b3.hostQueue == [BUTTON_0, BUTTON_1]
            && b3.debounce.last[SlotOf(EncoderButton)] == 100
  {
  }

  /** Whatever was pending, an accepted host event is lost exactly when two
      messages already wait on the host queue. */
  lemma HostEventLostIffFull(b: Board, p: Pin, now: nat)
    requires ValidBoard(b) && now < U64_LIMIT && !ToDecoder(p) && !Suppressed(b, p, now)
    ensures Callback(b, p, now).hostQueue == b.hostQueue <==> |b.hostQueue| == HOST_QUEUE_LEN
  {
  }

  /** Apart from encoder phase A and the button, the pins as written do
      use separate slots, so the handlers agree with the per-pin ones on
      the debounce decision of every other pair. */
  lemma AsWrittenSlotsShared(p: Pin, q: Pin)
    requires p != q
    ensures CodeOf(p) == CodeOf(q) <==> {p, q} == {EncoderA, EncoderButton}
  {
  }

  // ---------------------------------------------------------------------------
  // Quadrature decoding

  /** The phase a turn must show next, given the phase it started with. */
  function Expected(first: nat): (e: nat)
    ensures first == ROTARY_A <==> e == ROTARY_B
  {
    if first == ROTARY_A then ROTARY_B else ROTARY_A
  }

  /** The direction a turn starting with `first` reports: A leading B is a
      turn to the right. */
  function DirOf(first: nat): (d: nat)
    ensures d == ROTARY_RIGHT <==> first == ROTARY_A
    ensures d == ROTARY_LEFT <==> first != ROTARY_A
  {
    if first == ROTARY_A then ROTARY_RIGHT else ROTARY_LEFT
  }

  /** What the queue yields on the i-th one-millisecond poll; polls past
      the recorded ones find it empty. */
  function PollAt(polls: seq<Option<nat>>, i: nat): Option<nat>
  {
    if i < |polls| then polls[i] else None
  }

  /** The first poll from i on, within the 20 allowed, that finds an
      event. */
  function FirstArrival(polls: seq<Option<nat>>, i: nat): (r: Option<nat>)
    ensures r.Some? ==> i <= r.value < MAX_DELAY_ENCODER && PollAt(polls, r.value).Some?
    decreases MAX_DELAY_ENCODER - i
  {
    if i >= MAX_DELAY_ENCODER then None
    else if PollAt(polls, i).Some? then Some(i)
    else FirstArrival(polls, i + 1)
  }

  /** One pass of the decoder from WAIT: the direction it emits, if any. */
  function Outcome(first: nat, polls: seq<Option<nat>>): Option<nat>
  {
    match FirstArrival(polls, 0)
    case None => None
    case Some(i) => if PollAt(polls, i).value == Expected(first) then Some(DirOf(first)) else None
  }

  /** rotary_encoder_entry from WAIT back to WAIT: `first` is the phase
      that woke it, `polls` what each of the following polls found, and
      `hostQueue` the host-link queue as the round starts. Returns the
      direction offered to the host queue, the queue after the K_NO_WAIT put
      (a direction offered to a full queue is lost), and how many polls
      ran. */
  method Decode(first: nat, polls: seq<Option<nat>>, hostQueue: seq<nat>)
    returns (emitted: Option<nat>, hostQueue': seq<nat>, used: nat)
    requires |hostQueue| <= HOST_QUEUE_LEN
    ensures emitted == Outcome(first, polls)
    ensures emitted.None? ==> hostQueue' == hostQueue
    ensures emitted.Some? ==> hostQueue' == Put(hostQueue, emitted.value, HOST_QUEUE_LEN)
    ensures |hostQueue'| <= HOST_QUEUE_LEN
    ensures FirstArrival(polls, 0).Some? ==> used == FirstArrival(polls, 0).value + 1
    ensures FirstArrival(polls, 0).None? ==> used == MAX_DELAY_ENCODER
  {
    hostQueue' := hostQueue;
    var expected := Expected(first);
    var dir := DirOf(first);
    emitted := None;
    used := 0;
    var ms := 0;
    while ms < MAX_DELAY_ENCODER
      invariant 0 <= ms <= MAX_DELAY_ENCODER && used == ms
      invariant FirstArrival(polls, 0) == FirstArrival(polls, ms)
      invariant emitted == None && hostQueue' == hostQueue
    {
      var got := PollAt(polls, ms);
      used := ms + 1;
      if got.Some? {
        if got.value == expected {
          emitted := Some(dir);
          hostQueue' := Put(hostQueue, dir, HOST_QUEUE_LEN);
        }
        return;
      }
      ms := ms + 1;
    }
  }

  /** The first event within the window decides: a direction comes out
      exactly when some poll i < 20 finds the expected phase and every
      earlier poll found the queue empty. */
  lemma {:induction false} OutcomeIff(first: nat, polls: seq<Option<nat>>)
    ensures Outcome(first, polls).Some? <==>
              exists i :: 0 <= i < MAX_DELAY_ENCODER && PollAt(polls, i) == Some(Expected(first))
                          && NoneBefore(polls, i)
    ensures Outcome(first, polls).Some? ==> Outcome(first, polls).value == DirOf(first)
  {
    match FirstArrival(polls, 0)
    case None =>
      forall i | 0 <= i < MAX_DELAY_ENCODER
        ensures PollAt(polls, i).None?
      {
        NoArrivalMeansEmpty(polls, 0, i);
      }
    case Some(k) =>
      ArrivalIsFirst(polls, 0, k);
      if Outcome(first, polls).None? {
        forall i | 0 <= i < MAX_DELAY_ENCODER && PollAt(polls, i) == Some(Expected(first))
          ensures !NoneBefore(polls, i)
        {
          if i > k {
            assert PollAt(polls, k).Some?;
          }
        }
      }
  }

  /** Every poll before i found the queue empty. */
  predicate NoneBefore(polls: seq<Option<nat>>, i: nat)
  {
    forall j :: 0 <= j < i ==> PollAt(polls, j).None?
  }

  lemma {:induction false} NoArrivalMeansEmpty(polls: seq<Option<nat>>, from: nat, i: nat)
    requires FirstArrival(polls, from).None? && from <= i < MAX_DELAY_ENCODER
    ensures PollAt(polls, i).None?
    decreases MAX_DELAY_ENCODER - from
  {
    if from < i {
      NoArrivalMeansEmpty(polls, from + 1, i);
    }
  }

  lemma {:induction false} ArrivalIsFirst(polls: seq<Option<nat>>, from: nat, k: nat)
    requires FirstArrival(polls, from) == Some(k)
    ensures forall j :: from <= j < k ==> PollAt(polls, j).None?
    decreases MAX_DELAY_ENCODER - from
  {
    if from < k {
      ArrivalIsFirst(polls, from + 1, k);
    }
  }

  /** A clean detent, A then B within the window, is a turn to the
      right; B then A is a turn to the left. */
  lemma DetentDirections(gap: nat)
    requires gap < MAX_DELAY_ENCODER
    ensures Outcome(ROTARY_A, Silence(gap) + [Some(ROTARY_B)]) == Some(ROTARY_RIGHT)
    ensures Outcome(ROTARY_B, Silence(gap) + [Some(ROTARY_A)]) == Some(ROTARY_LEFT)
  {
    ArrivalAfterSilence(gap, ROTARY_B);
    ArrivalAfterSilence(gap, ROTARY_A);
  }

  /** A bounce of the same phase, or a partner that comes too late,
      yields nothing. */
  lemma NoisyTurnsIgnored(first: nat, gap: nat)
    requires gap < MAX_DELAY_ENCODER
    ensures Outcome(first, Silence(gap) + [Some(first)]) == None
    ensures Outcome(first, Silence(MAX_DELAY_ENCODER) + [Some(Expected(first))]) == None
  {
    ArrivalAfterSilence(gap, first);
    NoArrivalInSilence(Silence(MAX_DELAY_ENCODER) + [Some(Expected(first))], 0);
  }

  /** n polls that find nothing. */
  function Silence(n: nat): (s: seq<Option<nat>>)
    ensures |s| == n && forall i :: 0 <= i < n ==> s[i].None?
  {
    seq(n, i => None)
  }

  lemma {:induction false} ArrivalAfterSilence(gap: nat, x: nat)
    requires gap < MAX_DELAY_ENCODER
    ensures FirstArrival(Silence(gap) + [Some(x)], 0) == Some(gap)
    ensures PollAt(Silence(gap) + [Some(x)], gap) == Some(x)
  {
    var polls := Silence(gap) + [Some(x)];
    SilentStretch(polls, 0, gap);
  }

  lemma {:induction false} SilentStretch(polls: seq<Option<nat>>, from: nat, gap: nat)
    requires from <= gap < MAX_DELAY_ENCODER && gap < |polls| && polls[gap].Some?
    requires forall j :: from <= j < gap ==> polls[j].None?
    ensures FirstArrival(polls, from) == Some(gap)
    decreases gap - from
  {
    if from < gap {
      SilentStretch(polls, from + 1, gap);
    }
  }

  lemma {:induction false} NoArrivalInSilence(polls: seq<Option<nat>>, from: nat)
    requires forall j :: from <= j < MAX_DELAY_ENCODER ==> PollAt(polls, j).None?
    ensures FirstArrival(polls, from).None?
    decreases MAX_DELAY_ENCODER - from
  {
    if from < MAX_DELAY_ENCODER {
      NoArrivalInSilence(polls, from + 1);
    }
  }

  /** The directions the decoder thread offers the host queue over
      successive wake-ups: each pass offers at most one and then waits
      again. Whether an offer is kept depends on how far the host link has
      drained the queue in between (see Decode). */
  function DecodeRounds(rounds: seq<(nat, seq<Option<nat>>)>): (out: seq<nat>)
    ensures |out| <= |rounds|
    decreases |rounds|
  {
    if |rounds| == 0 then []
    else
      var last := rounds[|rounds| - 1];
      DecodeRounds(rounds[..|rounds| - 1])
        + match Outcome(last.0, last.1) case None => [] case Some(d) => [d]
  }

  /** Every emitted code is a direction. */
  lemma {:induction false} RoundsEmitDirections(rounds: seq<(nat, seq<Option<nat>>)>)
    ensures forall i :: 0 <= i < |DecodeRounds(rounds)| ==>
              DecodeRounds(rounds)[i] == ROTARY_LEFT || DecodeRounds(rounds)[i] == ROTARY_RIGHT
    decreases |rounds|
  {
    if |rounds| > 0 {
      var last := rounds[|rounds| - 1];
      RoundsEmitDirections(rounds[..|rounds| - 1]);
      OutcomeIff(last.0, last.1);
    }
  }
}

=== FILE: round_trip.dfy ===
/**
 * The sensor link end to end: a frame written by encode_tlv on the sensor
 * board, delivered over the serial line in reads of any sizes, is framed
 * by tty_read_frame and dispatched by process_sensor_board_tlv.
 */
module RoundTrip {
  import opened Bytes
  import opened Wire
  import opened Framer
  import opened TlvEncode
  import opened SensorTlv

  /** The bytes of an encoded frame as they go on the wire. */
  function WireFrame(e: Encoded): seq<byte>
    requires e.len <= |e.buffer|
  {
    e.buffer[..e.len]
  }

  /** An encoded frame, as the flat reader sees it at the head of a stream:
      framed whole, with the right size, and the bytes behind it left. */
  lemma EncodedFrameFlat(enc: Encoder, buf: seq<byte>, kind: u32, payload: seq<byte>, cycles: u32,
                         rest: seq<byte>)
    requires FrameLength(|payload|) <= |buf| && FrameLength(|payload|) <= MAX_TLV_SIZE
    ensures var e := EncodeTlv(enc, buf, kind, payload, cycles);
            FlatFrame(WireFrame(e) + rest) == FlatFramed(WireFrame(e)[MAGIC_SIZE..], e.len, rest)
  {
    var e := EncodeTlv(enc, buf, kind, payload, cycles);
    var frame := WireFrame(e);
    EncodeTlvHeader(enc, buf, kind, payload, cycles);
    assert frame[..MAGIC_SIZE] == e.buffer[..MAGIC_SIZE];
    assert frame[TOTAL_LEN_OFFSET..TOTAL_LEN_OFFSET + 4] == e.buffer[TOTAL_LEN_OFFSET..TOTAL_LEN_OFFSET + 4];
    DecodeU32Window(frame, TOTAL_LEN_OFFSET, e.buffer, TOTAL_LEN_OFFSET);
    FlatFrameFirst(frame, rest);
  }

  /** Whatever sizes the reads come in, a handler with nothing pending reads
      an encoded frame whole: the call returns 0, records the frame length,
      holds every byte behind the magic, and leaves the bytes that follow the
      frame unread. */
  lemma EncodedFrameRead(enc: Encoder, buf: seq<byte>, kind: u32, payload: seq<byte>, cycles: u32,
                         h: Handler, inputs: seq<ReadResult>, rest: seq<byte>)
    requires FrameLength(|payload|) <= |buf| && FrameLength(|payload|) <= MAX_TLV_SIZE
    requires HandlerOk(h) && h.port.error == 0 && Pending(h.port) == [] && AllNonEmpty(inputs)
    requires Concat(inputs) == WireFrame(EncodeTlv(enc, buf, kind, payload, cycles)) + rest
    ensures var e := EncodeTlv(enc, buf, kind, payload, cycles);
            var r := ReadFrame(h, inputs);
            && r.0 == Done && r.1.lastSize == e.len
            && r.1.buffer[MAGIC_SIZE..e.len] == e.buffer[MAGIC_SIZE..e.len]
            && StreamOf(Io(r.1.port, r.2)) == rest
  {
    var e := EncodeTlv(enc, buf, kind, payload, cycles);
    var io := Io(h.port, inputs);
    assert StreamOf(io) == WireFrame(e) + rest;
    EncodedFrameFlat(enc, buf, kind, payload, cycles, rest);
    ChunkingInvisible(io, h.buffer, h.lastSize);
    assert WireFrame(e)[MAGIC_SIZE..] == e.buffer[MAGIC_SIZE..e.len];
  }

  /** The host buffer agrees with the encoded one on the record, so the
      decoder sees the record type and the sample the firmware wrote. */
  lemma SameRecord(b: seq<byte>, e: seq<byte>, len: nat)
    requires PAYLOAD_OFFSET + IMU_SAMPLE_SIZE <= len <= |b| && len <= |e|
    requires b[MAGIC_SIZE..len] == e[MAGIC_SIZE..len]
    ensures RecordType(b) == RecordType(e) && Sample(b) == Sample(e)
  {
    forall i | HEADER_SIZE <= i < PAYLOAD_OFFSET + IMU_SAMPLE_SIZE
      ensures b[i] == e[i]
    {
      assert b[i] == b[MAGIC_SIZE..len][i - MAGIC_SIZE];
      assert e[i] == e[MAGIC_SIZE..len][i - MAGIC_SIZE];
    }
    assert b[RECORD_TYPE_OFFSET..RECORD_TYPE_OFFSET + 4] == e[RECORD_TYPE_OFFSET..RECORD_TYPE_OFFSET + 4];
    DecodeU32Window(b, RECORD_TYPE_OFFSET, e, RECORD_TYPE_OFFSET);
  }

  /** End to end: an IMU or UI sample encoded on the sensor board and sent
      in reads of any sizes reaches exactly the queues its type selects,
      byte for byte. */
  lemma SampleDelivered(enc: Encoder, buf: seq<byte>, kind: u32, payload: seq<byte>, cycles: u32,
                        h: Handler, inputs: seq<ReadResult>, rest: seq<byte>)
    requires |payload| == IMU_SAMPLE_SIZE && FrameLength(|payload|) <= |buf|
    requires HandlerOk(h) && h.port.error == 0 && Pending(h.port) == [] && AllNonEmpty(inputs)
    requires Concat(inputs) == WireFrame(EncodeTlv(enc, buf, kind, payload, cycles)) + rest
    ensures var r := SensorIteration(h, inputs);
            && r.status == Done
            && r.sent == if kind == TLV_TYPE_IMU then [Message(ImuTracking, payload), Message(ImuDisplay, payload)]
                         else if kind == TLV_TYPE_UI then [Message(UiEvents, payload)]
                         else []
  {
    var e := EncodeTlv(enc, buf, kind, payload, cycles);
    EncodedFrameRead(enc, buf, kind, payload, cycles, h, inputs, rest);
    EncodedSampleForwarded(enc, buf, kind, payload, cycles);
    var r := ReadFrame(h, inputs);
    SameRecord(r.1.buffer, e.buffer, e.len);
  }
}

=== FILE: screen.dfy ===
/**
 * The screen-bounds guards of the video overlay: what is checked before a
 * point, circle, box, line, text or progress bar is handed to the
 * renderer, and which lines the bounding-box hashes produce. The renderer
 * itself is outside the model; a drawing is the list of shapes it would
 * be given.
 */
module Screen {
  import opened Aim

  const HASH_TARGET_LEN: int := 15

  /** validate_point: true means the point is NOT on the 800 x 600 screen. */
  predicate OffScreen(p: Point)
  {
    p.x < 0 || p.y < 0 || p.x >= SCREEN_WIDTH_PIXELS || p.y >= SCREEN_HEIGHT_PIXELS
  }

  /** A pixel of the screen. */
  predicate OnScreen(p: Point)
  {
    0 <= p.x < SCREEN_WIDTH_PIXELS && 0 <= p.y < SCREEN_HEIGHT_PIXELS
  }

  lemma OffScreenIsNotOnScreen(p: Point)
    ensures OffScreen(p) <==> !OnScreen(p)
  {
  }

  /** validate_circle as written: the vertical extent is checked against the
      screen width. */
  predicate CircleRejectedAsWritten(c: Point, radius: int)
  {
    OffScreen(c)
    || c.x - radius < 0 || c.x + radius > SCREEN_WIDTH_PIXELS
    || c.y - radius < 0 || c.y + radius > SCREEN_WIDTH_PIXELS
  }

  /** validate_circle with the vertical extent checked against the screen
      height. */
  predicate CircleRejected(c: Point, radius: int)
  {
    OffScreen(c)
    || c.x - radius < 0 || c.x + radius > SCREEN_WIDTH_PIXELS
    || c.y - radius < 0 || c.y + radius > SCREEN_HEIGHT_PIXELS
  }

  /** The square around an accepted circle lies on the screen, edges
      included, and every circle whose square does is accepted. */
  lemma CircleAcceptedIffInside(c: Point, radius: int)
    requires radius >= 0
    ensures !CircleRejected(c, radius) <==>
              OnScreen(c) && 0 <= c.x - radius && c.x + radius <= SCREEN_WIDTH_PIXELS
              && 0 <= c.y - radius && c.y + radius <= SCREEN_HEIGHT_PIXELS
  {
  }

  /** As written, the corrected-aim circle (radius 17) centred ten pixels
      above the bottom edge is accepted although it reaches seven pixels
      below the screen. */
  lemma CircleAsWrittenAdmitsOverflow()
    ensures !CircleRejectedAsWritten(Point(400, 590), 17)
    ensures 590 + 17 > SCREEN_HEIGHT_PIXELS
    ensures CircleRejected(Point(400, 590), 17)
  {
  }

  /** validate_box: only the top-left corner is checked. */
  predicate BoxRejected(topLeft: Point, width: int, height: int)
  {
    OffScreen(topLeft)
  }

  /** The box check ignores the size: a box is accepted at any size once
      its corner is on the screen. */
  lemma BoxIgnoresSize(topLeft: Point, w1: int, h1: int, w2: int, h2: int)
    ensures BoxRejected(topLeft, w1, h1) == BoxRejected(topLeft, w2, h2)
    ensures !BoxRejected(topLeft, w1, h1) <==> OnScreen(topLeft)
  {
  }

  datatype Line = Line(start: Point, end: Point)

  /** draw_line: with either end off the screen nothing is added and the
      result is 1; otherwise the line is added and the result is 0. */
  function DrawLine(lines: seq<Line>, start: Point, end: Point): (r: (int, seq<Line>))
    ensures r.0 == 0 <==> OnScreen(start) && OnScreen(end)
    ensures r.0 == 0 || r.0 == 1
    ensures r.0 == 1 ==> r.1 == lines
    ensures r.0 == 0 ==> r.1 == lines + [Line(start, end)]
  {
    if OffScreen(start) || OffScreen(end) then (1, lines) else (0, lines + [Line(start, end)])
  }

  // ---------------------------------------------------------------------------
  // Progress bar

  /** The width of the filled part of the bar: width * (percent / 100) in
      floating point, truncated. The source asserts the percentage lies in
      [0, 100]. */
  function ProgressFill(width: int, percent: int): (fill: int)
    requires 0 <= percent <= 100
  {
    Trunc((width as real * 1.0) * (percent as real / 100.0))
  }

  /** For a bar of non-negative width the fill is the whole-pixel share of
      the width, and so never wider than the bar. */
  lemma ProgressFillShare(width: int, percent: int)
    requires 0 <= percent <= 100 && width >= 0
    ensures ProgressFill(width, percent) == width * percent / 100
    ensures 0 <= ProgressFill(width, percent) <= width
  {
    var x := (width as real * 1.0) * (percent as real / 100.0);
    var q := width * percent / 100;
    assert x == (width * percent) as real / 100.0;
    FloorOfQuotient(width * percent, 100);
    assert width * percent <= width * 100 by {
      MultiplyMonotone(width, percent, 100);
    }
  }

  lemma ProgressFillBounded(width: int, percent: int)
    requires 0 <= percent <= 100
    ensures width >= 0 ==> 0 <= ProgressFill(width, percent) <= width
  {
    if width >= 0 {
      ProgressFillShare(width, percent);
    }
  }

  lemma FloorOfQuotient(a: int, b: int)
    requires a >= 0 && b > 0
    ensures (a as real / b as real).Floor == a / b
  {
    var q, r := a / b, a % b;
    assert a == q * b + r && 0 <= r < b;
    assert a as real == q as real * b as real + r as real;
    assert a as real / b as real == q as real + r as real / b as real;
    assert 0.0 <= r as real / b as real < 1.0;
  }

  lemma MultiplyMonotone(w: int, p: int, q: int)
    requires w >= 0 && p <= q
    ensures w * p <= w * q
  {
  }

  /** The two rectangles of draw_progress_bar: the fill, one pixel right of
      the corner, and the outline. */
  datatype Rect = Rect(left: int, top: int, width: int, height: int)

  function ProgressRects(corner: Point, width: int, height: int, percent: int): (r: (Rect, Rect))
    requires 0 <= percent <= 100
    ensures r.1 == Rect(corner.x, corner.y, width, height)
    ensures r.0.left == corner.x + 1 && r.0.top == corner.y && r.0.height == height
    ensures width >= 0 ==> 0 <= r.0.width <= r.1.width
  {
    ProgressFillBounded(width, percent);
    (Rect(corner.x + 1, corner.y, ProgressFill(width, percent), height), Rect(corner.x, corner.y, width, height))
  }

  // ---------------------------------------------------------------------------
  // Bounding-box hashes

  datatype Corner = NW | NE | SW | SE

  /** The corner of the box each hash sits on. */
  function CornerPoint(b: Box, k: Corner): Point
  {
    match k
    case NW => Point(b.left, b.top)
    case NE => Point(b.left + b.width, b.top)
    case SW => Point(b.left, b.top + b.height)
    case SE => Point(b.left + b.width, b.top + b.height)
  }

  predicate West(k: Corner) { k == NW || k == SW }
  predicate North(k: Corner) { k == NW || k == NE }

  /** An end point lies on the box's side of corner k's two edges. */
  predicate TowardsBox(k: Corner, c: Point, e: Point)
  {
    && (if West(k) then e.x >= c.x else e.x <= c.x)
    && (if North(k) then e.y >= c.y else e.y <= c.y)
  }

  /** A stroke from c to e of the hash length along one axis. */
  predicate AxisStroke(c: Point, e: Point)
  {
    || (e.y == c.y && (e.x == c.x + HASH_TARGET_LEN || e.x == c.x - HASH_TARGET_LEN))
    || (e.x == c.x && (e.y == c.y + HASH_TARGET_LEN || e.y == c.y - HASH_TARGET_LEN))
  }

  /** The two strokes of a corner hash: one horizontal and one vertical,
      each 15 pixels long and pointing into the box. */
  function Strokes(k: Corner, c: Point): (ends: (Point, Point))
    ensures AxisStroke(c, ends.0) && AxisStroke(c, ends.1)
    ensures (ends.0.y == c.y && ends.1.x == c.x) || (ends.0.x == c.x && ends.1.y == c.y)
    ensures TowardsBox(k, c, ends.0) && TowardsBox(k, c, ends.1)
  {
    match k
    case NW => (Point(c.x + HASH_TARGET_LEN, c.y), Point(c.x, c.y + HASH_TARGET_LEN))
    case NE => (Point(c.x - HASH_TARGET_LEN, c.y), Point(c.x, c.y + HASH_TARGET_LEN))
    case SW => (Point(c.x, c.y - HASH_TARGET_LEN), Point(c.x + HASH_TARGET_LEN, c.y))
    case SE => (Point(c.x, c.y - HASH_TARGET_LEN), Point(c.x - HASH_TARGET_LEN, c.y))
  }

  /** A point of the box, edges included. */
  predicate InBox(b: Box, p: Point)
  {
    b.left <= p.x <= b.left + b.width && b.top <= p.y <= b.top + b.height
  }

  /** On a box at least 15 pixels each way, every hash stroke ends inside
      the box, so the hashes mark its corners from within. */
  lemma StrokesInsideBox(b: Box, k: Corner)
    requires b.width >= HASH_TARGET_LEN && b.height >= HASH_TARGET_LEN
    ensures var ends := Strokes(k, CornerPoint(b, k));
            InBox(b, ends.0) && InBox(b, ends.1)
  {
  }

  /** draw_bounding_box_corner: both strokes through draw_line. */
  function DrawCorner(lines: seq<Line>, k: Corner, c: Point): seq<Line>
  {
    var (e1, e2) := Strokes(k, c);
    DrawLine(DrawLine(lines, c, e1).1, c, e2).1
  }

  /** draw_bounding_hashes: nothing for a box marked invalid; otherwise the
      four corner hashes, NW, NE, SW, SE. */
  function DrawHashes(lines: seq<Line>, b: Box, valid: bool): (r: seq<Line>)
    ensures !valid ==> r == lines
  {
    if !valid then lines
    else
      var l1 := DrawCorner(lines, NW, CornerPoint(b, NW));
      var l2 := DrawCorner(l1, NE, CornerPoint(b, NE));
      var l3 := DrawCorner(l2, SW, CornerPoint(b, SW));
      DrawCorner(l3, SE, CornerPoint(b, SE))
  }

  /** A hash stroke starts on its corner and lies wholly on the screen; at
      most two strokes per corner are added and the earlier lines stay. */
  lemma DrawCornerAdds(lines: seq<Line>, k: Corner, c: Point)
    ensures var r := DrawCorner(lines, k, c);
            && |lines| <= |r| <= |lines| + 2 && r[..|lines|] == lines
            && forall i :: |lines| <= i < |r| ==> r[i].start == c && OnScreen(r[i].start) && OnScreen(r[i].end)
  {
  }

  /** A box whose corners all sit at least 15 pixels inside the screen gets
      all eight strokes. */
  lemma InnerBoxGetsEightStrokes(lines: seq<Line>, b: Box)
    requires b.width >= 0 && b.height >= 0
    requires HASH_TARGET_LEN <= b.left && b.left + b.width + HASH_TARGET_LEN < SCREEN_WIDTH_PIXELS
    requires HASH_TARGET_LEN <= b.top && b.top + b.height + HASH_TARGET_LEN < SCREEN_HEIGHT_PIXELS
    ensures |DrawHashes(lines, b, true)| == |lines| + 8
  {
  }

  /** Every stroke of the hashes starts on one of the four box corners and
      lies on the screen; the lines drawn before are kept. */
  lemma HashesOnCorners(lines: seq<Line>, b: Box)
    ensures var r := DrawHashes(lines, b, true);
            && |lines| <= |r| <= |lines| + 8 && r[..|lines|] == lines
            && forall i :: |lines| <= i < |r| ==>
                 OnScreen(r[i].start) && OnScreen(r[i].end)
                 && r[i].start in {CornerPoint(b, NW), CornerPoint(b, NE), CornerPoint(b, SW), CornerPoint(b, SE)}
  {
    var l1 := DrawCorner(lines, NW, CornerPoint(b, NW));
    var l2 := DrawCorner(l1, NE, CornerPoint(b, NE));
    var l3 := DrawCorner(l2, SW, CornerPoint(b, SW));
    var l4 := DrawCorner(l3, SE, CornerPoint(b, SE));
    DrawCornerAdds(lines, NW, CornerPoint(b, NW));
    DrawCornerAdds(l1, NE, CornerPoint(b, NE));
    DrawCornerAdds(l2, SW, CornerPoint(b, SW));
    DrawCornerAdds(l3, SE, CornerPoint(b, SE));
    assert l2[..|l1|] == l1 && l3[..|l2|] == l2 && l4[..|l3|] == l3;
    forall i | |lines| <= i < |l4|
      ensures OnScreen(l4[i].start) && OnScreen(l4[i].end)
      ensures l4[i].start in {CornerPoint(b, NW), CornerPoint(b, NE), CornerPoint(b, SW), CornerPoint(b, SE)}
    {
      if i < |l1| {
        assert l4[i] == l1[i] by { PrefixChain(l1, l2, l3, l4, i); }
      } else if i < |l2| {
        assert l4[i] == l2[i] by { assert l4[i] == l3[i] == l2[i]; }
      } else if i < |l3| {
        assert l4[i] == l3[i];
      }
    }
    assert l4[..|lines|] == lines by {
      PrefixOfPrefix(lines, l1, l2, l3, l4);
    }
  }

  lemma PrefixChain(l1: seq<Line>, l2: seq<Line>, l3: seq<Line>, l4: seq<Line>, i: nat)
    requires |l1| <= |l2| <= |l3| <= |l4| && i < |l1|
    requires l2[..|l1|] == l1 && l3[..|l2|] == l2 && l4[..|l3|] == l3
    ensures l4[i] == l1[i]
  {
    assert l4[i] == l4[..|l3|][i] == l3[i];
    assert l3[i] == l3[..|l2|][i] == l2[i];
    assert l2[i] == l2[..|l1|][i] == l1[i];
  }

  lemma PrefixOfPrefix(l0: seq<Line>, l1: seq<Line>, l2: seq<Line>, l3: seq<Line>, l4: seq<Line>)
    requires |l0| <= |l1| <= |l2| <= |l3| <= |l4|
    requires l1[..|l0|] == l0 && l2[..|l1|] == l1 && l3[..|l2|] == l2 && l4[..|l3|] == l3
    ensures l4[..|l0|] == l0
  {
    forall i | 0 <= i < |l0|
      ensures l4[i] == l0[i]
    {
      PrefixChain(l1, l2, l3, l4, i);
      assert l1[i] == l1[..|l0|][i];
    }
  }

  // ---------------------------------------------------------------------------
  // Text

  /** text_overlay_t: the position and the string. */
  datatype Text = Text(x: int, y: int, str: string)

  function TextPoint(t: Text): Point { Point(t.x, t.y) }

  /** draw_text_api as written: an off-screen text is skipped, but the text
      pointer only advances after a text is drawn, so the same off-screen
      text is checked again for every remaining iteration. */
  function DrawTextsAsWritten(texts: seq<Text>, p: nat, remaining: nat): (r: seq<Text>)
    requires p + remaining <= |texts|
    decreases remaining
  {
    if remaining == 0 then []
    else if OffScreen(TextPoint(texts[p])) then DrawTextsAsWritten(texts, p, remaining - 1)
    else [texts[p]] + DrawTextsAsWritten(texts, p + 1, remaining - 1)
  }

  /** draw_text_api as meant: every on-screen text is drawn, in order, and
      every off-screen one skipped. */
  function DrawTexts(texts: seq<Text>): (r: seq<Text>)
    ensures |r| <= |texts|
  {
    if |texts| == 0 then []
    else if OffScreen(TextPoint(texts[0])) then DrawTexts(texts[1..])
    else [texts[0]] + DrawTexts(texts[1..])
  }

  /** The texts drawn are exactly the on-screen texts given. */
  lemma {:induction false} DrawTextsMembers(texts: seq<Text>, t: Text)
    ensures t in DrawTexts(texts) <==> t in texts && OnScreen(TextPoint(t))
  {
    if |texts| > 0 {
      DrawTextsMembers(texts[1..], t);
      assert texts == [texts[0]] + texts[1..];
    }
  }

  /** As written, once a text is off the screen nothing after it is drawn:
      the result is the run of on-screen texts up to the first off-screen
      one. */
  lemma {:induction false} AsWrittenStopsAtOffScreen(texts: seq<Text>, p: nat, remaining: nat)
    requires p + remaining <= |texts|
    decreases remaining
    ensures var r := DrawTextsAsWritten(texts, p, remaining);
            && |r| <= remaining
            && DrawnRun(texts, p, r)
            && (|r| < remaining ==> OffScreen(TextPoint(texts[p + |r|])))
  {
    if remaining > 0 {
      if OffScreen(TextPoint(texts[p])) {
        StuckDrawsNothing(texts, p, remaining - 1);
      } else {
        AsWrittenStopsAtOffScreen(texts, p + 1, remaining - 1);
        var rest := DrawTextsAsWritten(texts, p + 1, remaining - 1);
        OffScreenIsNotOnScreen(TextPoint(texts[p]));
        RunCons(texts, p, rest);
        assert DrawTextsAsWritten(texts, p, remaining) == [texts[p]] + rest;
      }
    }
  }

  /** r is the run of texts from position p on, every one of them on the
      screen. */
  predicate DrawnRun(texts: seq<Text>, p: nat, r: seq<Text>)
  {
    p + |r| <= |texts| && forall i :: 0 <= i < |r| ==> r[i] == texts[p + i] && OnScreen(TextPoint(texts[p + i]))
  }

  /** An on-screen text followed by a run of on-screen texts read from the
      next position is a run read from its own position. */
  lemma RunCons(texts: seq<Text>, p: nat, rest: seq<Text>)
    requires p < |texts| && OnScreen(TextPoint(texts[p])) && DrawnRun(texts, p + 1, rest)
    ensures DrawnRun(texts, p, [texts[p]] + rest)
  {
    var r := [texts[p]] + rest;
    forall i | 0 <= i < |r|
      ensures r[i] == texts[p + i] && OnScreen(TextPoint(texts[p + i]))
    {
      if i > 0 {
        assert r[i] == rest[i - 1];
      }
    }
  }

  lemma {:induction false} StuckDrawsNothing(texts: seq<Text>, p: nat, remaining: nat)
    requires p + remaining <= |texts| && p < |texts| && OffScreen(TextPoint(texts[p]))
    decreases remaining
    ensures DrawTextsAsWritten(texts, p, remaining) == []
  {
    if remaining > 0 {
      StuckDrawsNothing(texts, p, remaining - 1);
    }
  }

  /** With one text, as every caller passes, the two agree. */
  lemma SingleTextAgrees(t: Text)
    ensures DrawTextsAsWritten([t], 0, 1) == DrawTexts([t])
  {
  }

  /** An off-screen text followed by an on-screen one: as written nothing is
      drawn; the on-screen text should be. */
  lemma AsWrittenDropsLaterText()
    ensures DrawTextsAsWritten([Text(-1, 0, "A"), Text(10, 10, "B")], 0, 2) == []
    ensures DrawTexts([Text(-1, 0, "A"), Text(10, 10, "B")]) == [Text(10, 10, "B")]
  {
    var texts := [Text(-1, 0, "A"), Text(10, 10, "B")];
    assert texts[1..] == [Text(10, 10, "B")];
    assert texts[1..][1..] == [];
  }
}

=== FILE: sensor_tlv.dfy ===
/**
 * The sensor-board side of the TLV processor: process_sensor_board_tlv picks
 * the record type at offset 40 and forwards the sample at offset 48 to the
 * IMU queues or the UI queue, and the main loop that feeds it. Queues are
 * modelled as the list of messages sent.
 */
module SensorTlv {
  import opened Bytes
  import opened Wire
  import opened Framer
  import opened TlvEncode

  const TLV_TYPE_IMU: u32 := 0
  const TLV_TYPE_UI: u32 := 1
  /** sizeof(imu_t): six floats and a u32 cycle count. */
  const IMU_SAMPLE_SIZE: nat := 28

  datatype Queue = ImuTracking | ImuDisplay | UiEvents

  /** One mq_enqueue: the queue and the bytes handed to it. */
  datatype Message = Message(queue: Queue, data: seq<byte>)

  /** The sizeof(imu_t) bytes behind the first record header, whatever the
      record's own length says. */
  function Sample(buff: seq<byte>): (r: seq<byte>)
    requires |buff| >= PAYLOAD_OFFSET + IMU_SAMPLE_SIZE
    ensures |r| == IMU_SAMPLE_SIZE
  {
    buff[PAYLOAD_OFFSET..PAYLOAD_OFFSET + IMU_SAMPLE_SIZE]
  }

  function RecordType(buff: seq<byte>): u32
    requires |buff| >= PAYLOAD_OFFSET
  {
    DecodeU32(buff, RECORD_TYPE_OFFSET)
  }

  /** process_sensor_board_tlv with process_sensor_tlv: an IMU record goes to
      the tracking and the display queue, a UI record to the UI queue, any
      other type nowhere. */
  function ProcessSensorBoardTlv(buff: seq<byte>): (sent: seq<Message>)
    requires |buff| >= PAYLOAD_OFFSET + IMU_SAMPLE_SIZE
    ensures forall i :: 0 <= i < |sent| ==> sent[i].data == Sample(buff)
    ensures |sent| <= 2
  {
    var sample := Sample(buff);
    if RecordType(buff) == TLV_TYPE_IMU then
      [Message(ImuTracking, sample), Message(ImuDisplay, sample)]
    else if RecordType(buff) == TLV_TYPE_UI then
      [Message(UiEvents, sample)]
    else []
  }

  /** The queues a list of messages went to. */
  function Queues(sent: seq<Message>): set<Queue>
  {
    set i | 0 <= i < |sent| :: sent[i].queue
  }

  /** Which queues hear of a frame depends only on its record type: both IMU
      queues exactly for type 0, the UI queue exactly for type 1, and every
      queue is sent at most one message. */
  lemma DispatchByType(buff: seq<byte>)
    requires |buff| >= PAYLOAD_OFFSET + IMU_SAMPLE_SIZE
    ensures var sent := ProcessSensorBoardTlv(buff);
            && (ImuTracking in Queues(sent) <==> RecordType(buff) == TLV_TYPE_IMU)
            && (ImuDisplay in Queues(sent) <==> RecordType(buff) == TLV_TYPE_IMU)
            && (UiEvents in Queues(sent) <==> RecordType(buff) == TLV_TYPE_UI)
            && |sent| == |Queues(sent)|
  {
    var sent := ProcessSensorBoardTlv(buff);
    if RecordType(buff) == TLV_TYPE_IMU {
      assert sent[0].queue == ImuTracking && sent[1].queue == ImuDisplay;
      assert Queues(sent) == {ImuTracking, ImuDisplay};
    } else if RecordType(buff) == TLV_TYPE_UI {
      assert sent[0].queue == UiEvents;
      assert Queues(sent) == {UiEvents};
    } else {
      assert Queues(sent) == {};
    }
  }

  /** What the firmware encodes is what the host forwards: a record of a known
      type with a full imu_t payload reaches its queues byte for byte. */
  lemma EncodedSampleForwarded(enc: Encoder, buf: seq<byte>, kind: u32, payload: seq<byte>, cycles: u32)
    requires FrameLength(|payload|) <= |buf| && |payload| == IMU_SAMPLE_SIZE
    ensures var b := EncodeTlv(enc, buf, kind, payload, cycles).buffer;
            ProcessSensorBoardTlv(b)
            == if kind == TLV_TYPE_IMU then [Message(ImuTracking, payload), Message(ImuDisplay, payload)]
               else if kind == TLV_TYPE_UI then [Message(UiEvents, payload)]
               else []
  {
    EncodeTlvRecord(enc, buf, kind, payload, cycles);
  }

  /** The enqueued size is always sizeof(imu_t): a shorter record is padded
      with whatever the buffer held behind it. */
  lemma ShortRecordPaddedWithStaleBytes(enc: Encoder, buf: seq<byte>, kind: u32, payload: seq<byte>,
                                        cycles: u32)
    requires |buf| >= PAYLOAD_OFFSET + IMU_SAMPLE_SIZE && |payload| < IMU_SAMPLE_SIZE
    ensures var b := EncodeTlv(enc, buf, kind, payload, cycles).buffer;
            Sample(b) == payload + buf[PAYLOAD_OFFSET + |payload|..PAYLOAD_OFFSET + IMU_SAMPLE_SIZE]
  {
    var r := EncodeTlv(enc, buf, kind, payload, cycles);
    EncodeTlvRecord(enc, buf, kind, payload, cycles);
    var n := PAYLOAD_OFFSET + |payload|;
    assert r.len == n;
    assert r.buffer[n..PAYLOAD_OFFSET + IMU_SAMPLE_SIZE] == buf[n..PAYLOAD_OFFSET + IMU_SAMPLE_SIZE] by {
      assert r.buffer[n..] == buf[n..];
      assert r.buffer[n..PAYLOAD_OFFSET + IMU_SAMPLE_SIZE] == r.buffer[n..][..IMU_SAMPLE_SIZE - |payload|];
      assert buf[n..PAYLOAD_OFFSET + IMU_SAMPLE_SIZE] == buf[n..][..IMU_SAMPLE_SIZE - |payload|];
    }
    JoinSlices(r.buffer, PAYLOAD_OFFSET, n, PAYLOAD_OFFSET + IMU_SAMPLE_SIZE);
  }

  // ---------------------------------------------------------------------------
  // The main loop

  /** One pass of the sensor main loop: the framer's status, the handler and
      the reads left afterwards, and the messages sent. */
  datatype Iteration = Iteration(status: Status, handler: Handler, rest: seq<ReadResult>,
                                 sent: seq<Message>)

  /** One pass of main: tty_read_frame, whose result is ignored, then the
      dispatch of whatever the frame buffer holds. A call that does not
      return (no more reads, or the unchecked error paths) sends nothing. */
  function SensorIteration(h: Handler, inputs: seq<ReadResult>): (r: Iteration)
    requires HandlerOk(h)
    ensures HandlerOk(r.handler)
    ensures r.status == Done || r.status == Reset ==>
              r.sent == ProcessSensorBoardTlv(LastProcessed(r.handler).buff)
    ensures r.status == Starved || r.status == Unhandled ==> r.sent == []
  {
    var (st, h', rest) := ReadFrame(h, inputs);
    var sent := if st == Done || st == Reset then ProcessSensorBoardTlv(LastProcessed(h').buff) else [];
    Iteration(st, h', rest, sent)
  }

  /** The loop does not act on REQUEST_RESET: the pass that gets it still
      dispatches the half-filled buffer, and the next pass runs into the
      unchecked negative read result and sends nothing. */
  lemma ResetNotActedOn(h: Handler, inputs: seq<ReadResult>)
    requires HandlerOk(h) && SensorIteration(h, inputs).status == Reset
    ensures var r := SensorIteration(h, inputs);
            && r.sent == ProcessSensorBoardTlv(r.handler.buffer)
            && SensorIteration(r.handler, r.rest).status == Unhandled
            && SensorIteration(r.handler, r.rest).sent == []
  {
    var r := SensorIteration(h, inputs);
    CallAfterResetUnhandled(r.handler, r.rest);
  }
}

=== FILE: tlv_encode.dfy ===
/**
 * encode_tlv on the sensor board: a frame header, one record header and the
 * payload, written in place over a caller-owned buffer. Header fields the
 * firmware never assigns keep whatever the buffer held before.
 */
module TlvEncode {
  import opened Bytes
  import opened Wire

  /** The firmware's static frame counter (tlvNumber). */
  datatype Encoder = Encoder(tlvNumber: u32)

  datatype Encoded = Encoded(len: nat, buffer: seq<byte>, encoder: Encoder)

  /** The magic words as the little-endian CPU lays them out. */
  function MagicBytes(): (r: seq<byte>)
    ensures r == MAGIC
  {
    MagicWordsSerialise();
    EncodeU16(MAGIC_WORDS[0]) + EncodeU16(MAGIC_WORDS[1])
      + EncodeU16(MAGIC_WORDS[2]) + EncodeU16(MAGIC_WORDS[3])
  }

  /** Total frame length for a payload: header, record header, payload. */
  function FrameLength(payloadLen: nat): nat
  {
    HEADER_SIZE + RECORD_HEADER_SIZE + payloadLen
  }

  /** The 40-byte frame header encode_tlv_header writes; fields it does not
      assign are taken from the old buffer contents. */
  function Header(enc: Encoder, prior: seq<byte>, len: nat, cycles: u32): (r: seq<byte>)
    requires |prior| >= HEADER_SIZE
    ensures |r| == HEADER_SIZE
  {
    MagicBytes() + prior[8..12] + EncodeU32(ToU32(len)) + prior[16..20]
      + EncodeU32(enc.tlvNumber) + EncodeU32(cycles) + prior[28..40]
  }

  /** The record header encode_tlv_message writes: type, then length. */
  function RecordHeader(kind: u32, payloadLen: nat): (r: seq<byte>)
    ensures |r| == RECORD_HEADER_SIZE
  {
    EncodeU32(kind) + EncodeU32(ToU32(payloadLen))
  }

  /** encode_tlv: writes header, record header and payload into `buf`, returns
      the frame length and advances the frame counter. The size_t lengths are
      stored into u32 fields, so they are reduced modulo 2^32. */
  function EncodeTlv(enc: Encoder, buf: seq<byte>, kind: u32, payload: seq<byte>, cycles: u32)
    : (r: Encoded)
    requires FrameLength(|payload|) <= |buf|
    ensures r.len == HEADER_SIZE + RECORD_HEADER_SIZE + |payload|
    ensures |r.buffer| == |buf|
    ensures r.encoder.tlvNumber == (enc.tlvNumber + 1) % U32_LIMIT
  {
    var len := FrameLength(|payload|);
    Encoded(len, Header(enc, buf, len, cycles) + RecordHeader(kind, |payload|) + payload + buf[len..],
            Encoder(ToU32(enc.tlvNumber + 1)))
  }

  /** Where each piece of the header lands. */
  lemma HeaderSlices(enc: Encoder, prior: seq<byte>, len: nat, cycles: u32)
    requires |prior| >= HEADER_SIZE
    ensures var h := Header(enc, prior, len, cycles);
            && h[..MAGIC_SIZE] == MAGIC
            && h[8..12] == prior[8..12] && h[16..20] == prior[16..20] && h[28..40] == prior[28..40]
            && h[12..16] == EncodeU32(ToU32(len))
            && h[20..24] == EncodeU32(enc.tlvNumber)
            && h[24..28] == EncodeU32(cycles)
  {
  }

  /** The header fields read back as written: magic, total length, frame
      number and cycle count; the unassigned fields are left alone. */
  lemma EncodeTlvHeader(enc: Encoder, buf: seq<byte>, kind: u32, payload: seq<byte>, cycles: u32)
    requires FrameLength(|payload|) <= |buf|
    ensures var r := EncodeTlv(enc, buf, kind, payload, cycles);
            && r.buffer[..MAGIC_SIZE] == MAGIC
            && (r.len < U32_LIMIT ==> DecodeU32(r.buffer, TOTAL_LEN_OFFSET) == r.len)
            && DecodeU32(r.buffer, FRAME_NUMBER_OFFSET) == enc.tlvNumber
            && DecodeU32(r.buffer, CPU_CYCLES_OFFSET) == cycles
            && r.buffer[8..12] == buf[8..12] && r.buffer[16..20] == buf[16..20]
            && r.buffer[28..40] == buf[28..40]
  {
    var r := EncodeTlv(enc, buf, kind, payload, cycles);
    assert r.buffer[..HEADER_SIZE] == Header(enc, buf, r.len, cycles);
    HeaderFields(r.buffer, enc, buf, r.len, cycles);
  }

  /** A buffer opening with the header reads back its fields. */
  lemma HeaderFields(b: seq<byte>, enc: Encoder, prior: seq<byte>, len: nat, cycles: u32)
    requires |prior| >= HEADER_SIZE && |b| >= HEADER_SIZE
    requires b[..HEADER_SIZE] == Header(enc, prior, len, cycles)
    ensures b[..MAGIC_SIZE] == MAGIC
    ensures len < U32_LIMIT ==> DecodeU32(b, TOTAL_LEN_OFFSET) == len
    ensures DecodeU32(b, FRAME_NUMBER_OFFSET) == enc.tlvNumber
    ensures DecodeU32(b, CPU_CYCLES_OFFSET) == cycles
    ensures b[8..12] == prior[8..12] && b[16..20] == prior[16..20] && b[28..40] == prior[28..40]
  {
    var h := Header(enc, prior, len, cycles);
    HeaderSlices(enc, prior, len, cycles);
    SubSlice(b, h, 0, MAGIC_SIZE);
    SubSlice(b, h, 8, 12);
    SubSlice(b, h, 12, 16);
    SubSlice(b, h, 16, 20);
    SubSlice(b, h, 20, 24);
    SubSlice(b, h, 24, 28);
    SubSlice(b, h, 28, 40);
    FieldAt(b, TOTAL_LEN_OFFSET, ToU32(len));
    FieldAt(b, FRAME_NUMBER_OFFSET, enc.tlvNumber);
    FieldAt(b, CPU_CYCLES_OFFSET, cycles);
  }

  /** A slice of a prefix is the same slice of the whole. */
  lemma SubSlice(b: seq<byte>, h: seq<byte>, i: nat, j: nat)
    requires |h| <= |b| && b[..|h|] == h && i <= j <= |h|
    ensures b[i..j] == h[i..j]
  {
    assert forall k :: i <= k < j ==> b[k] == b[..|h|][k];
  }

  /** The record header and payload read back as written, and the buffer past
      the frame is left alone. */
  lemma EncodeTlvRecord(enc: Encoder, buf: seq<byte>, kind: u32, payload: seq<byte>, cycles: u32)
    requires FrameLength(|payload|) <= |buf|
    ensures var r := EncodeTlv(enc, buf, kind, payload, cycles);
            && DecodeU32(r.buffer, RECORD_TYPE_OFFSET) == kind
            && (|payload| < U32_LIMIT ==> DecodeU32(r.buffer, RECORD_LENGTH_OFFSET) == |payload|)
            && r.buffer[PAYLOAD_OFFSET..r.len] == payload
            && r.buffer[r.len..] == buf[r.len..]
  {
    var r := EncodeTlv(enc, buf, kind, payload, cycles);
    RecordLayout(r.buffer, Header(enc, buf, r.len, cycles), kind, ToU32(|payload|), payload, buf[r.len..]);
    if |payload| < U32_LIMIT {
      assert ToU32(|payload|) == |payload|;
    }
  }

  /** A frame laid out as header, record header, payload and tail reads
      back its record type, record length, payload and tail. */
  lemma RecordLayout(b: seq<byte>, h: seq<byte>, kind: u32, len: u32, payload: seq<byte>, tail: seq<byte>)
    requires |h| == HEADER_SIZE
    requires b == h + (EncodeU32(kind) + EncodeU32(len)) + payload + tail
    ensures DecodeU32(b, RECORD_TYPE_OFFSET) == kind
    ensures DecodeU32(b, RECORD_LENGTH_OFFSET) == len
    ensures b[PAYLOAD_OFFSET..PAYLOAD_OFFSET + |payload|] == payload
    ensures b[PAYLOAD_OFFSET + |payload|..] == tail
  {
    var rec := EncodeU32(kind) + EncodeU32(len);
    FourParts(h, rec, payload, tail);
    RecordFields(b, kind, len);
  }

  /** A record header at offset 40 reads back as its type and length. */
  lemma RecordFields(b: seq<byte>, kind: u32, len: u32)
    requires |b| >= PAYLOAD_OFFSET
    requires b[HEADER_SIZE..PAYLOAD_OFFSET] == EncodeU32(kind) + EncodeU32(len)
    ensures DecodeU32(b, RECORD_TYPE_OFFSET) == kind
    ensures DecodeU32(b, RECORD_LENGTH_OFFSET) == len
  {
    var rec := b[HEADER_SIZE..PAYLOAD_OFFSET];
    assert b[40..44] == rec[..4];
    assert b[44..48] == rec[4..];
    FieldAt(b, RECORD_TYPE_OFFSET, kind);
    FieldAt(b, RECORD_LENGTH_OFFSET, len);
  }

  lemma FourParts(a: seq<byte>, b: seq<byte>, c: seq<byte>, d: seq<byte>)
    ensures var s := a + b + c + d;
            && s[..|a|] == a && s[|a|..|a| + |b|] == b
            && s[|a| + |b|..|a| + |b| + |c|] == c && s[|a| + |b| + |c|..] == d
  {
  }

  /** A u32 field whose bytes sit at `off` decodes to the encoded value. */
  lemma FieldAt(s: seq<byte>, off: nat, x: u32)
    requires off + 4 <= |s|
    requires s[off..off + 4] == EncodeU32(x)
    ensures DecodeU32(s, off) == x
  {
    DecodeEncodeU32(x);
    DecodeU32Window(s, off, EncodeU32(x), 0);
  }

  /** Successive encodes number their frames consecutively, wrapping at 2^32. */
  lemma FrameNumbersConsecutive(enc: Encoder, buf: seq<byte>, kind: u32, payload: seq<byte>,
                                cycles: u32, kind': u32, payload': seq<byte>, cycles': u32)
    requires FrameLength(|payload|) <= |buf| && FrameLength(|payload'|) <= |buf|
    ensures var first := EncodeTlv(enc, buf, kind, payload, cycles);
            var second := EncodeTlv(first.encoder, first.buffer, kind', payload', cycles');
            DecodeU32(second.buffer, FRAME_NUMBER_OFFSET)
              == (DecodeU32(first.buffer, FRAME_NUMBER_OFFSET) + 1) % U32_LIMIT
  {
    var first := EncodeTlv(enc, buf, kind, payload, cycles);
    EncodeTlvHeader(enc, buf, kind, payload, cycles);
    EncodeTlvHeader(first.encoder, first.buffer, kind', payload', cycles');
  }
}

=== FILE: ui_mailbox.dfy ===
/**
 * The host's UI thread: it receives one message per rotary event from the
 * sensor board's queue, keeps the rotary ones, and parks the latest in a
 * single-slot mailbox that the menu drains once per frame
 * (scope-deepstream/ui.c).
 */
module UiMailbox {
  import opened Options
  import opened Bytes
  import Menu

  /** The numeric event codes shared with the sensor board (ui_event_e). */
  const ROTARY_BUTTON: nat := 0
  const ROTARY_LEFT: nat := 1
  const ROTARY_RIGHT: nat := 2
  const BUTTON_0: nat := 3
  const BUTTON_1: nat := 4
  /** The code the mailbox holds while nothing is pending. */
  const TOTAL_EVENT_COUNT: nat := 5

  /** The mailbox slot: an event code, TOTAL_EVENT_COUNT when empty. */
  datatype Mailbox = Mailbox(code: nat)

  const EMPTY: Mailbox := Mailbox(TOTAL_EVENT_COUNT)

  predicate Pending(m: Mailbox)
  {
    m.code != TOTAL_EVENT_COUNT
  }

  /** Only forwarded codes ever reach the slot. */
  predicate Valid(m: Mailbox)
  {
    m.code <= ROTARY_RIGHT || m.code == TOTAL_EVENT_COUNT
  }

  /** fetch_new_event: hands out the pending event and empties the slot;
      with nothing pending it reports false and leaves the caller's
      output variable as it was. */
  function Fetch(m: Mailbox, out: nat): (r: (bool, nat, Mailbox))
    ensures r.0 <==> Pending(m)
    ensures r.0 ==> r.1 == m.code
    ensures !r.0 ==> r.1 == out && r.2 == m
    ensures !Pending(r.2)
  {
    if m.code != TOTAL_EVENT_COUNT then (true, m.code, EMPTY) else (false, out, m)
  }

  /** set_new_event: the new event replaces whatever was pending. */
  function Set(m: Mailbox, code: nat): (r: Mailbox)
    ensures Pending(r) <==> code != TOTAL_EVENT_COUNT
  {
    Mailbox(code)
  }

  /** Whether get_ui_event passes an event code on to the mailbox. */
  predicate Forwarded(code: nat)
  {
    code == ROTARY_BUTTON || code == ROTARY_LEFT || code == ROTARY_RIGHT
  }

  /** get_ui_event on one receive: a failed receive (None) changes
      nothing; otherwise the event is the first byte of the message, and
      only the three rotary events are posted. The message queue never
      delivers an empty message: the host forwards each UI record as a
      fixed-size sample. */
  function Receive(m: Mailbox, msg: Option<seq<byte>>): (r: Mailbox)
    requires msg.Some? ==> |msg.value| >= 1
    ensures Valid(m) ==> Valid(r)
    ensures msg.Some? && Forwarded(msg.value[0]) ==> r == Mailbox(msg.value[0])
    ensures msg.None? || !Forwarded(msg.value[0]) ==> r == m
  {
    match msg
    case None => m
    case Some(bytes) =>
      var code := bytes[0];
      if Forwarded(code) then Set(m, code) else m
  }

  /** The menu's event for a forwarded code. */
  function EventOf(code: nat): (e: Menu.Event)
    requires Forwarded(code)
    ensures code == ROTARY_BUTTON <==> e == Menu.RotaryButton
    ensures code == ROTARY_LEFT <==> e == Menu.RotaryLeft
    ensures code == ROTARY_RIGHT <==> e == Menu.RotaryRight
  {
    if code == ROTARY_BUTTON then Menu.RotaryButton
    else if code == ROTARY_LEFT then Menu.RotaryLeft
    else Menu.RotaryRight
  }

  /** What the menu sees on one frame: the pending event if any, and the
      mailbox after the fetch. */
  function Poll(m: Mailbox): (r: (Option<Menu.Event>, Mailbox))
    requires Valid(m)
    ensures r.0.Some? <==> Pending(m)
    ensures r.1 == EMPTY
  {
    var (ok, code, m') := Fetch(m, TOTAL_EVENT_COUNT);
    if ok then (Some(EventOf(code)), m') else (None, m')
  }

  // ---------------------------------------------------------------------------
  // Properties

  /** An event is taken at most once: straight after a fetch, a second
      fetch finds nothing and keeps the caller's output. */
  lemma FetchTakesOnce(m: Mailbox, out: nat, out': nat)
    ensures var r := Fetch(m, out);
            Fetch(r.2, out') == (false, out', r.2)
  {
  }

  /** Of several events posted before the menu looks, it sees only the
      last one. */
  lemma LatestWins(m: Mailbox, codes: seq<nat>, out: nat)
    requires |codes| >= 1 && codes[|codes| - 1] != TOTAL_EVENT_COUNT
    ensures Fetch(SetAll(m, codes), out) == (true, codes[|codes| - 1], EMPTY)
  {
  }

  /** The mailbox after posting each code in turn. */
  function SetAll(m: Mailbox, codes: seq<nat>): (r: Mailbox)
    ensures |codes| == 0 ==> r == m
    ensures |codes| > 0 ==> r == Mailbox(codes[|codes| - 1])
    decreases |codes|
  {
    if |codes| == 0 then m else Set(SetAll(m, codes[..|codes| - 1]), codes[|codes| - 1])
  }

  /** Receiving a message leaves a pending event exactly when its first
      byte is a rotary event, or when one was already pending. */
  lemma ReceiveFilters(m: Mailbox, msg: seq<byte>)
    requires |msg| >= 1 && Valid(m)
    ensures Pending(Receive(m, Some(msg))) <==> Forwarded(msg[0]) || Pending(m)
    ensures Forwarded(msg[0]) ==> Poll(Receive(m, Some(msg))).0 == Some(EventOf(msg[0]))
  {
  }

  /** Bytes after the first play no part: two messages with the same first
      byte act alike. */
  lemma FirstByteDecides(m: Mailbox, a: seq<byte>, b: seq<byte>)
    requires |a| >= 1 && |b| >= 1 && a[0] == b[0]
    ensures Receive(m, Some(a)) == Receive(m, Some(b))
  {
  }

  /** The front buttons never reach the menu. */
  lemma FrontButtonsDropped(m: Mailbox, msg: seq<byte>)
    requires |msg| >= 1 && (msg[0] == BUTTON_0 || msg[0] == BUTTON_1)
    ensures Receive(m, Some(msg)) == m
  {
  }

  /** The four bytes the sensor board sends for an event (a little-endian
      32-bit code) carry the code in their first byte, so every code the
      board emits arrives as itself. */
  lemma BoardCodeArrives(m: Mailbox, code: nat)
    requires code < TOTAL_EVENT_COUNT
    ensures |EncodeU32(code)| == 4
    ensures Receive(m, Some(EncodeU32(code))) == if Forwarded(code) then Mailbox(code) else m
  {
  }
}

=== FILE: wire.dfy ===
/**
 * The frame layout shared by the radar, the sensor board firmware and the host
 * parser: a 40-byte header that opens with an 8-byte magic, then records of an
 * 8-byte (type, length) header followed by the payload. All fields are little
 * endian.
 */
module Wire {
  import opened Bytes

  /** sizeof(MmwDemo_output_message_header): 4 x u16 magic words, 8 x u32. */
  const HEADER_SIZE: nat := 40
  /** sizeof(MmwDemo_output_message_tlv): u32 type, u32 length. */
  const RECORD_HEADER_SIZE: nat := 8
  /** Where the first record's payload starts. */
  const PAYLOAD_OFFSET: nat := HEADER_SIZE + RECORD_HEADER_SIZE
  const MAGIC_SIZE: nat := 8

  /** Byte offsets of the header fields the parser and the encoder touch. */
  const TOTAL_LEN_OFFSET: nat := 12
  const FRAME_NUMBER_OFFSET: nat := 20
  const CPU_CYCLES_OFFSET: nat := 24
  /** The first record header: type, then length. */
  const RECORD_TYPE_OFFSET: nat := HEADER_SIZE
  const RECORD_LENGTH_OFFSET: nat := HEADER_SIZE + 4

  /** The four magic words the senders write, as u16 values. */
  const MAGIC_WORDS: seq<nat> := [0x0102, 0x0304, 0x0506, 0x0708]

  /** The byte pattern the host scans for. */
  const MAGIC: seq<byte> := [2, 1, 4, 3, 6, 5, 8, 7]

  /** The magic words, serialised least significant byte first, are the
      host's magic key. */
  lemma MagicWordsSerialise()
    ensures |MAGIC| == MAGIC_SIZE
    ensures EncodeU16(MAGIC_WORDS[0]) + EncodeU16(MAGIC_WORDS[1])
            + EncodeU16(MAGIC_WORDS[2]) + EncodeU16(MAGIC_WORDS[3]) == MAGIC
  {
  }
}
